=== FILE: README.md ===
# BongoMart storefront core in Dafny

A model of BongoMart's storefront logic, with proofs about it:

- the mock products API: the product catalogue, lookup by id, category and search filters, featured products and the category list;
- the mock orders API: an order ledger numbered from 1001, order lookup, and order creation;
- the Redux slices for products, cart, wishlist, authentication and UI flags;
- the decisions made by the cart, checkout, login, product-list and product-detail pages.

Each reducer is a pure function from the old slice state (and the action payload) to the new one. Each async API call is a pure function of the data it reads: the catalogue, the order ledger or the account registry. Its simulated delay is dropped.

Modules:

| module | file | models |
|---|---|---|
| `Types` | types.dfy | products, cart lines, users, orders, `Option`/`Result` |
| `Text` | text.dfy | JavaScript string helpers: whitespace, `trim`, `toLowerCase`, `includes`, digit filters, decimal printing |
| `Seqs` | seqs.dfy | `filter`, a stable sort keyed by a number, first-seen de-duplication (`new Set`) |
| `Catalog` | catalog.dfy | `src/api/products.ts` |
| `Pricing` | pricing.dfy | subtotal, shipping, 8% tax and total, as computed on the cart and checkout pages |
| `Orders` | orders.dfy | `src/api/orders.ts` |
| `ProductsSlice` | products_slice.dfy | `src/store/slices/productsSlice.ts` |
| `CartSlice` | cart_slice.dfy | `src/store/slices/cartSlice.ts` |
| `WishlistSlice` | wishlist_slice.dfy | `src/store/slices/wishlistSlice.ts` |
| `AuthSlice` | auth_slice.dfy | `src/store/slices/authSlice.ts` |
| `UISlice` | ui_slice.dfy | `src/store/slices/uiSlice.ts` |
| `CartPage` | cart_page.dfy | `src/pages/CartPage.tsx` |
| `CheckoutPage` | checkout_page.dfy | `src/pages/CheckoutPage.tsx` |
| `LoginPage` | login_page.dfy | `src/pages/LoginPage.tsx` |
| `ProductsPage` | products_page.dfy | `src/pages/ProductsPage.tsx` |
| `ProductDetailPage` | product_detail_page.dfy | `src/pages/ProductDetailPage.tsx` |

Modelling choices:

- **Prices and ratings are exact `real`s.** So `149.99 * 2` is exact, and the 8% tax is `subtotal * 8 / 100`.
- **Letter case is ASCII only.** `toLowerCase` and `toUpperCase` change A–Z and a–z and nothing else.
- **Whitespace is JavaScript's set.** `\s` and `trim` use JavaScript's whitespace: the ASCII spaces plus the Unicode space characters.
- **Sorting is stable.** `Array.prototype.sort` is stable, so it is modelled as an insertion sort on a numeric key. A descending sort uses the negated key. Stability is stated as: for every key value, the items with that key keep their input order.
- **Module-level lists are parameters.** `MOCK_ORDERS` is a `ledger` value, and `createOrder` returns the extended ledger. `MOCK_USERS` is a `registry`. `MOCK_PRODUCTS` is a `catalog`. The seed constants appear verbatim as `Catalog.MockProducts`, `Orders.SeedOrders` and `AuthSlice.MockUsers`.

Behaviour of the code that the model keeps as written:

- **Search:** an empty search query matches every product, because every string includes `""` (src/api/products.ts:221-228).
- **Order total:** `createOrder` stores the plain item subtotal (src/api/orders.ts:143). The checkout page shows a total that adds shipping and tax.
- **Quantities:** `updateCartItemQuantity` stores any quantity, 0 and negatives included (src/store/slices/cartSlice.ts:61-69). Only the cart page ignores values below 1 (src/pages/CartPage.tsx:28-32).
- **Empty cart:** `createOrder` accepts an empty cart and returns an order with no lines and total 0 (src/api/orders.ts:127-171).

## Model

| member | source | states |
|---|---|---|
| Catalog.Ids | src/api/products.ts:7-188 | the id list of a catalogue, position by position |
| Catalog.MockProductsIds | src/api/products.ts:7-188 | the twenty mock products carry ids 1..20 in order, so ids are unique |
| Catalog.FetchProductById | src/api/products.ts:198-207 | returns the first catalogue product with the requested id, or fails with "Product not found" exactly when no product has that id |
| Catalog.FetchProductByIdFindsUnique | src/api/products.ts:198-207 | with unique ids, looking up the id of any catalogue product returns that very product |
| Catalog.FetchProductsByCategory | src/api/products.ts:210-218 | "all" in any letter case returns the whole catalogue; otherwise exactly the products whose category matches case-insensitively, each as often as in the catalogue, in catalogue order |
| Catalog.SearchProducts | src/api/products.ts:221-228 | keeps exactly the products whose lower-cased title or description contains the lower-cased query, each as often as in the catalogue, in catalogue order |
| Catalog.SearchEmptyQuery | src/api/products.ts:221-228 | an empty query returns the whole catalogue |
| Catalog.FeaturedProducts | src/api/products.ts:231-238 | six catalogue entries (all of them when there are fewer), none used more often than it occurs in the catalogue, in descending rating; every catalogue entry left out, counting each copy of a repeated entry, is rated no higher than the sixth |
| Catalog.FeaturedOfRatedLikeMock | src/api/products.ts:231-238 | for any catalogue rated like the mock one, the featured list is products 6, 13, 1, 11, 17, 4, with ties kept in catalogue order |
| Catalog.FeaturedIdsOfRatedLikeMock | src/api/products.ts:231-238 | the same result stated as ids for a catalogue numbered 1..20 |
| Catalog.FeaturedMockProducts | src/api/products.ts:7-238 | the featured ids of the mock catalogue are 6, 13, 1, 11, 17, 4 |
| Catalog.MockProductsRated | src/api/products.ts:7-188 | the mock products carry the ratings the featured-list lemmas assume |
| Catalog.FeaturedMockRun1 | src/api/products.ts:234-237 | the stable descending sort of the last five mock ratings |
| Catalog.FeaturedMockRun2 | src/api/products.ts:234-237 | the top six of the stable descending sort of the last nine mock ratings |
| Catalog.FeaturedMockRun3 | src/api/products.ts:234-237 | the top six of the stable descending sort of the last thirteen mock ratings |
| Catalog.FeaturedMockRun4 | src/api/products.ts:234-237 | the top six of the stable descending sort of the last seventeen mock ratings |
| Catalog.FeaturedMockRun5 | src/api/products.ts:234-237 | the top six of the stable descending sort of all twenty mock ratings |
| Catalog.CategoryList | src/api/products.ts:244 | the category of each product, position by position |
| Catalog.Categories | src/api/products.ts:241-246 | the distinct categories in order of first appearance: no duplicates, every product's category present, nothing else |
| Catalog.MockCategories | src/api/products.ts:7-246 | the mock catalogue yields electronics, clothing, furniture, home, sports |
| Catalog.MockCategoryList | src/api/products.ts:7-188 | the twenty categories of the mock products in order |
| Catalog.DistinctMockCategories | src/api/products.ts:244-245 | first-seen de-duplication of the mock category list gives the five categories |
| Catalog.InsertMockCategoriesA | src/api/products.ts:244-245 | de-duplication of the first four mock categories |
| Catalog.InsertMockCategoriesB | src/api/products.ts:244-245 | de-duplication of mock categories 5 to 8 |
| Catalog.InsertMockCategoriesC | src/api/products.ts:244-245 | de-duplication of mock categories 9 to 12 |
| Catalog.InsertMockCategoriesD | src/api/products.ts:244-245 | de-duplication of mock categories 13 to 16 |
| Catalog.InsertMockCategoriesE | src/api/products.ts:244-245 | de-duplication of mock categories 17 to 20 |
| Pricing.Subtotal | src/pages/CartPage.tsx:47-48 | definition: the left-to-right sum of price times quantity over the cart lines |
| Pricing.Tax | src/pages/CartPage.tsx:50 | definition: 8% of the subtotal |
| Pricing.SubtotalAppend | src/pages/CartPage.tsx:47-48 | the subtotal of two carts joined is the sum of their subtotals |
| Pricing.SubtotalAfterAppend | src/store/slices/cartSlice.ts:35-47 | adding a product that is not in the cart raises the subtotal by price times quantity |
| Pricing.SubtotalAfterMerge | src/store/slices/cartSlice.ts:35-47 | adding more of a product already in the cart raises the subtotal by that line's price times the added quantity |
| Pricing.SubtotalAfterRemove | src/store/slices/cartSlice.ts:49-59 | removing a line lowers the subtotal by exactly that line's total |
| Pricing.SubtotalReplace | src/store/slices/cartSlice.ts:61-69 | replacing one line changes the subtotal by the difference of the two line totals |
| Pricing.Shipping | src/pages/CartPage.tsx:49 | shipping is free exactly above a 50 subtotal and 10 otherwise |
| Pricing.OrderSummary | src/pages/CartPage.tsx:47-51 | subtotal is the sum of price times quantity; shipping 0 above 50, else 10; tax 8% of the subtotal; total their sum |
| Pricing.ShippingThreshold | src/pages/CheckoutPage.tsx:41 | a subtotal of exactly 50 still pays shipping; 50.01 does not |
| Pricing.TotalClosedForm | src/pages/CheckoutPage.tsx:39-43 | the total is 1.08 times the subtotal plus the shipping charge |
| Pricing.TotalNotMonotone | src/pages/CheckoutPage.tsx:39-43 | a cart worth 55 has a lower total (59.40) than one worth 50 (64.00) |
| Pricing.EmptyCartSummary | src/pages/CartPage.tsx:47-51 | an empty cart's summary is subtotal 0, shipping 10, tax 0, total 10 |
| Pricing.WorkedExample | src/pages/CartPage.tsx:47-51 | two units at 10 give subtotal 20, shipping 10, tax 1.60, total 31.60 |
| Orders.Snapshot | src/api/orders.ts:146-152 | an order line copies the product's id, price, title and image and the cart quantity |
| Orders.Snapshots | src/api/orders.ts:146-152 | the order lines are the cart lines' snapshots, one per line and in order |
| Orders.CreateOrder | src/api/orders.ts:127-171 | appends exactly one pending order to the ledger, with id 1000 + ledger length + 1, the given user, date and address, and the cart's snapshots |
| Orders.SnapshotsTotal | src/api/orders.ts:143-152 | the stored lines add up to the cart subtotal |
| Orders.CreatedTotal | src/api/orders.ts:143 | the stored total is the cart subtotal, and falls short of the checkout total by exactly shipping plus tax |
| Orders.EmptyCartOrder | src/api/orders.ts:127-171 | an empty cart is accepted and yields an order with no lines and total 0 |
| Orders.FetchUserOrders | src/api/orders.ts:112-117 | exactly the ledger's orders of that user, each as often as in the ledger, in ledger order |
| Orders.FetchOrderById | src/api/orders.ts:120-124 | the first order with that id, or nothing exactly when no order has it |
| Orders.SeedIds | src/api/orders.ts:8-109 | the three seed orders carry ids "1001", "1002", "1003" |
| Orders.SeedIdStrings | src/api/orders.ts:155 | printing 1001, 1002 and 1003 gives those ids |
| Orders.SeedNumbered | src/api/orders.ts:8-109 | the seed ledger is numbered consecutively from 1001 |
| Orders.CreateKeepsNumbering | src/api/orders.ts:155-169 | creating an order keeps a ledger numbered consecutively from 1001 |
| Orders.CreateThenFetch | src/api/orders.ts:120-169 | on such a ledger, looking up the new id returns the order just created, and the order is among the user's orders |
| Orders.NextIdIsFresh | src/api/orders.ts:155 | in a ledger numbered from 1001, no order carries a number past the last one, so the next id is new |
| Orders.FetchFindsAppended | src/api/orders.ts:120-124 | an order appended under an id no other order has is what looking that id up returns |
| Orders.SeedTotalsVersusItems | src/api/orders.ts:8-109 | the stored totals of seed orders 1001 and 1002 differ from the sum of their lines (329.94 and 254.97); 1003 agrees |
| ProductsSlice.Merge | src/store/slices/productsSlice.ts:47 | each filter field given in the patch replaces the old one; the others are kept |
| ProductsSlice.MergeIdempotent | src/store/slices/productsSlice.ts:47 | applying the same patch twice is applying it once |
| ProductsSlice.Admits | src/store/slices/productsSlice.ts:52-71 | definition: a product passes the category test (only for a non-empty category, exact match), the `minPrice \|\| 0` floor, the `maxPrice \|\| Infinity` ceiling and the case-insensitive title-or-description search (only for a non-empty query) |
| ProductsSlice.Filtered | src/store/slices/productsSlice.ts:50-71 | definition: the four successive `filter` passes of `setFilters`, each applied only when its filter is set |
| ProductsSlice.FilteredIsOneFilter | src/store/slices/productsSlice.ts:50-71 | the four successive filters amount to one filter by the conjunction of their tests |
| ProductsSlice.FilteredSpec | src/store/slices/productsSlice.ts:50-71 | the filtered list keeps exactly the products that pass category, minimum, maximum and search, each as often as among the items, in their original order |
| ProductsSlice.View | src/store/slices/productsSlice.ts:50-89 | sorting does not change the number of filtered products |
| ProductsSlice.ViewSpec | src/store/slices/productsSlice.ts:50-89 | the view is a permutation of the filtered list, holding each admitted item as often as the items do: in original order for the default sort, otherwise stably sorted by price ascending, price descending or rating descending |
| ProductsSlice.SetFilters | src/store/slices/productsSlice.ts:46-90 | merges the patch and recomputes the view from all items: exactly the items that pass the merged filters, each as often as among the items, in item order for the default sort, otherwise stably sorted by the chosen key; the items, loading flag and error are unchanged |
| ProductsSlice.SetFiltersIdempotent | src/store/slices/productsSlice.ts:46-90 | dispatching the same filter patch twice is dispatching it once |
| ProductsSlice.MaxPriceZeroIsUnbounded | src/store/slices/productsSlice.ts:60-62 | a maximum price of 0 filters like no maximum, because `0 \|\| Infinity` is Infinity |
| ProductsSlice.MinPriceZeroIsZero | src/store/slices/productsSlice.ts:56-58 | a minimum price of 0 admits every non-negative price |
| ProductsSlice.ClearFilters | src/store/slices/productsSlice.ts:92-95 | restores the initial filters and shows all items |
| ProductsSlice.InitialFiltersViewAll | src/store/slices/productsSlice.ts:16-22 | the initial filters show every item in its original order |
| ProductsSlice.ClearFiltersConsistent | src/store/slices/productsSlice.ts:92-95 | after clearing, the view is what those filters compute, and an empty patch changes nothing |
| ProductsSlice.LoadPending | src/store/slices/productsSlice.ts:100-102 | a fetch in flight sets the loading flag and changes nothing else |
| ProductsSlice.GetProductsFulfilled | src/store/slices/productsSlice.ts:103-107 | the payload becomes both items and view, whatever the active filters; loading stops |
| ProductsSlice.GetProductsFulfilledFiltered | src/store/slices/productsSlice.ts:103-107 | the corrected handler: the payload becomes the items, and the view holds exactly the payload items that pass the active filters, each as often as in the payload, in payload order for the default sort, otherwise stably sorted by the chosen key |
| ProductsSlice.GetProductsByCategoryFulfilled | src/store/slices/productsSlice.ts:117-122 | the payload becomes items and view, and the category filter is set to the route argument as given |
| ProductsSlice.CategoryMismatchEmptiesView | src/store/slices/productsSlice.ts:52-54 | if no fetched product's category equals the argument exactly, the next filter change empties the view |
| ProductsSlice.MockCategoriesNamed | src/api/products.ts:7-188 | every mock product has one of the five lower-case categories |
| ProductsSlice.AllOrMiscasedCategoryEmptiesView | src/store/slices/productsSlice.ts:52-54 | after `/category/all` or a mis-cased category, the next filter change shows nothing, although the fetch returned products |
| ProductsSlice.MockAllOrMiscasedCategoryEmptiesView | src/store/slices/productsSlice.ts:117-122 | the same on the mock catalogue |
| CartSlice.FindLine | src/store/slices/cartSlice.ts:36 | the index of the first line holding the product, or nothing exactly when no line holds it |
| CartSlice.AddToCart | src/store/slices/cartSlice.ts:35-47 | a product already in the cart has its quantity raised in place; otherwise it is appended as a new line |
| CartSlice.AddToCartAt | src/store/slices/cartSlice.ts:38-40 | adding to an existing line changes only that line's quantity |
| CartSlice.RemoveFromCart | src/store/slices/cartSlice.ts:49-59 | drops the first line holding the product and keeps the others in order; an absent product changes nothing |
| CartSlice.UpdateCartItemQuantity | src/store/slices/cartSlice.ts:61-69 | sets the quantity of the product's line, whatever the value; every other line and every product is unchanged |
| CartSlice.ClearCart | src/store/slices/cartSlice.ts:71-75 | the cart becomes empty |
| CartSlice.FetchCart | src/store/slices/cartSlice.ts:18-24 | the saved cart, or an empty one when nothing is saved |
| CartSlice.FetchCartFulfilled | src/store/slices/cartSlice.ts:82-85 | the loaded cart replaces the items and loading stops |
| CartSlice.FetchCartPending | src/store/slices/cartSlice.ts:79-81 | a load in flight raises the loading flag and changes nothing else |
| CartSlice.FetchCartRejected | src/store/slices/cartSlice.ts:86-89 | a failed load (stored text that does not parse) stops loading, keeps the lines, and records the error's message, or "Failed to fetch cart" when it is empty |
| CartSlice.FailedLoadKeepsCart | src/store/slices/cartSlice.ts:79-89 | a load that fails leaves the lines as they were with an error shown; one that returns the same lines only ends loading |
| CartSlice.ReloadRestoresCart | src/store/slices/cartSlice.ts:18-85 | reloading brings back the saved cart, or an empty one |
| CartSlice.AddToCartKeepsUniqueIds | src/store/slices/cartSlice.ts:35-47 | adding never creates a second line for the same product |
| CartSlice.RemoveAndUpdateKeepUniqueIds | src/store/slices/cartSlice.ts:49-69 | removing and updating keep one line per product |
| CartSlice.RemoveFromCartRemovesId | src/store/slices/cartSlice.ts:49-59 | with one line per product, the removed product is no longer in the cart |
| CartSlice.AddToCartTwice | src/store/slices/cartSlice.ts:35-47 | adding q1 and then q2 units equals adding q1 + q2 at once |
| CartSlice.AddThenRemove | src/store/slices/cartSlice.ts:35-59 | adding a new product and removing it restores the cart |
| CartSlice.UpdateTwice | src/store/slices/cartSlice.ts:61-69 | the last quantity update wins |
| WishlistSlice.AddToWishlist | src/store/slices/wishlistSlice.ts:21-28 | appends the product unless one with its id is listed; afterwards it is listed |
| WishlistSlice.RemoveFromWishlist | src/store/slices/wishlistSlice.ts:29-33 | no product with the id remains; every other product stays as often as before, in order |
| WishlistSlice.ClearWishlist | src/store/slices/wishlistSlice.ts:34-38 | the wishlist becomes empty |
| WishlistSlice.AddKeepsUniqueIds | src/store/slices/wishlistSlice.ts:21-28 | adding keeps product ids unique |
| WishlistSlice.RemoveKeepsUniqueIds | src/store/slices/wishlistSlice.ts:29-33 | removing keeps product ids unique |
| WishlistSlice.AddIdempotent | src/store/slices/wishlistSlice.ts:21-28 | adding the same product twice is adding it once |
| WishlistSlice.AddThenRemove | src/store/slices/wishlistSlice.ts:21-33 | adding a new product and removing it restores the wishlist |
| AuthSlice.WithoutPassword | src/store/slices/authSlice.ts:48 | the signed-in user keeps id, name and email, with the password dropped |
| AuthSlice.FindAccount | src/store/slices/authSlice.ts:42 | the first account whose email and password both match, or nothing exactly when none does |
| AuthSlice.Login | src/store/slices/authSlice.ts:35-56 | succeeds exactly when some account matches both email and password, returning the first such account's user; otherwise fails with "Invalid email or password" |
| AuthSlice.LoginFlow | src/store/slices/authSlice.ts:122-137 | definition: a whole `login` round, the pending reducer followed by the fulfilled or rejected reducer for the API outcome |
| AuthSlice.LoginFlowOutcome | src/store/slices/authSlice.ts:122-137 | after a login round the error is cleared exactly on success, and on failure it is the invalid-credentials message; loading has stopped |
| AuthSlice.MockLogin | src/store/slices/authSlice.ts:20-56 | the two demo accounts sign in with "password"; a wrong password is refused |
| AuthSlice.Register | src/store/slices/authSlice.ts:59-89 | fails with "Email already in use" exactly when the email is taken; otherwise yields user number registry length + 1 with the given name and email |
| AuthSlice.RegisterDoesNotPersist | src/store/slices/authSlice.ts:76-80 | registration never grows the registry: two sign-ups get the same id, and the new account cannot sign in |
| AuthSlice.MockRegister | src/store/slices/authSlice.ts:20-89 | on the demo registry a fresh email becomes user 3, and jane@example.com is refused |
| AuthSlice.ClearError | src/store/slices/authSlice.ts:101-103 | the error is removed and nothing else changes |
| AuthSlice.CheckAuthState | src/store/slices/authSlice.ts:26-32 | definition: the user saved in local storage, or none; the storage read is the parameter |
| AuthSlice.CheckAuthPending | src/store/slices/authSlice.ts:108-110 | only the loading flag is set |
| AuthSlice.CheckAuthFulfilled | src/store/slices/authSlice.ts:111-115 | the stored user becomes the session user, and the session is signed in exactly when there is one |
| AuthSlice.CheckAuthRejected | src/store/slices/authSlice.ts:116-119 | loading stops and the session is signed out |
| AuthSlice.RequestPending | src/store/slices/authSlice.ts:122-125 | a login or registration in flight sets loading and clears the error |
| AuthSlice.SignedIn | src/store/slices/authSlice.ts:126-132 | a successful login or registration signs the user in with no error |
| AuthSlice.Rejected | src/store/slices/authSlice.ts:133-137 | a refused login or registration records the message and leaves the session as it was |
| AuthSlice.Settle | src/store/slices/authSlice.ts:126-155 | an API outcome signs the user in or records its error, and stops loading |
| AuthSlice.LogoutFulfilled | src/store/slices/authSlice.ts:158-162 | the session is signed out with no user |
| AuthSlice.SessionRestore | src/store/slices/authSlice.ts:26-32 | after logout a reload finds no session; a saved user is restored as signed in |
| AuthSlice.ClearErrorAfterRejection | src/store/slices/authSlice.ts:101-103 | clearing after a rejection restores the state before it, and clearing twice is clearing once |
| UISlice.ToggleMobileMenu | src/store/slices/uiSlice.ts:17-19 | flips the menu flag only |
| UISlice.CloseMobileMenu | src/store/slices/uiSlice.ts:20-22 | closes the menu and leaves dark mode alone |
| UISlice.ToggleDarkMode | src/store/slices/uiSlice.ts:23-26 | flips dark mode only |
| UISlice.SetDarkMode | src/store/slices/uiSlice.ts:27-29 | sets dark mode to the payload, menu unchanged |
| UISlice.TogglesAreInvolutions | src/store/slices/uiSlice.ts:17-26 | toggling twice restores the state; closing twice is closing once |
| UISlice.SetDarkModeVersusToggle | src/store/slices/uiSlice.ts:23-29 | setting the opposite mode is a toggle; setting the current one changes nothing |
| UISlice.FlagsIndependent | src/store/slices/uiSlice.ts:17-29 | menu and dark-mode actions commute |
| CartPage.HandleQuantityChange | src/pages/CartPage.tsx:28-32 | a quantity below 1 is ignored; otherwise the update is dispatched |
| CartPage.QuantityChangeKeepsPositive | src/pages/CartPage.tsx:28-32 | whatever the buttons send, every line keeps at least one unit |
| CartPage.ReducerAcceptsZero | src/pages/CartPage.tsx:28-32 | the reducer alone would leave a line with zero units; the page does not dispatch it |
| CartPage.StepButtons | src/pages/CartPage.tsx:135-150 | the minus button (enabled above 1) and the plus button each move a line's quantity by one |
| CartPage.HandleCheckout | src/pages/CartPage.tsx:38-44 | signed in goes to /checkout; otherwise to /login, with /checkout as the way back |
| CartPage.ItemCountHeading | src/pages/CartPage.tsx:85 | the line count, then " Item", with a trailing "s" exactly when the count is not 1 |
| CartPage.ItemCountHeadingInjective | src/pages/CartPage.tsx:85 | different line counts give different headings |
| CartPage.ItemCountHeadingExamples | src/pages/CartPage.tsx:85 | "1 Item" and "3 Items"; the template's value at 0 is "0 Items", which the page never shows because an empty cart renders the empty-cart panel instead (line 54) |
| CheckoutPage.Step | src/pages/CheckoutPage.tsx:45-55 | each button moves one step: forward from shipping or payment, back from payment or review; review is reached only from payment |
| CheckoutPage.RunStaysInRange | src/pages/CheckoutPage.tsx:16 | any sequence of button presses keeps the step within 1..3 |
| CheckoutPage.ReviewNeedsPayment | src/pages/CheckoutPage.tsx:51-55 | reaching the review step from another step requires submitting payment |
| CheckoutPage.HappyPath | src/pages/CheckoutPage.tsx:45-55 | shipping then payment reaches review, and the two back buttons return to shipping |
| CheckoutPage.GroupDigits | src/pages/CheckoutPage.tsx:314 | definition: `replace(/(\d{4})/g, '$1 ')`, scanning from the left, puts a space after every run of four digits and copies every other character |
| CheckoutPage.CardDisplay | src/pages/CheckoutPage.tsx:314 | definition: the card field's displayed value: white space removed, digits grouped in fours, then trimmed |
| CheckoutPage.RemoveSpacesOfGroup | src/pages/CheckoutPage.tsx:314 | grouping digits in fours adds only spaces |
| CheckoutPage.RemoveSpacesOfTrim | src/pages/CheckoutPage.tsx:314 | trimming removes only spaces |
| CheckoutPage.CardDisplayIdempotent | src/pages/CheckoutPage.tsx:314 | re-formatting the displayed card number leaves it unchanged and keeps its non-space characters |
| CheckoutPage.GroupDigitsOfDigits | src/pages/CheckoutPage.tsx:314 | on a digit string the grouping inserts a space after every full group of four |
| CheckoutPage.GroupedShape | src/pages/CheckoutPage.tsx:314 | the grouped digits have a space at every fifth position and the digits in order elsewhere |
| CheckoutPage.CardDisplayIsGrouped | src/pages/CheckoutPage.tsx:314 | the displayed value of a digit string is its grouping without a trailing space |
| CheckoutPage.CardDisplayOfDigits | src/pages/CheckoutPage.tsx:314 | removing spaces from the display gives back the digits; sixteen digits display as nineteen characters |
| CheckoutPage.MaskedCard | src/pages/CheckoutPage.tsx:432 | "**** **** **** " followed by the last four characters (or all of a shorter number) |
| CheckoutPage.MaskedCardOfDisplay | src/pages/CheckoutPage.tsx:314-432 | masking the grouped display of a card number shows the last four digits of a 16-digit number, but only a space and the last three digits of a 15-digit one |
| CheckoutPage.ExpiryChange | src/pages/CheckoutPage.tsx:332-340 | a slash is appended when the second character is typed; input over five characters is refused |
| CheckoutPage.ExpiryTyping | src/pages/CheckoutPage.tsx:332-340 | typing 1, 2, 2, 5, 3 shows "12/25"; deleting back to "12" drops the slash |
| CheckoutPage.CvvAfter | src/pages/CheckoutPage.tsx:355-360 | definition: the CVV field after a run of change events, each handled by the CVV change handler |
| CheckoutPage.CvvChange | src/pages/CheckoutPage.tsx:355-360 | non-digits are stripped, and a result of more than four digits is refused |
| CheckoutPage.CvvStaysShortDigits | src/pages/CheckoutPage.tsx:355-360 | any typing keeps the CVV at four digits or fewer |
| CheckoutPage.ItemCount | src/pages/CheckoutPage.tsx:479 | definition: the left-to-right sum of the line quantities, the number of units shown in the order summary |
| CheckoutPage.ItemCountAppend | src/pages/CheckoutPage.tsx:479 | the unit count of two carts joined is the sum of their counts |
| CheckoutPage.ItemCountAfterAdd | src/pages/CheckoutPage.tsx:479 | adding q units of a product raises the unit count by q, merged or appended |
| CheckoutPage.InitialShippingInfo | src/pages/CheckoutPage.tsx:20-29 | the form opens empty, with the user's email and "United States" |
| CheckoutPage.FullName | src/pages/CheckoutPage.tsx:62 | first name, one space, last name |
| CheckoutPage.OrderUserId | src/pages/CheckoutPage.tsx:69 | the signed-in user's id, or 1 when there is no user or the id is 0 |
| CheckoutPage.AddressOf | src/pages/CheckoutPage.tsx:71-78 | the order address copies the form fields, with the full name as its name |
| CheckoutPage.PlaceOrder | src/pages/CheckoutPage.tsx:57-90 | creates the order, empties the cart and routes to /order-confirmation/ followed by the new id |
| CheckoutPage.PlacedOrderIsFound | src/pages/CheckoutPage.tsx:57-90 | the confirmation page can look the placed order up by its id; it is among the user's orders (user 1 when signed out), with one line per cart line |
| LoginPage.EmailPattern | src/pages/LoginPage.tsx:41 | definition: the unanchored `\S+@\S+\.\S+`: some '@' preceded by a non-space character, then at least one non-space character, a '.', and a non-space character, with no white space between the '@' and that '.' |
| LoginPage.ValidateForm | src/pages/LoginPage.tsx:30-53 | a blank email is required, one not matching `\S+@\S+\.\S+` is invalid, an empty password is required; the form is valid exactly when there are no messages |
| LoginPage.PatternIsNotBlank | src/pages/LoginPage.tsx:38-43 | an email that matches the pattern is never blank |
| LoginPage.ValidIff | src/pages/LoginPage.tsx:30-53 | the form is valid exactly when the email matches the pattern and a password is given |
| LoginPage.PatternExamples | src/pages/LoginPage.tsx:41 | user@example.com matches; user@example, a@.c and "a@b c.d" do not |
| LoginPage.HandleSubmit | src/pages/LoginPage.tsx:55-69 | an invalid form changes nothing; a valid one clears the error and runs a login |
| LoginPage.InitialFormSignsIn | src/pages/LoginPage.tsx:10-11 | the pre-filled form is valid and signs John Doe in |
| LoginPage.RedirectTarget | src/pages/LoginPage.tsx:21 | the page to return to, or "/" when none is given |
| LoginPage.CheckoutRoundTrip | src/pages/LoginPage.tsx:21 | a shopper sent to sign in from the cart returns to /checkout |
| ProductsPage.SearchParam | src/pages/ProductsPage.tsx:15 | the `search` URL parameter, or "" when absent |
| ProductsPage.MountDispatches | src/pages/ProductsPage.tsx:21-30 | with a category only that category is fetched; otherwise all products are fetched, then the search is set when it is non-empty |
| ProductsPage.MountSearchIsLost | src/pages/ProductsPage.tsx:21-30 | as written, the search filter is recorded, but the view shows the whole payload, including products that do not match |
| ProductsPage.MountSearchCounterexample | src/pages/ProductsPage.tsx:21-30 | mounting with ?search=camera on a catalogue of one mug shows the mug, which the recorded filter rejects |
| ProductsPage.MountSearchCorrectedIsSearch | src/pages/ProductsPage.tsx:21-30 | with the corrected handler, mounting with a search shows exactly the search API's result |
| ProductsPage.Heading | src/pages/ProductsPage.tsx:42-48 | "\<Category\> Products" with the first letter capitalised, else the search results title, else "All Products" |
| ProductsPage.HeadingKeepsCategory | src/pages/ProductsPage.tsx:44 | the heading begins with the category, up to letter case |
| ProductsPage.HeadingExamples | src/pages/ProductsPage.tsx:42-48 | "Electronics Products", `Search Results for "lamp"`, "All Products" |
| ProductsPage.PresetBounds | src/pages/ProductsPage.tsx:95-140 | only "All" clears both bounds; only "Over $200" has a minimum without a maximum |
| ProductsPage.SelectPrice | src/pages/ProductsPage.tsx:32-34 | a price choice sets both bounds and keeps the other filters and the items |
| ProductsPage.Checked | src/pages/ProductsPage.tsx:95-140 | definition: the `checked` expression of each price radio button: both bounds null; maximum 50; 50 and 100; 100 and 200; minimum 200 with no maximum |
| ProductsPage.PresetCheckedExactly | src/pages/ProductsPage.tsx:95-140 | after choosing a price range, exactly that radio button is checked |
| ProductsPage.PresetPriceWindow | src/pages/ProductsPage.tsx:95-140 | after choosing a range, a product passes the price filters exactly when its price lies in that range |
| ProductsPage.PresetBoundsWindow | src/store/slices/productsSlice.ts:56-62 | the minimum and maximum filters with a preset's bounds admit exactly that preset's prices |
| ProductsPage.PriceChipOf | src/pages/ProductsPage.tsx:183-217 | the price chip shows a range, "Over" or "Under" according to which bounds are set, and is absent exactly when neither is |
| ProductsPage.PanelShown | src/pages/ProductsPage.tsx:179 | definition: the applied-filters panel shows when either price bound is set or the search is non-empty |
| ProductsPage.PanelShownIffChip | src/pages/ProductsPage.tsx:179 | the active-filters panel shows exactly when a price chip or a search chip does |
| ProductsPage.PresetChips | src/pages/ProductsPage.tsx:183-217 | the chip shown for each chosen price range |
| ProductsPage.ChipRemoval | src/pages/ProductsPage.tsx:187-223 | removing the price chip checks "All" and hides the chip; removing the search chip keeps the price chip |
| ProductDetailPage.Load | src/pages/ProductDetailPage.tsx:31-48 | shows the product with the route id and clears the error, or keeps the old product and shows "Failed to load product information" exactly when no product has that id; loading stops |
| ProductDetailPage.LoadShowsCatalogProduct | src/pages/ProductDetailPage.tsx:31-48 | with unique ids, the route id of a catalogue product shows that product |
| ProductDetailPage.LoadUnknownId | src/pages/ProductDetailPage.tsx:31-48 | an unknown id shows only the error |
| ProductDetailPage.Images | src/pages/ProductDetailPage.tsx:57-67 | four copies of the product image, or none without a product |
| ProductDetailPage.ArrowsShownIffProduct | src/pages/ProductDetailPage.tsx:139 | the carousel arrows show exactly when a product is loaded |
| ProductDetailPage.Next | src/pages/ProductDetailPage.tsx:150 | the next image index, wrapping from the last image to the first |
| ProductDetailPage.Prev | src/pages/ProductDetailPage.tsx:143 | the previous image index, wrapping from the first image to the last |
| ProductDetailPage.ArrowsInverse | src/pages/ProductDetailPage.tsx:143-150 | each arrow undoes the other |
| ProductDetailPage.AdvanceCompose | src/pages/ProductDetailPage.tsx:150 | a presses then b presses are a + b presses |
| ProductDetailPage.FullTurn | src/pages/ProductDetailPage.tsx:150 | as many right presses as there are images return to the starting image |
| ProductDetailPage.Decrement | src/pages/ProductDetailPage.tsx:226-227 | one less, but never below 1 |
| ProductDetailPage.Increment | src/pages/ProductDetailPage.tsx:234 | one more, always allowed; from a quantity of at least 1 it enables the minus button, and minus brings the quantity back |
| ProductDetailPage.StepperInverse | src/pages/ProductDetailPage.tsx:226-234 | plus then minus restores the quantity, and so does minus then plus while minus is enabled |
| ProductDetailPage.PressesStayPositive | src/pages/ProductDetailPage.tsx:26-234 | starting from 1, any run of presses keeps the quantity at least 1, moving by at most one per press |
| ProductDetailPage.HandleAddToCart | src/pages/ProductDetailPage.tsx:50-54 | adds the chosen quantity of the shown product, and does nothing without one |
| ProductDetailPage.AddFromPageCounts | src/pages/ProductDetailPage.tsx:50-54 | adding from the page raises the cart's unit count by exactly the chosen quantity |
| Text.ToLowerIdempotent | src/store/slices/productsSlice.ts:65 | lower-casing leaves no upper-case letter and is idempotent |
| Text.IncludesIffOccurs | src/store/slices/productsSlice.ts:68-69 | `includes` holds exactly when the query occurs at some position |
| Text.TrimEmptyIffBlank | src/pages/LoginPage.tsx:38 | trimming gives "" exactly when the string is all whitespace |
| Text.NatToStringInjective | src/api/orders.ts:155 | different order numbers print differently |
| Seqs.SortByIsStableSort | src/store/slices/productsSlice.ts:74-87 | the sort yields an ordered permutation that keeps equal keys in input order |
| Seqs.DistinctSpec | src/api/products.ts:244-245 | `Array.from(new Set(...))`: no duplicates, nothing new, nothing lost, first-appearance order |

## Left out

- The simulated network delays (`setTimeout`), `window.scrollTo`, toasts and console logging: none of them affect state.
- localStorage: the save helpers of the cart and wishlist are identity writes; only the read path (`fetchCart`, `checkAuthState`) is modelled, with the saved value as a parameter.
- CartSlice.FetchCart: JSON parsing is not modelled. A stored cart is taken as already parsed. Stored text that does not parse is represented by dispatching `FetchCartRejected` with the parser's message, without a model of which texts fail.
- The rejected cases of `getProducts` and `getProductsByCategory`: the mock API never throws there, so these paths are unreachable.
- The `catch` branches of `login` and `register` that rewrap an unexpected exception: the mock implementation never throws anything but the two messages modelled.
- Floating-point rounding and `toFixed(2)`: prices are exact reals, so a sum such as 0.1 + 0.2 is exact here, which it is not in JavaScript.
- The regular-expression engine: the login email pattern is stated directly over the characters.
- ProductDetailPage.Load: the route parameter is taken as an already parsed integer; `parseInt` of arbitrary text is not modelled.
- ProductDetailPage.Next: requires the index to be within the image list. The page keeps it there, because it starts at 0 and only the two arrows move it.
- ProductDetailPage.Prev: requires the index to be within the image list, for the same reason.
- The `maxLength` attributes of the card, expiry and CVV inputs, which the browser enforces before the change handlers run.
- The unused `fullAddress` string built in `handlePlaceOrder`, and the `isProcessing` spinner.
- Rendering and routing: markup, icons, the rating checkboxes (which dispatch nothing), OrderConfirmationPage, SearchBar and the dashboard are not part of this model.
- Catalog.FeaturedProducts: the general contract states ordering, multiplicity and the cut at six, but not the tie order. Ties keep catalogue order, which is proved for the sort in general (`Seqs.SortByIsStableSort`) and for the mock ratings (`FeaturedOfRatedLikeMock`).
- Orders.SeedTotalsVersusItems: records that two seed orders store totals that do not match their lines. That is seed data, so nothing else in the model depends on it.

## Findings

| source | as written | input that shows it | evidently intended | confidence | as-written member | corrected member |
|---|---|---|---|---|---|---|
| src/pages/ProductsPage.tsx:21-30 with src/store/slices/productsSlice.ts:103-107 | On mount without a category, the page dispatches `getProducts()` and then `setFilters({ searchQuery })` right away. `setFilters` filters the items already in the store, which are still empty. When the fetch completes, `getProducts.fulfilled` sets the view to the whole payload. The search stays in the filters but no longer applies to the list. | opening `/products?search=camera` on a catalogue holding only a mug: the page lists the mug under `Search Results for "camera"` | the listed products are those matching the search, as `searchProducts` would return | not executed | ProductsPage.MountSearchCounterexample | ProductsPage.MountSearchCorrectedIsSearch |

=== FILE: auth_slice.dfy ===
/**
 Authentication of `src/store/slices/authSlice.ts`: the credential check
 against a fixed registry of accounts, the registration conflict rule, and
 the state transitions of every reducer. The registry is a parameter (the
 source's is the two-account `MOCK_USERS`); local storage is the `stored`
 value that `checkAuthState` reads, and toasts are left out.
 */
module AuthSlice {
  import opened Types

  /** A registry entry, password included. */
  datatype Account = Account(id: int, email: string, password: string, name: string)

  const MockUsers: seq<Account> := [
    Account(1, "user@example.com", "password", "John Doe"),
    Account(2, "jane@example.com", "password", "Jane Smith")
  ]

  datatype AuthState = AuthState(isAuthenticated: bool, user: Option<User>, isLoading: bool, error: Option<string>)

  /** Signed out and loading until the stored session has been checked. */
  const InitialState := AuthState(false, None, true, None)

  const InvalidCredentials := "Invalid email or password"
  const EmailInUse := "Email already in use"

  /** The account as the session sees it: the password field is dropped. */
  function WithoutPassword(a: Account): (u: User)
    ensures u.id == a.id && u.email == a.email && u.name == Some(a.name)
  {
    User(a.id, Some(a.name), a.email)
  }

  predicate Matches(a: Account, email: string, password: string) {
    a.email == email && a.password == password
  }

  /** `MOCK_USERS.find(u => u.email === email && u.password === password)` */
  function FindAccount(registry: seq<Account>, email: string, password: string): (r: Option<nat>)
    ensures r.None? <==> forall i :: 0 <= i < |registry| ==> !Matches(registry[i], email, password)
    ensures r.Some? ==> r.value < |registry| && Matches(registry[r.value], email, password)
    ensures r.Some? ==> forall j :: 0 <= j < r.value ==> !Matches(registry[j], email, password)
  {
    if registry == [] then None
    else if Matches(registry[0], email, password) then Some(0)
    else
      var rest := FindAccount(registry[1..], email, password);
      assert forall i :: 1 <= i < |registry| ==> registry[i] == registry[1..][i - 1];
      if rest.None? then None else Some(rest.value + 1)
  }

  /**
   `login({email, password})`: the first account matching both fields,
   without its password, or a rejection with "Invalid email or password".
   */
  function Login(registry: seq<Account>, email: string, password: string): (r: Result<User>)
    ensures r.Success? <==> exists i :: 0 <= i < |registry| && Matches(registry[i], email, password)
    ensures r.Failure? ==> r.error == InvalidCredentials
    ensures r.Success? ==> r.value.email == email
    ensures r.Success? ==> exists i :: (0 <= i < |registry| && Matches(registry[i], email, password)
      && r.value == WithoutPassword(registry[i])
      && forall j :: 0 <= j < i ==> !Matches(registry[j], email, password))
  {
    match FindAccount(registry, email, password)
    case None => Failure(InvalidCredentials)
    case Some(i) => Success(WithoutPassword(registry[i]))
  }

  predicate EmailTaken(registry: seq<Account>, email: string) {
    exists i :: 0 <= i < |registry| && registry[i].email == email
  }

  /**
   `register({name, email, password})`: a taken email is rejected with
   "Email already in use"; otherwise the new user gets id `|registry| + 1`.
   The password is discarded and the registry is not extended.
   */
  function Register(registry: seq<Account>, name: string, email: string, password: string): (r: Result<User>)
    ensures r.Failure? <==> EmailTaken(registry, email)
    ensures r.Failure? ==> r.error == EmailInUse
    ensures r.Success? ==> r.value == User(|registry| + 1, Some(name), email)
  {
    if EmailTaken(registry, email) then Failure(EmailInUse)
    else Success(User(|registry| + 1, Some(name), email))
  }

  /** `checkAuthState`: the stored user, or none. */
  function CheckAuthState(stored: Option<User>): Option<User> {
    stored
  }

  function ClearError(st: AuthState): (r: AuthState)
    ensures r.error.None?
    ensures r.isAuthenticated == st.isAuthenticated && r.user == st.user && r.isLoading == st.isLoading
  {
    st.(error := None)
  }

  function CheckAuthPending(st: AuthState): (r: AuthState)
    ensures r.isLoading && r.isAuthenticated == st.isAuthenticated && r.user == st.user && r.error == st.error
  {
    st.(isLoading := true)
  }

  /** The stored user becomes the session user; signed in exactly when there is one. */
  function CheckAuthFulfilled(st: AuthState, payload: Option<User>): (r: AuthState)
    ensures !r.isLoading && r.user == payload && r.error == st.error
    ensures r.isAuthenticated <==> payload.Some?
  {
    st.(isLoading := false, user := payload, isAuthenticated := payload.Some?)
  }

  /** A failed check signs out but keeps whatever user record was there. */
  function CheckAuthRejected(st: AuthState): (r: AuthState)
    ensures !r.isLoading && !r.isAuthenticated && r.user == st.user && r.error == st.error
  {
    st.(isLoading := false, isAuthenticated := false)
  }

  /** `login.pending` and `register.pending` */
  function RequestPending(st: AuthState): (r: AuthState)
    ensures r.isLoading && r.error.None?
    ensures r.isAuthenticated == st.isAuthenticated && r.user == st.user
  {
    st.(isLoading := true, error := None)
  }

  /** `login.fulfilled` and `register.fulfilled` */
  function SignedIn(st: AuthState, user: User): (r: AuthState)
    ensures r == AuthState(true, Some(user), false, None)
  {
    st.(isLoading := false, isAuthenticated := true, user := Some(user), error := None)
  }

  /** `login.rejected` and `register.rejected`: the message is recorded, the session is untouched. */
  function Rejected(st: AuthState, message: string): (r: AuthState)
    ensures !r.isLoading && r.error == Some(message)
    ensures r.isAuthenticated == st.isAuthenticated && r.user == st.user
  {
    st.(isLoading := false, error := Some(message))
  }

  function LogoutFulfilled(st: AuthState): (r: AuthState)
    ensures !r.isAuthenticated && r.user.None?
    ensures r.isLoading == st.isLoading && r.error == st.error
  {
    st.(isAuthenticated := false, user := None)
  }

  /** The reducers' response to a settled login or registration. */
  function Settle(st: AuthState, outcome: Result<User>): (r: AuthState)
    ensures outcome.Success? ==> r.isAuthenticated && r.user == Some(outcome.value) && r.error.None?
    ensures outcome.Failure? ==> r.error == Some(outcome.error)
    ensures outcome.Failure? ==> r.isAuthenticated == st.isAuthenticated && r.user == st.user
    ensures !r.isLoading
  {
    match outcome
    case Success(u) => SignedIn(st, u)
    case Failure(e) => Rejected(st, e)
  }

  /** A whole login round: pending, then the outcome. */
  function LoginFlow(st: AuthState, registry: seq<Account>, email: string, password: string): AuthState {
    Settle(RequestPending(st), Login(registry, email, password))
  }

  /** A login round ends without error exactly when the credentials match; a failed one leaves the session as it was. */
  lemma LoginFlowOutcome(st: AuthState, registry: seq<Account>, email: string, password: string)
    ensures LoginFlow(st, registry, email, password).error.None?
      <==> exists i :: 0 <= i < |registry| && Matches(registry[i], email, password)
    ensures LoginFlow(st, registry, email, password).error.Some? ==>
      LoginFlow(st, registry, email, password).error == Some(InvalidCredentials)
      && LoginFlow(st, registry, email, password).isAuthenticated == st.isAuthenticated
      && LoginFlow(st, registry, email, password).user == st.user
    ensures !LoginFlow(st, registry, email, password).isLoading
  {
  }

  /** Login with the seed accounts: John Doe's credentials work, a wrong password does not. */
  lemma MockLogin()
    ensures Login(MockUsers, "user@example.com", "password") == Success(User(1, Some("John Doe"), "user@example.com"))
    ensures Login(MockUsers, "jane@example.com", "password") == Success(User(2, Some("Jane Smith"), "jane@example.com"))
    ensures Login(MockUsers, "user@example.com", "secret") == Failure(InvalidCredentials)
  {
    assert !Matches(MockUsers[0], "jane@example.com", "password");
    assert FindAccount(MockUsers, "jane@example.com", "password") == Some(1);
    assert !Matches(MockUsers[0], "user@example.com", "secret") && !Matches(MockUsers[1], "user@example.com", "secret");
  }

  /**
   Because registration never extends the registry, every fresh email is
   given the same id, and the account just registered cannot log in.
   */
  lemma RegisterDoesNotPersist(registry: seq<Account>, n1: string, n2: string, e1: string, e2: string, p: string)
    requires !EmailTaken(registry, e1) && !EmailTaken(registry, e2)
    ensures Register(registry, n1, e1, p).value.id == Register(registry, n2, e2, p).value.id
    ensures Login(registry, e1, p).Failure?
  {
  }

  /** With the seed accounts, a new user is always number 3 and the seed emails are taken. */
  lemma MockRegister(name: string, email: string, password: string)
    requires email != "user@example.com" && email != "jane@example.com"
    ensures Register(MockUsers, name, email, password) == Success(User(3, Some(name), email))
    ensures Register(MockUsers, name, "jane@example.com", password) == Failure(EmailInUse)
  {
    assert MockUsers[1].email == "jane@example.com";
  }

  /** Logging out then reloading (nothing stored) stays signed out; reloading a saved user signs back in. */
  lemma SessionRestore(st: AuthState, u: User)
    ensures !CheckAuthFulfilled(LogoutFulfilled(st), CheckAuthState(None)).isAuthenticated
    ensures CheckAuthFulfilled(InitialState, CheckAuthState(Some(u))) == AuthState(true, Some(u), false, None)
    ensures CheckAuthFulfilled(InitialState, CheckAuthState(Some(u))) == SignedIn(InitialState, u)
  {
  }

  /** Clearing the error is idempotent and undoes exactly what a rejection added. */
  lemma ClearErrorAfterRejection(st: AuthState, message: string)
    requires st.error.None? && !st.isLoading
    ensures ClearError(Rejected(st, message)) == st
    ensures ClearError(ClearError(st)) == ClearError(st)
  {
  }
}

=== FILE: cart_page.dfy ===
/**
 The decisions `src/pages/CartPage.tsx` makes around the cart: the quantity
 buttons' guard, where the checkout button leads, and the line-count
 heading. The summary panel is `Pricing.OrderSummary`.
 */
module CartPage {
  import opened Types
  import opened Text
  import opened CartSlice

  /** Every line holds at least one unit. */
  predicate QuantitiesPositive(items: seq<CartItem>) {
    forall i :: 0 <= i < |items| ==> items[i].quantity >= 1
  }

  /** `handleQuantityChange`: the update is dispatched only for a quantity of at least 1. */
  function HandleQuantityChange(items: seq<CartItem>, id: int, newQuantity: int): (r: seq<CartItem>)
    ensures newQuantity < 1 ==> r == items
    ensures newQuantity >= 1 ==> r == UpdateCartItemQuantity(items, id, newQuantity)
  {
    if newQuantity >= 1 then UpdateCartItemQuantity(items, id, newQuantity) else items
  }

  /** The minus button is disabled at a quantity of 1 or less. */
  predicate DecreaseEnabled(item: CartItem) {
    item.quantity > 1
  }

  /** Whatever the buttons send, the page never takes a line below one unit. */
  lemma QuantityChangeKeepsPositive(items: seq<CartItem>, id: int, newQuantity: int)
    requires QuantitiesPositive(items)
    ensures QuantitiesPositive(HandleQuantityChange(items, id, newQuantity))
  {
  }

  /** By contrast, the reducer itself accepts 0 and leaves a line with no units. */
  lemma ReducerAcceptsZero(items: seq<CartItem>, id: int)
    requires HasLine(items, id)
    ensures !QuantitiesPositive(UpdateCartItemQuantity(items, id, 0))
    ensures HandleQuantityChange(items, id, 0) == items
  {
    var k := FindLine(items, id).value;
    assert UpdateCartItemQuantity(items, id, 0)[k].quantity == 0;
  }

  /** The minus and plus buttons of a line move its quantity by one, and minus is offered only above 1. */
  lemma StepButtons(items: seq<CartItem>, k: nat)
    requires QuantitiesPositive(items) && k < |items|
    ensures DecreaseEnabled(items[k]) ==>
      HandleQuantityChange(items, items[k].product.id, items[k].quantity - 1)
        == UpdateCartItemQuantity(items, items[k].product.id, items[k].quantity - 1)
    ensures HandleQuantityChange(items, items[k].product.id, items[k].quantity + 1)
        == UpdateCartItemQuantity(items, items[k].product.id, items[k].quantity + 1)
  {
  }

  /** Where a button sends the browser: a path, with the page to come back to when signing in first. */
  datatype Route = Route(path: string, from: Option<string>)

  /** `handleCheckout`: signed-in users go to checkout, others to login with checkout as the way back. */
  function HandleCheckout(isAuthenticated: bool): (r: Route)
    ensures isAuthenticated <==> r.path == "/checkout"
    ensures !isAuthenticated <==> r.path == "/login"
    ensures r.from.Some? <==> !isAuthenticated
    ensures r.from.Some? ==> r.from.value == "/checkout"
  {
    if isAuthenticated then Route("/checkout", None) else Route("/login", Some("/checkout"))
  }

  /** `{items.length} Item{items.length !== 1 ? 's' : ''}` */
  function ItemCountHeading(lines: nat): (r: string)
    ensures |r| >= |NatToString(lines)| + 5 && r[..|NatToString(lines)|] == NatToString(lines)
    ensures r[|NatToString(lines)|..|NatToString(lines)| + 5] == " Item"
    ensures lines == 1 <==> |r| == |NatToString(lines)| + 5
    ensures lines != 1 <==> |r| == |NatToString(lines)| + 6 && r[|r| - 1] == 's'
  {
    NatToString(lines) + " Item" + (if lines != 1 then "s" else "")
  }

  /** Different line counts read differently. */
  lemma ItemCountHeadingInjective(a: nat, b: nat)
    requires ItemCountHeading(a) == ItemCountHeading(b)
    ensures a == b
  {
    var ha, hb := ItemCountHeading(a), ItemCountHeading(b);
    var na, nb := NatToString(a), NatToString(b);
    // the count is the digits before the first space
    assert ha[|na|] == ' ' && hb[|nb|] == ' ';
    assert |na| == |nb|;
    assert na == ha[..|na|] == hb[..|nb|] == nb;
    NatToStringInjective(a, b);
  }

  /**
   The heading for one and for several lines. The page never shows the
   heading for an empty cart: it renders the "Your cart is empty" panel
   instead, so the last clause is only the template's value at 0.
   */
  lemma ItemCountHeadingExamples()
    ensures ItemCountHeading(1) == "1 Item"
    ensures ItemCountHeading(3) == "3 Items"
    ensures ItemCountHeading(0) == "0 Items"
  {
  }
}

=== FILE: cart_slice.dfy ===
/**
 The shopping cart of `src/store/slices/cartSlice.ts`: a list of lines
 keyed by product id. Persisting to local storage and the toasts are
 effects outside the model; the stored cart is passed in where it is read.
 */
module CartSlice {
  import opened Types
  import opened Seqs

  datatype CartState = CartState(items: seq<CartItem>, isLoading: bool, error: Option<string>)

  const InitialState := CartState([], false, None)

  /** At most one line per product id. */
  predicate UniqueLineIds(items: seq<CartItem>) {
    forall i, j :: 0 <= i < j < |items| ==> items[i].product.id != items[j].product.id
  }

  predicate HasLine(items: seq<CartItem>, id: int) {
    exists i :: 0 <= i < |items| && items[i].product.id == id
  }

  /** `items.findIndex(item => item.product.id === id)`, with `None` for -1. */
  function FindLine(items: seq<CartItem>, id: int): (r: Option<nat>)
    ensures r.None? <==> !HasLine(items, id)
    ensures r.Some? ==> r.value < |items| && items[r.value].product.id == id
    ensures r.Some? ==> forall j :: 0 <= j < r.value ==> items[j].product.id != id
  {
    if items == [] then None
    else if items[0].product.id == id then Some(0)
    else
      var rest := FindLine(items[1..], id);
      if rest.None? then
        assert forall i :: 1 <= i < |items| ==> items[i] == items[1..][i - 1];
        None
      else
        assert items[1..][rest.value] == items[rest.value + 1];
        Some(rest.value + 1)
  }

  /**
   `addToCart({product, quantity})`: the first line with the product's id
   gains `quantity` (keeping its own product record); without such a line
   a new line is appended.
   */
  function AddToCart(items: seq<CartItem>, product: Product, quantity: int): (r: seq<CartItem>)
    ensures !HasLine(items, product.id) ==> r == items + [CartItem(product, quantity)]
    ensures HasLine(items, product.id) ==> |r| == |items|
    ensures forall k :: FindLine(items, product.id) == Some(k) ==>
      && r[k] == CartItem(items[k].product, items[k].quantity + quantity)
      && forall i :: 0 <= i < |items| && i != k ==> r[i] == items[i]
  {
    match FindLine(items, product.id)
    case None => items + [CartItem(product, quantity)]
    case Some(k) => items[k := items[k].(quantity := items[k].quantity + quantity)]
  }

  /** When the product's first line is `k`, adding rewrites exactly that line. */
  lemma AddToCartAt(items: seq<CartItem>, product: Product, quantity: int, k: nat)
    requires FindLine(items, product.id) == Some(k)
    ensures AddToCart(items, product, quantity) == items[k := items[k].(quantity := items[k].quantity + quantity)]
  {
    var r := AddToCart(items, product, quantity);
    var w := items[k := items[k].(quantity := items[k].quantity + quantity)];
    assert HasLine(items, product.id);
    forall i | 0 <= i < |r| ensures r[i] == w[i] {
    }
  }

  /** `removeFromCart(id)`: splice out the first line with the id; an absent id changes nothing. */
  function RemoveFromCart(items: seq<CartItem>, id: int): (r: seq<CartItem>)
    ensures !HasLine(items, id) ==> r == items
    ensures HasLine(items, id) ==> |r| == |items| - 1
    ensures forall k :: FindLine(items, id) == Some(k) ==>
      && (forall i :: 0 <= i < k ==> r[i] == items[i])
      && (forall i :: k <= i < |r| ==> r[i] == items[i + 1])
  {
    match FindLine(items, id)
    case None => items
    case Some(k) => items[..k] + items[k + 1..]
  }

  /**
   `updateCartItemQuantity({productId, quantity})`: the first matching line
   takes the new quantity as given (nothing rejects values below 1).
   */
  function UpdateCartItemQuantity(items: seq<CartItem>, id: int, quantity: int): (r: seq<CartItem>)
    ensures |r| == |items|
    ensures forall i :: 0 <= i < |items| ==> r[i].product == items[i].product
    ensures !HasLine(items, id) ==> r == items
    ensures forall k :: FindLine(items, id) == Some(k) ==>
      forall i :: 0 <= i < |items| ==> r[i].quantity == if i == k then quantity else items[i].quantity
  {
    match FindLine(items, id)
    case None => items
    case Some(k) => items[k := items[k].(quantity := quantity)]
  }

  /** `clearCart` */
  function ClearCart(items: seq<CartItem>): (r: seq<CartItem>)
    ensures |r| == 0
  {
    []
  }

  /** `fetchCart`: the stored cart, or the empty cart when nothing is stored. */
  function FetchCart(stored: Option<seq<CartItem>>): (r: seq<CartItem>)
    ensures stored.None? ==> r == []
    ensures stored.Some? ==> r == stored.value
  {
    if stored.Some? then stored.value else []
  }

  /** `fetchCart.fulfilled`: the payload replaces the lines and loading ends. */
  function FetchCartFulfilled(st: CartState, payload: seq<CartItem>): (r: CartState)
    ensures r.items == payload && !r.isLoading && r.error == st.error
  {
    st.(items := payload, isLoading := false)
  }

  /** `fetchCart.pending`: only the loading flag is raised. */
  function FetchCartPending(st: CartState): (r: CartState)
    ensures r.isLoading
    ensures r.items == st.items && r.error == st.error
  {
    st.(isLoading := true)
  }

  const FetchCartFailed := "Failed to fetch cart"

  /**
   `fetchCart.rejected`, reached when the stored text does not parse: the
   thrown error's message is recorded, or the default when it is empty, and
   the lines are kept.
   */
  function FetchCartRejected(st: CartState, message: string): (r: CartState)
    ensures !r.isLoading && r.items == st.items
    ensures r.error.Some? && r.error.value != ""
    ensures message != "" ==> r.error == Some(message)
    ensures message == "" ==> r.error == Some(FetchCartFailed)
  {
    st.(isLoading := false, error := Some(if message != "" then message else FetchCartFailed))
  }

  /** A load that fails leaves the cart's lines as they were, with loading over and an error shown. */
  lemma FailedLoadKeepsCart(st: CartState, message: string)
    ensures FetchCartRejected(FetchCartPending(st), message).items == st.items
    ensures !FetchCartRejected(FetchCartPending(st), message).isLoading
    ensures FetchCartRejected(FetchCartPending(st), message).error.Some?
    ensures FetchCartFulfilled(FetchCartPending(st), st.items) == st.(isLoading := false)
  {
  }

  /** Reloading returns the saved cart, or an empty one. */
  lemma ReloadRestoresCart(st: CartState, saved: seq<CartItem>)
    ensures FetchCartFulfilled(st, FetchCart(Some(saved))).items == saved
    ensures FetchCartFulfilled(InitialState, FetchCart(None)).items == []
  {
  }

  /** Adding keeps at most one line per product id. */
  lemma AddToCartKeepsUniqueIds(items: seq<CartItem>, product: Product, quantity: int)
    requires UniqueLineIds(items)
    ensures UniqueLineIds(AddToCart(items, product, quantity))
  {
  }

  /** Removing and updating keep at most one line per product id. */
  lemma RemoveAndUpdateKeepUniqueIds(items: seq<CartItem>, id: int, quantity: int)
    requires UniqueLineIds(items)
    ensures UniqueLineIds(RemoveFromCart(items, id))
    ensures UniqueLineIds(UpdateCartItemQuantity(items, id, quantity))
  {
    var r := RemoveFromCart(items, id);
    if HasLine(items, id) {
      var k := FindLine(items, id).value;
      forall i, j | 0 <= i < j < |r| ensures r[i].product.id != r[j].product.id {
        var i' := if i < k then i else i + 1;
        var j' := if j < k then j else j + 1;
        assert r[i] == items[i'] && r[j] == items[j'];
      }
    }
  }

  /** With unique ids, removal leaves no line for the id. */
  lemma RemoveFromCartRemovesId(items: seq<CartItem>, id: int)
    requires UniqueLineIds(items)
    ensures !HasLine(RemoveFromCart(items, id), id)
  {
    var r := RemoveFromCart(items, id);
    if HasLine(items, id) {
      var k := FindLine(items, id).value;
      forall i | 0 <= i < |r| ensures r[i].product.id != id {
        if i < k {
          assert r[i] == items[i];
        } else {
          assert r[i] == items[i + 1];
        }
      }
    }
  }

  /** Adding `q1` and then `q2` of a product is adding `q1 + q2` at once. */
  lemma AddToCartTwice(items: seq<CartItem>, product: Product, q1: int, q2: int)
    ensures AddToCart(AddToCart(items, product, q1), product, q2) == AddToCart(items, product, q1 + q2)
  {
    var once := AddToCart(items, product, q1);
    if !HasLine(items, product.id) {
      assert once[|items|].product.id == product.id;
      assert FindLine(once, product.id) == Some(|items|);
    } else {
      var k := FindLine(items, product.id).value;
      assert FindLine(once, product.id) == Some(k);
    }
  }

  /** Adding a product the cart does not hold and then removing its id restores the cart. */
  lemma AddThenRemove(items: seq<CartItem>, product: Product, quantity: int)
    requires !HasLine(items, product.id)
    ensures RemoveFromCart(AddToCart(items, product, quantity), product.id) == items
  {
    var once := AddToCart(items, product, quantity);
    assert once[|items|].product.id == product.id;
    assert FindLine(once, product.id) == Some(|items|);
    assert once[..|items|] == items;
  }

  /** The later of two quantity updates wins. */
  lemma UpdateTwice(items: seq<CartItem>, id: int, a: int, b: int)
    ensures UpdateCartItemQuantity(UpdateCartItemQuantity(items, id, a), id, b) == UpdateCartItemQuantity(items, id, b)
  {
    var once := UpdateCartItemQuantity(items, id, a);
    if HasLine(items, id) {
      var k := FindLine(items, id).value;
      assert FindLine(once, id) == Some(k);
    } else {
      assert once == items;
    }
  }
}

=== FILE: catalog.dfy ===
/**
 The mock catalog API of `src/api/products.ts`: the seeded product list and
 the lookups the pages call. The simulated network delay is dropped, so every
 call is a pure function of the catalog it reads.
 */
module Catalog {
  import opened Types
  import opened Text
  import opened Seqs

  /** The seeded catalog every query reads. */
  const MockProducts: seq<Product> := [
      Product(1, "Premium Wireless Headphones", 149.99,
        "Experience exceptional sound quality with these over-ear wireless headphones featuring active noise cancellation and 30-hour battery life.",
        "electronics",
        "https://images.pexels.com/photos/3394650/pexels-photo-3394650.jpeg?auto=compress&cs=tinysrgb&w=1260&h=750&dpr=1",
        Rating(4.8, 278)),
      Product(2, "Men's Casual Slim-Fit Shirt", 39.99,
        "A comfortable slim-fit casual shirt with breathable fabric, perfect for any occasion.",
        "clothing",
        "https://images.pexels.com/photos/297933/pexels-photo-297933.jpeg?auto=compress&cs=tinysrgb&w=1260&h=750&dpr=1",
        Rating(4.3, 124)),
      Product(3, "Women's Designer Handbag", 89.99,
        "Elegant designer handbag with multiple compartments and premium materials.",
        "clothing",
        "https://images.pexels.com/photos/1152077/pexels-photo-1152077.jpeg?auto=compress&cs=tinysrgb&w=1260&h=750&dpr=1",
        Rating(4.6, 156)),
      Product(4, "4K Ultra HD Smart TV - 55 inch", 699.99,
        "Immerse yourself in stunning 4K clarity with this smart TV featuring HDR technology and built-in streaming apps.",
        "electronics",
        "https://images.pexels.com/photos/6976094/pexels-photo-6976094.jpeg?auto=compress&cs=tinysrgb&w=1260&h=750&dpr=1",
        Rating(4.7, 89)),
      Product(5, "Modern Coffee Table", 129.99,
        "Sleek modern coffee table with tempered glass top and wooden legs, perfect for any living room.",
        "furniture",
        "https://images.pexels.com/photos/1866149/pexels-photo-1866149.jpeg?auto=compress&cs=tinysrgb&w=1260&h=750&dpr=1",
        Rating(4.4, 63)),
      Product(6, "Professional Chef Knife Set", 79.99,
        "High-quality stainless steel knife set for professional and home chefs alike.",
        "home",
        "https://images.pexels.com/photos/4226864/pexels-photo-4226864.jpeg?auto=compress&cs=tinysrgb&w=1260&h=750&dpr=1",
        Rating(4.9, 42)),
      Product(7, "Fitness Smartwatch", 199.99,
        "Track your fitness goals with this advanced smartwatch featuring heart rate monitoring, GPS, and water resistance.",
        "electronics",
        "https://images.pexels.com/photos/437037/pexels-photo-437037.jpeg?auto=compress&cs=tinysrgb&w=1260&h=750&dpr=1",
        Rating(4.5, 118)),
      Product(8, "Women's Running Shoes", 89.99,
        "Lightweight and comfortable running shoes with responsive cushioning for maximum performance.",
        "clothing",
        "https://images.pexels.com/photos/2529148/pexels-photo-2529148.jpeg?auto=compress&cs=tinysrgb&w=1260&h=750&dpr=1",
        Rating(4.2, 87)),
      Product(9, "Ergonomic Office Chair", 159.99,
        "Comfortable ergonomic office chair with adjustable height, lumbar support, and breathable mesh back.",
        "furniture",
        "https://images.pexels.com/photos/1957477/pexels-photo-1957477.jpeg?auto=compress&cs=tinysrgb&w=1260&h=750&dpr=1",
        Rating(4.6, 54)),
      Product(10, "Wireless Bluetooth Speaker", 69.99,
        "Portable Bluetooth speaker with rich sound, 12-hour battery life, and water resistance for outdoor use.",
        "electronics",
        "https://images.pexels.com/photos/1706694/pexels-photo-1706694.jpeg?auto=compress&cs=tinysrgb&w=1260&h=750&dpr=1",
        Rating(4.4, 93)),
      Product(11, "Stainless Steel Water Bottle", 24.99,
        "Vacuum insulated stainless steel water bottle that keeps drinks cold for 24 hours or hot for 12 hours.",
        "home",
        "https://images.pexels.com/photos/1342529/pexels-photo-1342529.jpeg?auto=compress&cs=tinysrgb&w=1260&h=750&dpr=1",
        Rating(4.8, 76)),
      Product(12, "Designer Sunglasses", 129.99,
        "Classic designer sunglasses with UV protection and durable frame.",
        "clothing",
        "https://images.pexels.com/photos/46710/pexels-photo-46710.jpeg?auto=compress&cs=tinysrgb&w=1260&h=750&dpr=1",
        Rating(4.3, 31)),
      Product(13, "Digital SLR Camera", 699.99,
        "Professional digital SLR camera with 24.2MP sensor, 4K video recording, and interchangeable lenses.",
        "electronics",
        "https://images.pexels.com/photos/51383/photo-camera-subject-photographer-51383.jpeg?auto=compress&cs=tinysrgb&w=1260&h=750&dpr=1",
        Rating(4.9, 49)),
      Product(14, "Modern Bookshelf", 149.99,
        "Contemporary bookshelf with multiple compartments, perfect for displaying books and decorative items.",
        "furniture",
        "https://images.pexels.com/photos/1090638/pexels-photo-1090638.jpeg?auto=compress&cs=tinysrgb&w=1260&h=750&dpr=1",
        Rating(4.5, 28)),
      Product(15, "Premium Yoga Mat", 49.99,
        "Eco-friendly, non-slip yoga mat with optimal cushioning for comfortable practice.",
        "sports",
        "https://images.pexels.com/photos/4498362/pexels-photo-4498362.jpeg?auto=compress&cs=tinysrgb&w=1260&h=750&dpr=1",
        Rating(4.7, 64)),
      Product(16, "Men's Leather Wallet", 39.99,
        "Genuine leather wallet with multiple card slots and RFID protection.",
        "clothing",
        "https://images.pexels.com/photos/2442888/pexels-photo-2442888.jpeg?auto=compress&cs=tinysrgb&w=1260&h=750&dpr=1",
        Rating(4.4, 57)),
      Product(17, "Portable External SSD - 1TB", 159.99,
        "Fast, compact 1TB external SSD with USB-C connectivity for quick file transfers.",
        "electronics",
        "https://images.pexels.com/photos/47344/dollar-currency-money-us-dollar-47344.jpeg?auto=compress&cs=tinysrgb&w=1260&h=750&dpr=1",
        Rating(4.8, 38)),
      Product(18, "Dining Table Set", 499.99,
        "Elegant dining table set with table and four chairs, perfect for family meals.",
        "furniture",
        "https://images.pexels.com/photos/1080696/pexels-photo-1080696.jpeg?auto=compress&cs=tinysrgb&w=1260&h=750&dpr=1",
        Rating(4.6, 22)),
      Product(19, "Essential Oil Diffuser", 34.99,
        "Ultrasonic essential oil diffuser with 7 LED light colors and auto shut-off feature.",
        "home",
        "https://images.pexels.com/photos/3735218/pexels-photo-3735218.jpeg?auto=compress&cs=tinysrgb&w=1260&h=750&dpr=1",
        Rating(4.3, 71)),
      Product(20, "Wireless Gaming Mouse", 79.99,
        "High-precision wireless gaming mouse with customizable RGB lighting and programmable buttons.",
        "electronics",
        "https://images.pexels.com/photos/2115256/pexels-photo-2115256.jpeg?auto=compress&cs=tinysrgb&w=1260&h=750&dpr=1",
        Rating(4.5, 83))
    ]

  /** No two products share an id. */
  predicate UniqueIds(catalog: seq<Product>) {
    forall i, j :: 0 <= i < j < |catalog| ==> catalog[i].id != catalog[j].id
  }

  function Ids(ps: seq<Product>): (r: seq<int>)
    ensures |r| == |ps| && forall i :: 0 <= i < |ps| ==> r[i] == ps[i].id
  {
    seq(|ps|, i requires 0 <= i < |ps| => ps[i].id)
  }

  /** The seeded products carry the ids 1 to 20 in order, so their ids are unique. */
  lemma MockProductsIds()
    ensures Ids(MockProducts) == seq(20, i => i + 1)
    ensures UniqueIds(MockProducts)
  {
    assert Ids(MockProducts) == [1, 2, 3, 4, 5, 6, 7, 8, 9, 10, 11, 12, 13, 14, 15, 16, 17, 18, 19, 20];
  }

  /** `fetchProductById`: the first product with the id, or the "Product not found" rejection. */
  function FetchProductById(catalog: seq<Product>, id: int): (r: Result<Product>)
    ensures r.Success? ==> r.value in catalog && r.value.id == id
    ensures r.Failure? <==> forall i :: 0 <= i < |catalog| ==> catalog[i].id != id
    ensures r.Failure? ==> r.error == "Product not found"
    ensures r.Success? ==> exists i :: (0 <= i < |catalog| && catalog[i] == r.value
      && forall j :: 0 <= j < i ==> catalog[j].id != id)
  {
    if catalog == [] then Failure("Product not found")
    else if catalog[0].id == id then Success(catalog[0])
    else
      var rest := FetchProductById(catalog[1..], id);
      assert forall i :: 1 <= i < |catalog| ==> catalog[i] == catalog[1..][i - 1];
      if rest.Success? then
        var i :| 0 <= i < |catalog[1..]| && catalog[1..][i] == rest.value
          && forall j :: 0 <= j < i ==> catalog[1..][j].id != id;
        assert catalog[i + 1] == rest.value;
        rest
      else
        rest
  }

  /** With unique ids, looking a catalog product up by its id returns that very product. */
  lemma {:induction false} FetchProductByIdFindsUnique(catalog: seq<Product>, i: int)
    requires UniqueIds(catalog) && 0 <= i < |catalog|
    ensures FetchProductById(catalog, catalog[i].id) == Success(catalog[i])
  {
    if i > 0 {
      assert UniqueIds(catalog[1..]);
      FetchProductByIdFindsUnique(catalog[1..], i - 1);
    }
  }

  /** Case-insensitive category equality used by the category endpoint. */
  predicate InCategory(p: Product, category: string) {
    ToLower(p.category) == ToLower(category)
  }

  /**
   `fetchProductsByCategory`: the whole catalog for "all" in any letter case,
   otherwise the products whose category matches ignoring case, in catalog order.
   */
  function FetchProductsByCategory(catalog: seq<Product>, category: string): (r: seq<Product>)
    ensures ToLower(category) == "all" ==> r == catalog
    ensures ToLower(category) != "all" ==>
      && (forall i :: 0 <= i < |r| ==> r[i] in catalog && InCategory(r[i], category))
      && (forall i :: 0 <= i < |catalog| && InCategory(catalog[i], category) ==> catalog[i] in r)
    ensures ToLower(category) != "all" ==>
      forall x :: multiset(r)[x] == if InCategory(x, category) then multiset(catalog)[x] else 0
    ensures SubsequenceOf(r, catalog)
  {
    if ToLower(category) == "all" then
      FilterAll(catalog, p => true);
      FilterIsSubsequence(catalog, p => true);
      catalog
    else
      FilterIsSubsequence(catalog, p => InCategory(p, category));
      Filter(catalog, p => InCategory(p, category))
  }

  /** The search predicate: lower-cased title or description contains the lower-cased term. */
  predicate MatchesQuery(p: Product, query: string) {
    Includes(ToLower(p.title), ToLower(query)) || Includes(ToLower(p.description), ToLower(query))
  }

  /** `searchProducts`: the matching products in catalog order. */
  function SearchProducts(catalog: seq<Product>, query: string): (r: seq<Product>)
    ensures forall i :: 0 <= i < |r| ==> r[i] in catalog && MatchesQuery(r[i], query)
    ensures forall i :: 0 <= i < |catalog| && MatchesQuery(catalog[i], query) ==> catalog[i] in r
    ensures forall x :: multiset(r)[x] == if MatchesQuery(x, query) then multiset(catalog)[x] else 0
    ensures SubsequenceOf(r, catalog)
  {
    FilterIsSubsequence(catalog, p => MatchesQuery(p, query));
    Filter(catalog, p => MatchesQuery(p, query))
  }

  /** The empty query matches every product, so it returns the whole catalog. */
  lemma SearchEmptyQuery(catalog: seq<Product>)
    ensures SearchProducts(catalog, "") == catalog
  {
    forall i | 0 <= i < |catalog| ensures MatchesQuery(catalog[i], "") {
      IncludesEmpty(ToLower(catalog[i].title));
    }
    FilterAll(catalog, p => MatchesQuery(p, ""));
  }

  /** Sort key of the "rating, best first" comparator `b.rating.rate - a.rating.rate`. */
  function RatingDesc(p: Product): real {
    -p.rating.rate
  }

  const FeaturedCount := 6

  /**
   `getFeaturedProducts`: the first six of a stably sorted copy of the
   catalog, best rated first. A product left out rates no higher than the
   last one shown, and no catalog entry is shown more often than it occurs.
   */
  function FeaturedProducts(catalog: seq<Product>): (r: seq<Product>)
    ensures |r| == if |catalog| < FeaturedCount then |catalog| else FeaturedCount
    ensures forall i :: 0 <= i < |r| ==> r[i] in catalog
    ensures multiset(r) <= multiset(catalog)
    ensures forall i, j :: 0 <= i < j < |r| ==> r[i].rating.rate >= r[j].rating.rate
    ensures forall p :: multiset(r)[p] < multiset(catalog)[p] ==>
      |r| == FeaturedCount && p.rating.rate <= r[FeaturedCount - 1].rating.rate
  {
    var sorted := SortBy(catalog, RatingDesc);
    SortByOrders(catalog, RatingDesc);
    SortByMultiset(catalog, RatingDesc);
    var n := if |sorted| < FeaturedCount then |sorted| else FeaturedCount;
    FeaturedPrefix(catalog, sorted, n);
    sorted[..n]
  }

  /** The featured cut of a best-first permutation of the catalog, in terms of ratings. */
  lemma FeaturedPrefix(catalog: seq<Product>, sorted: seq<Product>, n: nat)
    requires SortedBy(sorted, RatingDesc) && multiset(sorted) == multiset(catalog)
    requires n == if |sorted| < FeaturedCount then |sorted| else FeaturedCount
    ensures forall i :: 0 <= i < n ==> sorted[..n][i] in catalog
    ensures multiset(sorted[..n]) <= multiset(catalog)
    ensures forall i, j :: 0 <= i < j < n ==> sorted[..n][i].rating.rate >= sorted[..n][j].rating.rate
    ensures forall p :: multiset(sorted[..n])[p] < multiset(catalog)[p] ==>
      n == FeaturedCount && p.rating.rate <= sorted[..n][FeaturedCount - 1].rating.rate
  {
    var r := sorted[..n];
    SortedPrefixSpec(catalog, sorted, RatingDesc, n);
    forall i, j | 0 <= i < j < n ensures r[i].rating.rate >= r[j].rating.rate {
      assert RatingDesc(r[i]) <= RatingDesc(r[j]);
    }
    forall p | multiset(r)[p] < multiset(catalog)[p]
      ensures n == FeaturedCount && p.rating.rate <= r[FeaturedCount - 1].rating.rate {
      assert RatingDesc(r[n - 1]) <= RatingDesc(p);
    }
  }

  /** The rating of each seeded product, in catalog order. */
  const MockRates: seq<real> := [4.8, 4.3, 4.6, 4.7, 4.4, 4.9, 4.5, 4.2, 4.6, 4.4, 4.8, 4.3, 4.9, 4.5, 4.7, 4.4, 4.8, 4.6, 4.3, 4.5]

  predicate RatedLikeMock(m: seq<Product>) {
    |m| == |MockRates| && forall i :: 0 <= i < |m| ==> m[i].rating.rate == MockRates[i]
  }

  /*
   FeaturedMockRun1 to FeaturedMockRun5 are not general facts: they only
   stage the evaluation of the insertion sort on the mock ratings, from the
   last five products back to all twenty, so that FeaturedOfRatedLikeMock
   can chain them in steps of solver-sized cost.
   */

  lemma FeaturedMockRun1(m: seq<Product>)
    requires RatedLikeMock(m)
    ensures SortBy(m[15..], RatingDesc) == [m[16], m[17], m[19], m[15], m[18]]
  {
    assert SortBy(m[19..], RatingDesc) == [m[19]];
    assert SortBy(m[18..], RatingDesc) == [m[19], m[18]] by {
      assert m[18].rating.rate == 4.3 && m[19].rating.rate == 4.5;
      assert m[18..][0] == m[18] && m[18..][1..] == m[19..];
      SortByStep(m[18..], RatingDesc, [m[19]], 1);
    }
    assert SortBy(m[17..], RatingDesc) == [m[17], m[19], m[18]] by {
      assert m[17].rating.rate == 4.6 && m[18].rating.rate == 4.3 && m[19].rating.rate == 4.5;
      assert m[17..][0] == m[17] && m[17..][1..] == m[18..];
      SortByStep(m[17..], RatingDesc, [m[19], m[18]], 0);
    }
    assert SortBy(m[16..], RatingDesc) == [m[16], m[17], m[19], m[18]] by {
      assert m[16].rating.rate == 4.8 && m[17].rating.rate == 4.6 && m[18].rating.rate == 4.3 && m[19].rating.rate == 4.5;
      assert m[16..][0] == m[16] && m[16..][1..] == m[17..];
      SortByStep(m[16..], RatingDesc, [m[17], m[19], m[18]], 0);
    }
    assert SortBy(m[15..], RatingDesc) == [m[16], m[17], m[19], m[15], m[18]] by {
      assert m[15].rating.rate == 4.4 && m[16].rating.rate == 4.8 && m[17].rating.rate == 4.6 && m[18].rating.rate == 4.3 && m[19].rating.rate == 4.5;
      assert m[15..][0] == m[15] && m[15..][1..] == m[16..];
      SortByStep(m[15..], RatingDesc, [m[16], m[17], m[19], m[18]], 3);
    }
  }

  lemma FeaturedMockRun2(m: seq<Product>)
    requires RatedLikeMock(m)
    ensures SortBy(m[11..], RatingDesc)[..6] == [m[12], m[16], m[14], m[17], m[13], m[19]]
  {
    FeaturedMockRun1(m);
    assert SortBy(m[14..], RatingDesc) == [m[16], m[14], m[17], m[19], m[15], m[18]] by {
      assert m[14].rating.rate == 4.7 && m[15].rating.rate == 4.4 && m[16].rating.rate == 4.8 && m[17].rating.rate == 4.6 && m[18].rating.rate == 4.3 && m[19].rating.rate == 4.5;
      assert m[14..][0] == m[14] && m[14..][1..] == m[15..];
      SortByStep(m[14..], RatingDesc, [m[16], m[17], m[19], m[15], m[18]], 1);
    }
    assert SortBy(m[14..], RatingDesc)[..6] == [m[16], m[14], m[17], m[19], m[15], m[18]];
    assert SortBy(m[13..], RatingDesc)[..6] == [m[16], m[14], m[17], m[13], m[19], m[15]] by {
      assert m[13].rating.rate == 4.5 && m[14].rating.rate == 4.7 && m[15].rating.rate == 4.4 && m[16].rating.rate == 4.8 && m[17].rating.rate == 4.6 && m[18].rating.rate == 4.3 && m[19].rating.rate == 4.5;
      assert m[13..][0] == m[13] && m[13..][1..] == m[14..];
      SortByTopStep(m[13..], RatingDesc, [m[16], m[14], m[17], m[19], m[15], m[18]], 3, 6);
    }
    assert SortBy(m[12..], RatingDesc)[..6] == [m[12], m[16], m[14], m[17], m[13], m[19]] by {
      assert m[12].rating.rate == 4.9 && m[13].rating.rate == 4.5 && m[14].rating.rate == 4.7 && m[15].rating.rate == 4.4 && m[16].rating.rate == 4.8 && m[17].rating.rate == 4.6 && m[19].rating.rate == 4.5;
      assert m[12..][0] == m[12] && m[12..][1..] == m[13..];
      SortByTopStep(m[12..], RatingDesc, [m[16], m[14], m[17], m[13], m[19], m[15]], 0, 6);
    }
    assert SortBy(m[11..], RatingDesc)[..6] == [m[12], m[16], m[14], m[17], m[13], m[19]] by {
      assert m[11].rating.rate == 4.3 && m[12].rating.rate == 4.9 && m[13].rating.rate == 4.5 && m[14].rating.rate == 4.7 && m[16].rating.rate == 4.8 && m[17].rating.rate == 4.6 && m[19].rating.rate == 4.5;
      assert m[11..][0] == m[11] && m[11..][1..] == m[12..];
      SortByTopStep(m[11..], RatingDesc, [m[12], m[16], m[14], m[17], m[13], m[19]], 6, 6);
    }
  }

  lemma FeaturedMockRun3(m: seq<Product>)
    requires RatedLikeMock(m)
    ensures SortBy(m[7..], RatingDesc)[..6] == [m[12], m[10], m[16], m[14], m[8], m[17]]
  {
    FeaturedMockRun2(m);
    assert SortBy(m[10..], RatingDesc)[..6] == [m[12], m[10], m[16], m[14], m[17], m[13]] by {
      assert m[10].rating.rate == 4.8 && m[12].rating.rate == 4.9 && m[13].rating.rate == 4.5 && m[14].rating.rate == 4.7 && m[16].rating.rate == 4.8 && m[17].rating.rate == 4.6 && m[19].rating.rate == 4.5;
      assert m[10..][0] == m[10] && m[10..][1..] == m[11..];
      SortByTopStep(m[10..], RatingDesc, [m[12], m[16], m[14], m[17], m[13], m[19]], 1, 6);
    }
    assert SortBy(m[9..], RatingDesc)[..6] == [m[12], m[10], m[16], m[14], m[17], m[13]] by {
      assert m[9].rating.rate == 4.4 && m[10].rating.rate == 4.8 && m[12].rating.rate == 4.9 && m[13].rating.rate == 4.5 && m[14].rating.rate == 4.7 && m[16].rating.rate == 4.8 && m[17].rating.rate == 4.6;
      assert m[9..][0] == m[9] && m[9..][1..] == m[10..];
      SortByTopStep(m[9..], RatingDesc, [m[12], m[10], m[16], m[14], m[17], m[13]], 6, 6);
    }
    assert SortBy(m[8..], RatingDesc)[..6] == [m[12], m[10], m[16], m[14], m[8], m[17]] by {
      assert m[8].rating.rate == 4.6 && m[10].rating.rate == 4.8 && m[12].rating.rate == 4.9 && m[13].rating.rate == 4.5 && m[14].rating.rate == 4.7 && m[16].rating.rate == 4.8 && m[17].rating.rate == 4.6;
      assert m[8..][0] == m[8] && m[8..][1..] == m[9..];
      SortByTopStep(m[8..], RatingDesc, [m[12], m[10], m[16], m[14], m[17], m[13]], 4, 6);
    }
    assert SortBy(m[7..], RatingDesc)[..6] == [m[12], m[10], m[16], m[14], m[8], m[17]] by {
      assert m[7].rating.rate == 4.2 && m[8].rating.rate == 4.6 && m[10].rating.rate == 4.8 && m[12].rating.rate == 4.9 && m[14].rating.rate == 4.7 && m[16].rating.rate == 4.8 && m[17].rating.rate == 4.6;
      assert m[7..][0] == m[7] && m[7..][1..] == m[8..];
      SortByTopStep(m[7..], RatingDesc, [m[12], m[10], m[16], m[14], m[8], m[17]], 6, 6);
    }
  }

  lemma FeaturedMockRun4(m: seq<Product>)
    requires RatedLikeMock(m)
    ensures SortBy(m[3..], RatingDesc)[..6] == [m[5], m[12], m[10], m[16], m[3], m[14]]
  {
    FeaturedMockRun3(m);
    assert SortBy(m[6..], RatingDesc)[..6] == [m[12], m[10], m[16], m[14], m[8], m[17]] by {
      assert m[6].rating.rate == 4.5 && m[8].rating.rate == 4.6 && m[10].rating.rate == 4.8 && m[12].rating.rate == 4.9 && m[14].rating.rate == 4.7 && m[16].rating.rate == 4.8 && m[17].rating.rate == 4.6;
      assert m[6..][0] == m[6] && m[6..][1..] == m[7..];
      SortByTopStep(m[6..], RatingDesc, [m[12], m[10], m[16], m[14], m[8], m[17]], 6, 6);
    }
    assert SortBy(m[5..], RatingDesc)[..6] == [m[5], m[12], m[10], m[16], m[14], m[8]] by {
      assert m[5].rating.rate == 4.9 && m[8].rating.rate == 4.6 && m[10].rating.rate == 4.8 && m[12].rating.rate == 4.9 && m[14].rating.rate == 4.7 && m[16].rating.rate == 4.8 && m[17].rating.rate == 4.6;
      assert m[5..][0] == m[5] && m[5..][1..] == m[6..];
      SortByTopStep(m[5..], RatingDesc, [m[12], m[10], m[16], m[14], m[8], m[17]], 0, 6);
    }
    assert SortBy(m[4..], RatingDesc)[..6] == [m[5], m[12], m[10], m[16], m[14], m[8]] by {
      assert m[4].rating.rate == 4.4 && m[5].rating.rate == 4.9 && m[8].rating.rate == 4.6 && m[10].rating.rate == 4.8 && m[12].rating.rate == 4.9 && m[14].rating.rate == 4.7 && m[16].rating.rate == 4.8;
      assert m[4..][0] == m[4] && m[4..][1..] == m[5..];
      SortByTopStep(m[4..], RatingDesc, [m[5], m[12], m[10], m[16], m[14], m[8]], 6, 6);
    }
    assert SortBy(m[3..], RatingDesc)[..6] == [m[5], m[12], m[10], m[16], m[3], m[14]] by {
      assert m[3].rating.rate == 4.7 && m[5].rating.rate == 4.9 && m[8].rating.rate == 4.6 && m[10].rating.rate == 4.8 && m[12].rating.rate == 4.9 && m[14].rating.rate == 4.7 && m[16].rating.rate == 4.8;
      assert m[3..][0] == m[3] && m[3..][1..] == m[4..];
      SortByTopStep(m[3..], RatingDesc, [m[5], m[12], m[10], m[16], m[14], m[8]], 4, 6);
    }
  }

  lemma FeaturedMockRun5(m: seq<Product>)
    requires RatedLikeMock(m)
    ensures SortBy(m[0..], RatingDesc)[..6] == [m[5], m[12], m[0], m[10], m[16], m[3]]
  {
    FeaturedMockRun4(m);
    assert SortBy(m[2..], RatingDesc)[..6] == [m[5], m[12], m[10], m[16], m[3], m[14]] by {
      assert m[2].rating.rate == 4.6 && m[3].rating.rate == 4.7 && m[5].rating.rate == 4.9 && m[10].rating.rate == 4.8 && m[12].rating.rate == 4.9 && m[14].rating.rate == 4.7 && m[16].rating.rate == 4.8;
      assert m[2..][0] == m[2] && m[2..][1..] == m[3..];
      SortByTopStep(m[2..], RatingDesc, [m[5], m[12], m[10], m[16], m[3], m[14]], 6, 6);
    }
    assert SortBy(m[1..], RatingDesc)[..6] == [m[5], m[12], m[10], m[16], m[3], m[14]] by {
      assert m[1].rating.rate == 4.3 && m[3].rating.rate == 4.7 && m[5].rating.rate == 4.9 && m[10].rating.rate == 4.8 && m[12].rating.rate == 4.9 && m[14].rating.rate == 4.7 && m[16].rating.rate == 4.8;
      assert m[1..][0] == m[1] && m[1..][1..] == m[2..];
      SortByTopStep(m[1..], RatingDesc, [m[5], m[12], m[10], m[16], m[3], m[14]], 6, 6);
    }
    assert SortBy(m[0..], RatingDesc)[..6] == [m[5], m[12], m[0], m[10], m[16], m[3]] by {
      assert m[0].rating.rate == 4.8 && m[3].rating.rate == 4.7 && m[5].rating.rate == 4.9 && m[10].rating.rate == 4.8 && m[12].rating.rate == 4.9 && m[14].rating.rate == 4.7 && m[16].rating.rate == 4.8;
      assert m[0..][0] == m[0] && m[0..][1..] == m[1..];
      SortByTopStep(m[0..], RatingDesc, [m[5], m[12], m[10], m[16], m[3], m[14]], 2, 6);
    }
  }

  /** Applied to the seeded catalog, the featured products are ids 6, 13, 1, 11, 17 and 4. */
  lemma FeaturedMockProducts()
    ensures Ids(FeaturedProducts(MockProducts)) == [6, 13, 1, 11, 17, 4]
  {
    MockProductsRated();
    MockProductsIds();
    FeaturedIdsOfRatedLikeMock(MockProducts);
  }

  /** With the seeded ratings and the ids 1 to 20, the featured ids are 6, 13, 1, 11, 17 and 4. */
  lemma FeaturedIdsOfRatedLikeMock(m: seq<Product>)
    requires RatedLikeMock(m) && Ids(m) == seq(20, i => i + 1)
    ensures Ids(FeaturedProducts(m)) == [6, 13, 1, 11, 17, 4]
  {
    FeaturedOfRatedLikeMock(m);
    PickedIds(m);
  }

  /** The ids at the six featured positions of a catalog numbered 1 to 20. */
  lemma PickedIds(m: seq<Product>)
    requires Ids(m) == seq(20, i => i + 1)
    ensures Ids([m[5], m[12], m[0], m[10], m[16], m[3]]) == [6, 13, 1, 11, 17, 4]
  {
    assert Ids(m)[5] == 6 && Ids(m)[12] == 13 && Ids(m)[0] == 1;
    assert Ids(m)[10] == 11 && Ids(m)[16] == 17 && Ids(m)[3] == 4;
  }

  /** Any catalog rated like the seeded one features the same six positions. */
  lemma FeaturedOfRatedLikeMock(m: seq<Product>)
    requires RatedLikeMock(m)
    ensures FeaturedProducts(m) == [m[5], m[12], m[0], m[10], m[16], m[3]]
  {
    FeaturedMockRun5(m);
    assert m[0..] == m;
  }

  lemma MockProductsRated()
    ensures RatedLikeMock(MockProducts)
  {
  }

  /** The category of each product, in catalog order (`MOCK_PRODUCTS.map(p => p.category)`). */
  function CategoryList(catalog: seq<Product>): (r: seq<string>)
    ensures |r| == |catalog| && forall i :: 0 <= i < |catalog| ==> r[i] == catalog[i].category
  {
    seq(|catalog|, i requires 0 <= i < |catalog| => catalog[i].category)
  }

  /**
   `getCategories`: every category that occurs in the catalog, once each,
   in the order of first occurrence (a JavaScript `Set` keeps insertion order).
   */
  function Categories(catalog: seq<Product>): (r: seq<string>)
    ensures NoDuplicates(r)
    ensures forall i :: 0 <= i < |r| ==> exists j :: 0 <= j < |catalog| && catalog[j].category == r[i]
    ensures forall j :: 0 <= j < |catalog| ==> catalog[j].category in r
    ensures forall i, j :: 0 <= i < j < |r| ==>
      FirstIndex(CategoryList(catalog), r[i]) < FirstIndex(CategoryList(catalog), r[j])
  {
    var cs := CategoryList(catalog);
    var r := Distinct(cs);
    DistinctSpec(cs);
    assert forall i :: 0 <= i < |r| ==> exists j :: 0 <= j < |catalog| && catalog[j].category == r[i] by {
      forall i | 0 <= i < |r| ensures exists j :: 0 <= j < |catalog| && catalog[j].category == r[i] {
        var j :| 0 <= j < |cs| && cs[j] == r[i];
      }
    }
    r
  }

  /** The seeded catalog's categories: electronics, clothing, furniture, home, sports. */
  lemma MockCategories()
    ensures Categories(MockProducts) == ["electronics", "clothing", "furniture", "home", "sports"]
  {
    MockCategoryList();
    DistinctMockCategories(CategoryList(MockProducts));
  }

  lemma MockCategoryList()
    ensures CategoryList(MockProducts) == ["electronics", "clothing", "clothing", "electronics", "furniture", "home", "electronics", "clothing", "furniture", "electronics", "home", "clothing", "electronics", "furniture", "sports", "clothing", "electronics", "furniture", "home", "electronics"]
  {
  }

  lemma DistinctMockCategories(cs: seq<string>)
    requires cs == ["electronics", "clothing", "clothing", "electronics", "furniture", "home", "electronics", "clothing", "furniture", "electronics", "home", "clothing", "electronics", "furniture", "sports", "clothing", "electronics", "furniture", "home", "electronics"]
    ensures Distinct(cs) == ["electronics", "clothing", "furniture", "home", "sports"]
  {
    var a, b, c, d, e := "electronics", "clothing", "furniture", "home", "sports";
    assert |a| == 11 && |b| == 8 && |c| == 9 && |d| == 4 && |e| == 6;
    InsertMockCategoriesA(cs, a, b, c, d, e);
    InsertMockCategoriesB(cs, a, b, c, d, e);
    InsertMockCategoriesC(cs, a, b, c, d, e);
    InsertMockCategoriesD(cs, a, b, c, d, e);
    InsertMockCategoriesE(cs, a, b, c, d, e);
    assert cs[0..] == cs && cs[20..] == [];
  }

  /*
   InsertMockCategoriesA to InsertMockCategoriesE only stage the evaluation
   of the first-seen de-duplication over the mock category list, four
   entries at a time, for DistinctMockCategories and MockCategories.
   */

  lemma InsertMockCategoriesA<T>(cs: seq<T>, a: T, b: T, c: T, d: T, e: T)
    requires cs == [a, b, b, a, c, d, a, b, c, a, d, b, a, c, e, b, a, c, d, a]
    requires a != b && a != c && a != d && a != e && b != c && b != d && b != e && c != d && c != e && d != e
    ensures InsertAll([], cs[0..]) == InsertAll([a, b], cs[4..])
  {
    assert InsertAll([], cs[0..]) == InsertAll([a], cs[1..]) by {
      assert cs[0..][0] == a && cs[0..][1..] == cs[1..];
      InsertAllStep([], cs[0..], [a]);
    }
    assert InsertAll([a], cs[1..]) == InsertAll([a, b], cs[2..]) by {
      assert cs[1..][0] == b && cs[1..][1..] == cs[2..];
      InsertAllStep([a], cs[1..], [a, b]);
    }
    assert InsertAll([a, b], cs[2..]) == InsertAll([a, b], cs[3..]) by {
      assert cs[2..][0] == b && cs[2..][1..] == cs[3..];
      InsertAllStep([a, b], cs[2..], [a, b]);
    }
    assert InsertAll([a, b], cs[3..]) == InsertAll([a, b], cs[4..]) by {
      assert cs[3..][0] == a && cs[3..][1..] == cs[4..];
      InsertAllStep([a, b], cs[3..], [a, b]);
    }
  }

  lemma InsertMockCategoriesB<T>(cs: seq<T>, a: T, b: T, c: T, d: T, e: T)
    requires cs == [a, b, b, a, c, d, a, b, c, a, d, b, a, c, e, b, a, c, d, a]
    requires a != b && a != c && a != d && a != e && b != c && b != d && b != e && c != d && c != e && d != e
    ensures InsertAll([a, b], cs[4..]) == InsertAll([a, b, c, d], cs[8..])
  {
    assert InsertAll([a, b], cs[4..]) == InsertAll([a, b, c], cs[5..]) by {
      assert cs[4..][0] == c && cs[4..][1..] == cs[5..];
      InsertAllStep([a, b], cs[4..], [a, b, c]);
    }
    assert InsertAll([a, b, c], cs[5..]) == InsertAll([a, b, c, d], cs[6..]) by {
      assert cs[5..][0] == d && cs[5..][1..] == cs[6..];
      InsertAllStep([a, b, c], cs[5..], [a, b, c, d]);
    }
    assert InsertAll([a, b, c, d], cs[6..]) == InsertAll([a, b, c, d], cs[7..]) by {
      assert cs[6..][0] == a && cs[6..][1..] == cs[7..];
      InsertAllStep([a, b, c, d], cs[6..], [a, b, c, d]);
    }
    assert InsertAll([a, b, c, d], cs[7..]) == InsertAll([a, b, c, d], cs[8..]) by {
      assert cs[7..][0] == b && cs[7..][1..] == cs[8..];
      InsertAllStep([a, b, c, d], cs[7..], [a, b, c, d]);
    }
  }

  lemma InsertMockCategoriesC<T>(cs: seq<T>, a: T, b: T, c: T, d: T, e: T)
    requires cs == [a, b, b, a, c, d, a, b, c, a, d, b, a, c, e, b, a, c, d, a]
    requires a != b && a != c && a != d && a != e && b != c && b != d && b != e && c != d && c != e && d != e
    ensures InsertAll([a, b, c, d], cs[8..]) == InsertAll([a, b, c, d], cs[12..])
  {
    assert InsertAll([a, b, c, d], cs[8..]) == InsertAll([a, b, c, d], cs[9..]) by {
      assert cs[8..][0] == c && cs[8..][1..] == cs[9..];
      InsertAllStep([a, b, c, d], cs[8..], [a, b, c, d]);
    }
    assert InsertAll([a, b, c, d], cs[9..]) == InsertAll([a, b, c, d], cs[10..]) by {
      assert cs[9..][0] == a && cs[9..][1..] == cs[10..];
      InsertAllStep([a, b, c, d], cs[9..], [a, b, c, d]);
    }
    assert InsertAll([a, b, c, d], cs[10..]) == InsertAll([a, b, c, d], cs[11..]) by {
      assert cs[10..][0] == d && cs[10..][1..] == cs[11..];
      InsertAllStep([a, b, c, d], cs[10..], [a, b, c, d]);
    }
    assert InsertAll([a, b, c, d], cs[11..]) == InsertAll([a, b, c, d], cs[12..]) by {
      assert cs[11..][0] == b && cs[11..][1..] == cs[12..];
      InsertAllStep([a, b, c, d], cs[11..], [a, b, c, d]);
    }
  }

  lemma InsertMockCategoriesD<T>(cs: seq<T>, a: T, b: T, c: T, d: T, e: T)
    requires cs == [a, b, b, a, c, d, a, b, c, a, d, b, a, c, e, b, a, c, d, a]
    requires a != b && a != c && a != d && a != e && b != c && b != d && b != e && c != d && c != e && d != e
    ensures InsertAll([a, b, c, d], cs[12..]) == InsertAll([a, b, c, d, e], cs[16..])
  {
    assert InsertAll([a, b, c, d], cs[12..]) == InsertAll([a, b, c, d], cs[13..]) by {
      assert cs[12..][0] == a && cs[12..][1..] == cs[13..];
      InsertAllStep([a, b, c, d], cs[12..], [a, b, c, d]);
    }
    assert InsertAll([a, b, c, d], cs[13..]) == InsertAll([a, b, c, d], cs[14..]) by {
      assert cs[13..][0] == c && cs[13..][1..] == cs[14..];
      InsertAllStep([a, b, c, d], cs[13..], [a, b, c, d]);
    }
    assert InsertAll([a, b, c, d], cs[14..]) == InsertAll([a, b, c, d, e], cs[15..]) by {
      assert cs[14..][0] == e && cs[14..][1..] == cs[15..];
      InsertAllStep([a, b, c, d], cs[14..], [a, b, c, d, e]);
    }
    assert InsertAll([a, b, c, d, e], cs[15..]) == InsertAll([a, b, c, d, e], cs[16..]) by {
      assert cs[15..][0] == b && cs[15..][1..] == cs[16..];
      InsertAllStep([a, b, c, d, e], cs[15..], [a, b, c, d, e]);
    }
  }

  lemma InsertMockCategoriesE<T>(cs: seq<T>, a: T, b: T, c: T, d: T, e: T)
    requires cs == [a, b, b, a, c, d, a, b, c, a, d, b, a, c, e, b, a, c, d, a]
    requires a != b && a != c && a != d && a != e && b != c && b != d && b != e && c != d && c != e && d != e
    ensures InsertAll([a, b, c, d, e], cs[16..]) == InsertAll([a, b, c, d, e], cs[20..])
  {
    assert InsertAll([a, b, c, d, e], cs[16..]) == InsertAll([a, b, c, d, e], cs[17..]) by {
      assert cs[16..][0] == a && cs[16..][1..] == cs[17..];
      InsertAllStep([a, b, c, d, e], cs[16..], [a, b, c, d, e]);
    }
    assert InsertAll([a, b, c, d, e], cs[17..]) == InsertAll([a, b, c, d, e], cs[18..]) by {
      assert cs[17..][0] == c && cs[17..][1..] == cs[18..];
      InsertAllStep([a, b, c, d, e], cs[17..], [a, b, c, d, e]);
    }
    assert InsertAll([a, b, c, d, e], cs[18..]) == InsertAll([a, b, c, d, e], cs[19..]) by {
      assert cs[18..][0] == d && cs[18..][1..] == cs[19..];
      InsertAllStep([a, b, c, d, e], cs[18..], [a, b, c, d, e]);
    }
    assert InsertAll([a, b, c, d, e], cs[19..]) == InsertAll([a, b, c, d, e], cs[20..]) by {
      assert cs[19..][0] == a && cs[19..][1..] == cs[20..];
      InsertAllStep([a, b, c, d, e], cs[19..], [a, b, c, d, e]);
    }
  }
}

=== FILE: checkout_page.dfy ===
/**
 The logic inside `src/pages/CheckoutPage.tsx`: the three-step machine
 (shipping, payment, review), the card-number display, the expiry and CVV
 input rules, the review-step card mask, the item count of the summary and
 the order the page places. The summary amounts are `Pricing.OrderSummary`.
 */
module CheckoutPage {
  import opened Types
  import opened Text
  import opened CartSlice
  import opened Orders

  // ---------------------------------------------------------------- steps

  /** The page starts on the shipping step. */
  const InitialStep := 1

  /** The four buttons that change the step. */
  datatype StepAction = SubmitShipping | SubmitPayment | BackToShipping | BackToPayment

  /** Each button lives in one step's form, so it can only be pressed on that step. */
  predicate Offered(step: int, a: StepAction) {
    match a
    case SubmitShipping => step == 1
    case SubmitPayment => step == 2
    case BackToShipping => step == 2
    case BackToPayment => step == 3
  }

  /** Pressing a button sets the step it names; nothing else changes it. */
  function Step(step: int, a: StepAction): (r: int)
    ensures 1 <= step <= 3 ==> 1 <= r <= 3
    ensures -1 <= r - step <= 1
    ensures r == 3 ==> step == 3 || (step == 2 && a == SubmitPayment)
    ensures r != step <==> Offered(step, a)
  {
    if !Offered(step, a) then step
    else match a
      case SubmitShipping => 2
      case SubmitPayment => 3
      case BackToShipping => 1
      case BackToPayment => 2
  }

  function Run(step: int, actions: seq<StepAction>): int
    decreases |actions|
  {
    if actions == [] then step else Run(Step(step, actions[0]), actions[1..])
  }

  /** Whatever the buttons pressed, the step stays one of 1, 2 and 3. */
  lemma {:induction false} RunStaysInRange(step: int, actions: seq<StepAction>)
    requires 1 <= step <= 3
    ensures 1 <= Run(step, actions) <= 3
    decreases |actions|
  {
    if actions != [] {
      RunStaysInRange(Step(step, actions[0]), actions[1..]);
    }
  }

  /** The review step is reached only through the payment form. */
  lemma {:induction false} ReviewNeedsPayment(step: int, actions: seq<StepAction>)
    requires step != 3 && Run(step, actions) == 3
    ensures SubmitPayment in actions
    decreases |actions|
  {
    if actions == [] {
      assert false;
    } else if Step(step, actions[0]) == 3 {
      assert actions[0] == SubmitPayment;
    } else {
      ReviewNeedsPayment(Step(step, actions[0]), actions[1..]);
      assert actions == [actions[0]] + actions[1..];
    }
  }

  /** The straight path: shipping then payment reaches the review; either back button returns one step. */
  lemma HappyPath()
    ensures Run(InitialStep, [SubmitShipping, SubmitPayment]) == 3
    ensures Run(InitialStep, [SubmitShipping, SubmitPayment, BackToPayment, BackToShipping]) == 1
  {
  }

  // ---------------------------------------------------------------- card number

  /**
   `s.replace(/(\d{4})/g, '$1 ')`: scanning from the left, every run of
   four digits gains a space after it.
   */
  function GroupDigits(s: string): (r: string)
    decreases |s|
  {
    if |s| >= 4 && AllDigits(s[..4]) then s[..4] + " " + GroupDigits(s[4..])
    else if s == [] then []
    else [s[0]] + GroupDigits(s[1..])
  }

  /** The card-number field shows the entry without white space, grouped in fours, trimmed. */
  function CardDisplay(s: string): string {
    Trim(GroupDigits(RemoveSpaces(s)))
  }

  /** The reference shape of a grouped digit string: blocks of four joined by single spaces. */
  function Grouped(s: string): string
    decreases |s|
  {
    if |s| <= 4 then s else s[..4] + " " + Grouped(s[4..])
  }

  lemma {:induction false} RemoveSpacesAppend(a: string, b: string)
    ensures RemoveSpaces(a + b) == RemoveSpaces(a) + RemoveSpaces(b)
    decreases |a|
  {
    if a != [] {
      assert (a + b)[1..] == a[1..] + b;
      RemoveSpacesAppend(a[1..], b);
    } else {
      assert a + b == b;
    }
  }

  lemma {:induction false} RemoveSpacesKeepsSpaceless(s: string)
    requires forall i :: 0 <= i < |s| ==> !IsSpace(s[i])
    ensures RemoveSpaces(s) == s
    decreases |s|
  {
    if s != [] {
      RemoveSpacesKeepsSpaceless(s[1..]);
    }
  }

  /** Grouping only inserts spaces. */
  lemma {:induction false} RemoveSpacesOfGroup(s: string)
    ensures RemoveSpaces(GroupDigits(s)) == RemoveSpaces(s)
    decreases |s|
  {
    if |s| >= 4 && AllDigits(s[..4]) {
      RemoveSpacesOfGroup(s[4..]);
      RemoveSpacesAppend(s[..4] + " ", GroupDigits(s[4..]));
      RemoveSpacesAppend(s[..4], " ");
      RemoveSpacesAppend(s[..4], s[4..]);
      assert s == s[..4] + s[4..];
    } else if s != [] {
      RemoveSpacesOfGroup(s[1..]);
      RemoveSpacesAppend([s[0]], GroupDigits(s[1..]));
      RemoveSpacesAppend([s[0]], s[1..]);
      assert s == [s[0]] + s[1..];
    }
  }

  /** Trimming only removes spaces. */
  lemma RemoveSpacesOfTrim(s: string)
    ensures RemoveSpaces(Trim(s)) == RemoveSpaces(s)
  {
    RemoveSpacesOfTrimStart(s);
    RemoveSpacesOfTrimEnd(TrimStart(s));
  }

  lemma RemoveSpacesOfTrimStart(s: string)
    ensures RemoveSpaces(TrimStart(s)) == RemoveSpaces(s)
  {
    var t := TrimStart(s);
    var lead := s[..|s| - |t|];
    assert s == lead + t;
    RemoveSpacesAppend(lead, t);
    assert RemoveSpaces(lead) == [] by {
      assert AllSpace(lead);
    }
  }

  lemma RemoveSpacesOfTrimEnd(s: string)
    ensures RemoveSpaces(TrimEnd(s)) == RemoveSpaces(s)
  {
    var u := TrimEnd(s);
    var trail := s[|u|..];
    assert s == u + trail;
    RemoveSpacesAppend(u, trail);
    assert RemoveSpaces(trail) == [] by {
      assert AllSpace(trail);
    }
  }

  /** The display carries exactly the entry's non-space characters, so formatting it again changes nothing. */
  lemma CardDisplayIdempotent(s: string)
    ensures RemoveSpaces(CardDisplay(s)) == RemoveSpaces(s)
    ensures CardDisplay(CardDisplay(s)) == CardDisplay(s)
  {
    RemoveSpacesOfTrim(GroupDigits(RemoveSpaces(s)));
    RemoveSpacesOfGroup(RemoveSpaces(s));
    RemoveSpacesKeepsSpaceless(RemoveSpaces(s));
  }

  lemma {:induction false} GroupShortRun(s: string)
    requires |s| < 4
    ensures GroupDigits(s) == s
    decreases |s|
  {
    if s != [] {
      GroupShortRun(s[1..]);
    }
  }

  /** On digits, grouping is the reference shape plus one trailing space when the length is a positive multiple of 4. */
  lemma {:induction false} GroupDigitsOfDigits(s: string)
    requires AllDigits(s)
    ensures GroupDigits(s) == Grouped(s) + (if |s| > 0 && |s| % 4 == 0 then " " else "")
    decreases |s|
  {
    if |s| < 4 {
      GroupShortRun(s);
    } else if |s| == 4 {
      assert s[..4] == s && s[4..] == [];
    } else {
      assert AllDigits(s[..4]);
      GroupDigitsOfDigits(s[4..]);
    }
  }

  /** The reference shape: length, where the spaces are, and the digits in order. */
  lemma {:induction false} GroupedShape(s: string)
    requires AllDigits(s) && |s| > 0
    ensures |Grouped(s)| == |s| + (|s| - 1) / 4
    ensures forall i :: 0 <= i < |Grouped(s)| ==> (Grouped(s)[i] == ' ' <==> i % 5 == 4)
    ensures forall i :: 0 <= i < |Grouped(s)| && i % 5 != 4 ==> Grouped(s)[i] == s[i - i / 5]
    decreases |s|
  {
    var g := Grouped(s);
    if |s| > 4 {
      var t := s[4..];
      GroupedShape(t);
      var gt := Grouped(t);
      assert g == s[..4] + " " + gt;
      forall i | 0 <= i < |g|
        ensures (g[i] == ' ' <==> i % 5 == 4)
        ensures i % 5 != 4 ==> g[i] == s[i - i / 5]
      {
        if i >= 5 {
          assert g[i] == gt[i - 5];
          assert (i - 5) % 5 == i % 5 && (i - 5) / 5 == i / 5 - 1;
          if i % 5 != 4 {
            assert gt[i - 5] == t[(i - 5) - (i - 5) / 5];
          }
        }
      }
    }
  }

  lemma TrimKeepsDigitEnds(g: string, tail: string)
    requires |g| > 0 && IsDigit(g[0]) && IsDigit(g[|g| - 1])
    requires tail == "" || tail == " "
    ensures Trim(g + tail) == g
  {
    DigitIsNotSpace(g[0]);
    DigitIsNotSpace(g[|g| - 1]);
    var t := g + tail;
    assert t[0] == g[0];
    assert TrimStart(t) == t;
    assert TrimEnd(g) == g;
    if tail == " " {
      assert t[..|t| - 1] == g;
      assert TrimEnd(t) == TrimEnd(g);
    } else {
      assert t == g;
    }
  }

  lemma DigitIsNotSpace(c: char)
    requires IsDigit(c)
    ensures !IsSpace(c)
  {
  }

  /** On digits, the display is exactly the reference shape: the trailing space, if any, is trimmed. */
  lemma CardDisplayIsGrouped(s: string)
    requires AllDigits(s) && |s| > 0
    ensures CardDisplay(s) == Grouped(s)
  {
    RemoveSpacesOfDigits(s);
    GroupDigitsOfDigits(s);
    GroupedEndsAreDigits(s);
    var g := Grouped(s);
    var tail := if |s| % 4 == 0 then " " else "";
    TrimKeepsDigitEnds(g, tail);
    assert GroupDigits(RemoveSpaces(s)) == g + tail;
  }

  lemma GroupedEndsAreDigits(s: string)
    requires AllDigits(s) && |s| > 0
    ensures |Grouped(s)| > 0 && IsDigit(Grouped(s)[0]) && IsDigit(Grouped(s)[|Grouped(s)| - 1])
  {
    GroupedEnds(s);
  }

  lemma DigitsAreNotSpaces(s: string)
    requires AllDigits(s)
    ensures forall i :: 0 <= i < |s| ==> !IsSpace(s[i])
  {
  }

  lemma RemoveSpacesOfDigits(s: string)
    requires AllDigits(s)
    ensures RemoveSpaces(s) == s
  {
    DigitsAreNotSpaces(s);
    RemoveSpacesKeepsSpaceless(s);
  }

  /** Grouping starts with the first digit and ends with the last. */
  lemma {:induction false} GroupedEnds(s: string)
    requires |s| > 0
    ensures |Grouped(s)| >= |s|
    ensures Grouped(s)[0] == s[0] && Grouped(s)[|Grouped(s)| - 1] == s[|s| - 1]
    decreases |s|
  {
    if |s| > 4 {
      GroupedEnds(s[4..]);
    }
  }

  /**
   A digit entry is shown as blocks of four separated by single spaces,
   with no trailing space, and keeps exactly its digits: 16 digits fill
   the field's 19 characters. Where the separators fall is `GroupedShape`.
   */
  lemma CardDisplayOfDigits(s: string)
    requires AllDigits(s) && |s| > 0
    ensures CardDisplay(s) == Grouped(s)
    ensures RemoveSpaces(CardDisplay(s)) == s
    ensures |s| == 16 ==> |CardDisplay(s)| == 19
  {
    CardDisplayIsGrouped(s);
    CardDisplayIdempotent(s);
    RemoveSpacesOfDigits(s);
    GroupedShape(s);
  }

  /** `"**** **** **** " + cardNumber.slice(-4)` */
  function MaskedCard(cardNumber: string): (r: string)
    ensures |cardNumber| >= 4 ==> |r| == 19 && r[15..] == cardNumber[|cardNumber| - 4..]
    ensures |cardNumber| < 4 ==> |r| == 15 + |cardNumber| && r[15..] == cardNumber
    ensures |r| >= 15 && r[..15] == "**** **** **** "
  {
    "**** **** **** " + (if |cardNumber| >= 4 then cardNumber[|cardNumber| - 4..] else cardNumber)
  }

  /**
   The review step masks the stored display text, not the bare digits: a
   16-digit number ends in its last four digits, but a 15-digit one ends in
   the separator and only its last three.
   */
  lemma MaskedCardOfDisplay(s: string)
    requires AllDigits(s) && |s| > 0
    ensures |s| == 16 ==> MaskedCard(CardDisplay(s)) == "**** **** **** " + s[12..]
    ensures |s| == 15 ==> MaskedCard(CardDisplay(s)) == "**** **** **** " + " " + s[12..]
  {
    if |s| == 15 || |s| == 16 {
      CardDisplayIsGrouped(s);
      GroupedTail(s);
    }
  }

  /** The last four characters of a grouped 15- or 16-character entry. */
  lemma GroupedTail(s: string)
    requires |s| == 15 || |s| == 16
    ensures |Grouped(s)| >= 4
    ensures |s| == 16 ==> Grouped(s)[|Grouped(s)| - 4..] == s[12..]
    ensures |s| == 15 ==> Grouped(s)[|Grouped(s)| - 4..] == " " + s[12..]
  {
    var g := s[..4] + " " + s[4..8] + " " + s[8..12] + " " + s[12..];
    assert Grouped(s[12..]) == s[12..];
    assert Grouped(s[8..]) == s[8..12] + " " + s[12..] by {
      assert s[8..][..4] == s[8..12] && s[8..][4..] == s[12..];
    }
    assert Grouped(s[4..]) == s[4..8] + " " + s[8..12] + " " + s[12..] by {
      assert s[4..][..4] == s[4..8] && s[4..][4..] == s[8..];
    }
    assert Grouped(s) == g;
    assert g[|g| - 4..] == (if |s| == 16 then s[12..] else " " + s[12..]);
  }

  // ---------------------------------------------------------------- expiry and CVV

  /**
   The expiry field's change handler: a '/' is appended when the entry grows
   from one character to two, and the result is kept only if it has at most
   five characters.
   */
  function ExpiryChange(prev: string, value: string): (r: string)
    ensures |prev| <= 5 ==> |r| <= 5
    ensures |value| == 2 && |prev| == 1 ==> r == value + "/"
    ensures |value| <= 5 && !(|value| == 2 && |prev| == 1) ==> r == value
    ensures |value| > 5 ==> r == prev
  {
    var v := if |value| == 2 && |prev| == 1 then value + "/" else value;
    if |v| <= 5 then v else prev
  }

  /** Typing "1", "12", "12/2", "12/25" leaves "12/25"; deleting back to two characters does not re-add the slash. */
  lemma ExpiryTyping()
    ensures ExpiryChange("", "1") == "1"
    ensures ExpiryChange("1", "12") == "12/"
    ensures ExpiryChange("12/", "12/2") == "12/2"
    ensures ExpiryChange("12/2", "12/25") == "12/25"
    ensures ExpiryChange("12/25", "12/253") == "12/25"
    ensures ExpiryChange("12/", "12") == "12"
  {
  }

  /** The CVV field's change handler: non-digits are dropped, and the result is kept only if at most four long. */
  function CvvChange(prev: string, value: string): (r: string)
    ensures |KeepDigits(value)| <= 4 ==> r == KeepDigits(value)
    ensures |KeepDigits(value)| > 4 ==> r == prev
  {
    var v := KeepDigits(value);
    if |v| <= 4 then v else prev
  }

  /** Starting from the empty field, the stored CVV is always at most four digits, whatever is typed. */
  lemma {:induction false} CvvStaysShortDigits(prev: string, inputs: seq<string>)
    requires AllDigits(prev) && |prev| <= 4
    ensures AllDigits(CvvAfter(prev, inputs)) && |CvvAfter(prev, inputs)| <= 4
    decreases |inputs|
  {
    if inputs != [] {
      CvvStaysShortDigits(CvvChange(prev, inputs[0]), inputs[1..]);
    }
  }

  function CvvAfter(prev: string, inputs: seq<string>): string
    decreases |inputs|
  {
    if inputs == [] then prev else CvvAfter(CvvChange(prev, inputs[0]), inputs[1..])
  }

  // ---------------------------------------------------------------- summary and order

  /** `items.reduce((total, item) => total + item.quantity, 0)` */
  function ItemCount(items: seq<CartItem>): int {
    if items == [] then 0 else ItemCount(items[..|items| - 1]) + items[|items| - 1].quantity
  }

  lemma {:induction false} ItemCountAppend(a: seq<CartItem>, b: seq<CartItem>)
    ensures ItemCount(a + b) == ItemCount(a) + ItemCount(b)
    decreases |b|
  {
    if b != [] {
      assert (a + b)[..|a + b| - 1] == a + b[..|b| - 1];
      ItemCountAppend(a, b[..|b| - 1]);
    } else {
      assert a + b == a;
    }
  }

  /** The count is the sum of the lines' quantities wherever a line sits. */
  lemma ItemCountSplit(items: seq<CartItem>, k: nat)
    requires k < |items|
    ensures ItemCount(items) == ItemCount(items[..k]) + items[k].quantity + ItemCount(items[k + 1..])
  {
    assert items == items[..k] + [items[k]] + items[k + 1..];
    ItemCountAppend(items[..k] + [items[k]], items[k + 1..]);
    ItemCountAppend(items[..k], [items[k]]);
    assert [items[k]][..0] == [];
  }

  /** Adding `q` of a product raises the item count by `q`, whether it merges or appends. */
  lemma ItemCountAfterAdd(items: seq<CartItem>, product: Product, q: int)
    ensures ItemCount(AddToCart(items, product, q)) == ItemCount(items) + q
  {
    match FindLine(items, product.id)
    case None =>
      ItemCountAppend(items, [CartItem(product, q)]);
      assert [CartItem(product, q)][..0] == [];
    case Some(k) =>
      var r := AddToCart(items, product, q);
      AddToCartAt(items, product, q, k);
      ItemCountSplit(items, k);
      ItemCountSplit(r, k);
      assert r[..k] == items[..k];
      assert r[k + 1..] == items[k + 1..];
  }

  datatype ShippingInfo = ShippingInfo(
    firstName: string, lastName: string, email: string,
    address: string, city: string, state: string, zipCode: string, country: string)

  /** The shipping form starts empty except for the user's email and "United States". */
  function InitialShippingInfo(user: Option<User>): (r: ShippingInfo)
    ensures r.email == (if user.Some? then user.value.email else "")
    ensures r.country == "United States"
    ensures r.firstName == r.lastName == r.address == r.city == r.state == r.zipCode == ""
  {
    ShippingInfo("", "", if user.Some? then user.value.email else "", "", "", "", "", "United States")
  }

  /** `${firstName} ${lastName}` */
  function FullName(first: string, last: string): (r: string)
    ensures |r| == |first| + |last| + 1
    ensures r[..|first|] == first && r[|first|] == ' ' && r[|first| + 1..] == last
  {
    first + " " + last
  }

  /** `user?.id || 1`: the signed-in user's id, falling back to user 1 when there is none or it is 0. */
  function OrderUserId(user: Option<User>): (r: int)
    ensures r != 0
    ensures user.Some? && user.value.id != 0 ==> r == user.value.id
    ensures user.None? ==> r == 1
  {
    if user.Some? && user.value.id != 0 then user.value.id else 1
  }

  /** The address sent with the order: full name plus the form's street, city, state, zip and country. */
  function AddressOf(info: ShippingInfo): (r: ShippingAddress)
    ensures r.name == FullName(info.firstName, info.lastName)
    ensures r.street == info.address && r.city == info.city && r.state == info.state
    ensures r.zipCode == info.zipCode && r.country == info.country
  {
    ShippingAddress(FullName(info.firstName, info.lastName), info.address, info.city, info.state, info.zipCode, info.country)
  }

  datatype Placed = Placed(created: Created, cart: seq<CartItem>, route: string)

  /** `handlePlaceOrder`: create the order, clear the cart, go to its confirmation page. */
  function PlaceOrder(ledger: seq<Order>, user: Option<User>, items: seq<CartItem>,
                      info: ShippingInfo, now: string): (r: Placed)
    ensures r.created == CreateOrder(ledger, OrderUserId(user), items, AddressOf(info), now)
    ensures r.cart == []
    ensures r.route == "/order-confirmation/" + r.created.order.id
  {
    var c := CreateOrder(ledger, OrderUserId(user), items, AddressOf(info), now);
    Placed(c, ClearCart(items), "/order-confirmation/" + c.order.id)
  }

  /**
   The confirmation page finds the order it is sent to, listed under the
   ordering user (user 1 for a guest), with one snapshot per cart line.
   */
  lemma PlacedOrderIsFound(ledger: seq<Order>, user: Option<User>, items: seq<CartItem>, info: ShippingInfo, now: string)
    requires NumberedFrom1001(ledger)
    ensures FetchOrderById(PlaceOrder(ledger, user, items, info, now).created.ledger,
                           PlaceOrder(ledger, user, items, info, now).created.order.id)
      == Some(PlaceOrder(ledger, user, items, info, now).created.order)
    ensures PlaceOrder(ledger, user, items, info, now).created.order
      in FetchUserOrders(PlaceOrder(ledger, user, items, info, now).created.ledger, OrderUserId(user))
    ensures user.None? ==> PlaceOrder(ledger, user, items, info, now).created.order.userId == 1
    ensures |PlaceOrder(ledger, user, items, info, now).created.order.items| == |items|
  {
    CreateThenFetch(ledger, OrderUserId(user), items, AddressOf(info), now);
  }
}

=== FILE: login_page.dfy ===
/**
 The sign-in form of `src/pages/LoginPage.tsx`: field validation, the
 submit gate in front of the `login` thunk, and the page to return to.
 The email pattern `\S+@\S+\.\S+` is stated directly over the characters
 instead of through a regular-expression engine.
 */
module LoginPage {
  import opened Types
  import opened Text
  import opened AuthSlice
  import CartPage

  /** The form opens filled with the demo account. */
  const InitialEmail := "user@example.com"
  const InitialPassword := "password"

  const EmailRequired := "Email is required"
  const EmailInvalid := "Email is invalid"
  const PasswordRequired := "Password is required"

  /**
   `/\S+@\S+\.\S+/.test(email)`: somewhere in the string a non-space
   character is followed by '@', then by a run of non-space characters that
   reaches a '.', then by a non-space character.
   */
  predicate EmailPattern(s: string) {
    exists a :: 1 <= a < |s| && s[a] == '@' && !IsSpace(s[a - 1]) && DomainAfter(s, a)
  }

  /** After the '@' at `a`: non-space characters up to a '.' at `d`, and a non-space character after it. */
  predicate DomainAfter(s: string, a: int)
    requires 0 <= a
  {
    exists d :: a + 2 <= d && d + 2 <= |s| && s[d] == '.' && !IsSpace(s[d + 1]) && NoSpaceBetween(s, a, d)
  }

  predicate NoSpaceBetween(s: string, a: int, d: int)
    requires 0 <= a <= d <= |s|
  {
    forall k :: a < k < d ==> !IsSpace(s[k])
  }

  /** The two error messages; the empty string is "no error", as in the page's state. */
  datatype FormCheck = FormCheck(emailError: string, passwordError: string, valid: bool)

  /** `validateForm` */
  function ValidateForm(email: string, password: string): (r: FormCheck)
    ensures AllSpace(email) ==> r.emailError == EmailRequired
    ensures !AllSpace(email) && !EmailPattern(email) ==> r.emailError == EmailInvalid
    ensures EmailPattern(email) ==> r.emailError == ""
    ensures password == "" <==> r.passwordError == PasswordRequired
    ensures password != "" <==> r.passwordError == ""
    ensures r.valid <==> r.emailError == "" && r.passwordError == ""
  {
    TrimEmptyIffBlank(email);
    PatternIsNotBlank(email);
    var emailError := if Trim(email) == [] then EmailRequired
                      else if !EmailPattern(email) then EmailInvalid
                      else "";
    var passwordError := if password == "" then PasswordRequired else "";
    FormCheck(emailError, passwordError, emailError == "" && passwordError == "")
  }

  /** An address that matches the pattern contains a non-space character, so "required" and "invalid" never overlap. */
  lemma PatternIsNotBlank(s: string)
    ensures EmailPattern(s) ==> !AllSpace(s)
  {
    if EmailPattern(s) {
      var a :| 1 <= a < |s| && s[a] == '@' && !IsSpace(s[a - 1]) && DomainAfter(s, a);
      assert !IsSpace(s[a]);
    }
  }

  /** The form is valid exactly when the email matches the pattern and a password is given. */
  lemma ValidIff(email: string, password: string)
    ensures ValidateForm(email, password).valid <==> EmailPattern(email) && password != ""
  {
  }

  /** Pattern examples: the demo address passes; a missing '@', a missing dot or a space in the domain fails. */
  lemma PatternExamples()
    ensures EmailPattern("user@example.com")
    ensures !EmailPattern("user@example")
    ensures !EmailPattern("a@.c")
    ensures !EmailPattern("a@b c.d")
  {
    var s := "user@example.com";
    assert NoSpaceBetween(s, 4, 12);
    assert DomainAfter(s, 4) by {
      assert s[12] == '.' && !IsSpace(s[13]);
    }
    assert s[4] == '@' && !IsSpace(s[3]);
    var t := "a@b c.d";
    assert !DomainAfter(t, 1) by {
      assert !NoSpaceBetween(t, 1, 5) by {
        assert IsSpace(t[3]);
      }
    }
  }

  /**
   `handleSubmit`: an invalid form changes nothing; a valid one clears the
   error and runs a login round against the registry.
   */
  function HandleSubmit(st: AuthState, registry: seq<Account>, email: string, password: string): (r: AuthState)
    ensures !ValidateForm(email, password).valid ==> r == st
    ensures ValidateForm(email, password).valid ==> r == LoginFlow(ClearError(st), registry, email, password)
  {
    if ValidateForm(email, password).valid then LoginFlow(ClearError(st), registry, email, password) else st
  }

  /** The pre-filled form is valid and signs John Doe in. */
  lemma InitialFormSignsIn(st: AuthState)
    ensures ValidateForm(InitialEmail, InitialPassword).valid
    ensures HandleSubmit(st, MockUsers, InitialEmail, InitialPassword) == AuthState(true, Some(User(1, Some("John Doe"), InitialEmail)), false, None)
  {
    PatternExamples();
    MockLogin();
  }

  /** `location.state?.from || '/'` */
  function RedirectTarget(from: Option<string>): (r: string)
    ensures from.Some? && from.value != "" ==> r == from.value
    ensures from.None? || from.value == "" ==> r == "/"
    ensures r != ""
  {
    if from.Some? && from.value != "" then from.value else "/"
  }

  /** A signed-out shopper sent to sign in from the cart comes back to checkout. */
  lemma CheckoutRoundTrip()
    ensures RedirectTarget(CartPage.HandleCheckout(false).from) == CartPage.HandleCheckout(true).path
  {
  }
}

=== FILE: orders.dfy ===
/**
 The order ledger of `src/api/orders.ts`. The module-level `MOCK_ORDERS`
 array that `createOrder` pushes onto is an explicit ledger here: every
 operation takes it, and creation returns the grown ledger with the order.
 The simulated delay is left out and the clock reading is a parameter.
 */
module Orders {
  import opened Types
  import opened Text
  import opened Seqs
  import opened Pricing

  const JohnDoe := ShippingAddress("John Doe", "123 Main St", "San Francisco", "CA", "94105", "USA")

  /** The three orders the ledger starts with, all placed by user 1. */
  const SeedOrders: seq<Order> := [
    Order("1001", 1, "2025-03-15T10:30:00Z", Delivered, 329.98, [
      OrderItem(1, 1, 149.99, "Premium Wireless Headphones",
        "https://images.pexels.com/photos/3394650/pexels-photo-3394650.jpeg?auto=compress&cs=tinysrgb&w=1260&h=750&dpr=1"),
      OrderItem(6, 1, 79.99, "Professional Chef Knife Set",
        "https://images.pexels.com/photos/4226864/pexels-photo-4226864.jpeg?auto=compress&cs=tinysrgb&w=1260&h=750&dpr=1"),
      OrderItem(11, 4, 24.99, "Stainless Steel Water Bottle",
        "https://images.pexels.com/photos/1342529/pexels-photo-1342529.jpeg?auto=compress&cs=tinysrgb&w=1260&h=750&dpr=1")
    ], JohnDoe),
    Order("1002", 1, "2025-04-02T14:45:00Z", Shipped, 249.97, [
      OrderItem(8, 1, 89.99, "Women's Running Shoes",
        "https://images.pexels.com/photos/2529148/pexels-photo-2529148.jpeg?auto=compress&cs=tinysrgb&w=1260&h=750&dpr=1"),
      OrderItem(12, 1, 129.99, "Designer Sunglasses",
        "https://images.pexels.com/photos/46710/pexels-photo-46710.jpeg?auto=compress&cs=tinysrgb&w=1260&h=750&dpr=1"),
      OrderItem(19, 1, 34.99, "Essential Oil Diffuser",
        "https://images.pexels.com/photos/3735218/pexels-photo-3735218.jpeg?auto=compress&cs=tinysrgb&w=1260&h=750&dpr=1")
    ], JohnDoe),
    Order("1003", 1, "2025-04-18T09:15:00Z", Processing, 699.99, [
      OrderItem(13, 1, 699.99, "Digital SLR Camera",
        "https://images.pexels.com/photos/51383/photo-camera-subject-photographer-51383.jpeg?auto=compress&cs=tinysrgb&w=1260&h=750&dpr=1")
    ], JohnDoe)
  ]

  /** The ledger's numbering: the order at position `i` has id `1001 + i`, in decimal. */
  predicate NumberedFrom1001(ledger: seq<Order>) {
    forall i :: 0 <= i < |ledger| ==> ledger[i].id == NatToString(1001 + i)
  }

  /** The sum of `price * quantity` over an order's snapshots. */
  function ItemsTotal(snapshots: seq<OrderItem>): real {
    if snapshots == [] then 0.0
    else
      var last := snapshots[|snapshots| - 1];
      ItemsTotal(snapshots[..|snapshots| - 1]) + last.price * last.quantity as real
  }

  /** The snapshot of one cart line: the product's id, price, title and image at order time. */
  function Snapshot(item: CartItem): (r: OrderItem)
    ensures r.productId == item.product.id && r.quantity == item.quantity
    ensures r.price == item.product.price
    ensures r.productTitle == item.product.title && r.productImage == item.product.image
  {
    OrderItem(item.product.id, item.quantity, item.product.price, item.product.title, item.product.image)
  }

  function Snapshots(items: seq<CartItem>): (r: seq<OrderItem>)
    ensures |r| == |items|
    ensures forall i :: 0 <= i < |items| ==> r[i] == Snapshot(items[i])
  {
    seq(|items|, i requires 0 <= i < |items| => Snapshot(items[i]))
  }

  datatype Created = Created(order: Order, ledger: seq<Order>)

  /**
   `createOrder(userId, items, shippingAddress)`: a pending order for the
   plain sum of the lines, numbered one past the ledger's length over 1000,
   appended to the ledger.
   */
  function CreateOrder(ledger: seq<Order>, userId: int, items: seq<CartItem>,
                       address: ShippingAddress, now: string): (r: Created)
    ensures r.ledger == ledger + [r.order]
    ensures r.order.id == NatToString(1000 + |ledger| + 1)
    ensures r.order.userId == userId && r.order.date == now
    ensures r.order.status == Pending && r.order.shippingAddress == address
    ensures r.order.items == Snapshots(items)
  {
    var order := Order(NatToString(1000 + |ledger| + 1), userId, now, Pending,
                       Subtotal(items), Snapshots(items), address);
    Created(order, ledger + [order])
  }

  /** The stored total is the sum over the order's own snapshots. */
  lemma {:induction false} SnapshotsTotal(items: seq<CartItem>)
    ensures ItemsTotal(Snapshots(items)) == Subtotal(items)
    decreases |items|
  {
    if items != [] {
      var init := items[..|items| - 1];
      assert Snapshots(items)[..|items| - 1] == Snapshots(init);
      SnapshotsTotal(init);
    }
  }

  /** An order's total agrees with its snapshots, and is the summary's subtotal without shipping or tax. */
  lemma CreatedTotal(ledger: seq<Order>, userId: int, items: seq<CartItem>, address: ShippingAddress, now: string)
    ensures CreateOrder(ledger, userId, items, address, now).order.total
      == ItemsTotal(CreateOrder(ledger, userId, items, address, now).order.items)
    ensures CreateOrder(ledger, userId, items, address, now).order.total == OrderSummary(items).subtotal
    ensures OrderSummary(items).total - CreateOrder(ledger, userId, items, address, now).order.total
      == OrderSummary(items).shipping + OrderSummary(items).tax
  {
    SnapshotsTotal(items);
  }

  /** An empty cart still produces an order, with no items and a zero total. */
  lemma EmptyCartOrder(ledger: seq<Order>, userId: int, address: ShippingAddress, now: string)
    ensures CreateOrder(ledger, userId, [], address, now).order.items == []
    ensures CreateOrder(ledger, userId, [], address, now).order.total == 0.0
  {
  }

  function PlacedBy(userId: int): Order -> bool {
    (o: Order) => o.userId == userId
  }

  /** `fetchUserOrders(userId)`: the user's orders in ledger order. */
  function FetchUserOrders(ledger: seq<Order>, userId: int): (r: seq<Order>)
    ensures forall i :: 0 <= i < |r| ==> r[i] in ledger && r[i].userId == userId
    ensures forall i :: 0 <= i < |ledger| && ledger[i].userId == userId ==> ledger[i] in r
    ensures forall x :: multiset(r)[x] == if x.userId == userId then multiset(ledger)[x] else 0
    ensures SubsequenceOf(r, ledger)
  {
    FilterIsSubsequence(ledger, PlacedBy(userId));
    Filter(ledger, PlacedBy(userId))
  }

  /** `fetchOrderById(orderId)`: the first order with the id, or `None`. */
  function FetchOrderById(ledger: seq<Order>, id: string): (r: Option<Order>)
    ensures r.None? <==> forall i :: 0 <= i < |ledger| ==> ledger[i].id != id
    ensures r.Some? ==> r.value.id == id
    ensures r.Some? ==> exists i :: (0 <= i < |ledger| && ledger[i] == r.value
      && forall j :: 0 <= j < i ==> ledger[j].id != id)
  {
    if ledger == [] then None
    else if ledger[0].id == id then Some(ledger[0])
    else
      var rest := FetchOrderById(ledger[1..], id);
      assert forall i :: 1 <= i < |ledger| ==> ledger[i] == ledger[1..][i - 1];
      if rest.Some? then
        var i :| 0 <= i < |ledger[1..]| && ledger[1..][i] == rest.value
          && forall j :: 0 <= j < i ==> ledger[1..][j].id != id;
        assert ledger[i + 1] == rest.value;
        rest
      else
        rest
  }

  /** The seed ledger is numbered 1001, 1002, 1003. */
  lemma SeedNumbered()
    ensures NumberedFrom1001(SeedOrders)
  {
    SeedIdStrings();
    SeedIds();
  }

  const SeedIdList := ["1001", "1002", "1003"]

  lemma SeedIds()
    ensures |SeedOrders| == 3 && forall i :: 0 <= i < 3 ==> SeedOrders[i].id == SeedIdList[i]
  {
  }


  lemma SeedIdStrings()
    ensures forall i :: 0 <= i < 3 ==> NatToString(1001 + i) == SeedIdList[i]
  {
    var hundred := NatToString(100);
    assert hundred == "100" by {
      assert NatToString(10) == "10";
    }
    assert NatToString(1001) == hundred + [DigitChar(1)];
    assert NatToString(1002) == hundred + [DigitChar(2)];
    assert NatToString(1003) == hundred + [DigitChar(3)];
  }



  /** Creating an order keeps the numbering, so the next order is `1001 + |ledger|`. */
  lemma CreateKeepsNumbering(ledger: seq<Order>, userId: int, items: seq<CartItem>, address: ShippingAddress, now: string)
    requires NumberedFrom1001(ledger)
    ensures NumberedFrom1001(CreateOrder(ledger, userId, items, address, now).ledger)
  {
  }

  /** In a numbered ledger a fresh order's id is new, so looking it up finds that very order. */
  lemma CreateThenFetch(ledger: seq<Order>, userId: int, items: seq<CartItem>, address: ShippingAddress, now: string)
    requires NumberedFrom1001(ledger)
    ensures FetchOrderById(CreateOrder(ledger, userId, items, address, now).ledger,
                           CreateOrder(ledger, userId, items, address, now).order.id)
      == Some(CreateOrder(ledger, userId, items, address, now).order)
    ensures CreateOrder(ledger, userId, items, address, now).order
      in FetchUserOrders(CreateOrder(ledger, userId, items, address, now).ledger, userId)
  {
    var c := CreateOrder(ledger, userId, items, address, now);
    NextIdIsFresh(ledger, 1000 + |ledger| + 1);
    FetchFindsAppended(ledger, c.order);
    assert c.ledger[|ledger|] == c.order;
  }

  /** In a numbered ledger no order carries a number past its last one, such as the next. */
  lemma NextIdIsFresh(ledger: seq<Order>, n: nat)
    requires NumberedFrom1001(ledger) && n > 1000 + |ledger|
    ensures forall i :: 0 <= i < |ledger| ==> ledger[i].id != NatToString(n)
  {
    forall i | 0 <= i < |ledger| ensures ledger[i].id != NatToString(n) {
      if ledger[i].id == NatToString(n) {
        NatToStringInjective(1001 + i, n);
      }
    }
  }

  /** An order appended under an id nobody else has is what a lookup of that id returns. */
  lemma FetchFindsAppended(ledger: seq<Order>, o: Order)
    requires forall i :: 0 <= i < |ledger| ==> ledger[i].id != o.id
    ensures FetchOrderById(ledger + [o], o.id) == Some(o)
  {
    var l := ledger + [o];
    assert l[|ledger|] == o;
    assert forall i :: 0 <= i < |ledger| ==> l[i] == ledger[i];
  }

  /** The seed totals of orders 1001 and 1002 do not match their items; 1003 does. */
  lemma SeedTotalsVersusItems()
    ensures ItemsTotal(SeedOrders[0].items) == 329.94 != SeedOrders[0].total
    ensures ItemsTotal(SeedOrders[1].items) == 254.97 != SeedOrders[1].total
    ensures ItemsTotal(SeedOrders[2].items) == SeedOrders[2].total
  {
    var a := SeedOrders[0].items;
    assert ItemsTotal(a[..1]) == 149.99 by { assert a[..1][..0] == []; }
    assert ItemsTotal(a[..2]) == 149.99 + 79.99 by { assert a[..2][..1] == a[..1]; }
    var b := SeedOrders[1].items;
    assert ItemsTotal(b[..1]) == 89.99 by { assert b[..1][..0] == []; }
    assert ItemsTotal(b[..2]) == 89.99 + 129.99 by { assert b[..2][..1] == b[..1]; }
    var c := SeedOrders[2].items;
    assert c[..0] == [];
  }
}

=== FILE: pricing.dfy ===
/**
 The order summary that `src/pages/CartPage.tsx` and
 `src/pages/CheckoutPage.tsx` compute from the cart lines: subtotal, flat
 shipping waived above 50, 8% tax, and the total. Prices are exact reals,
 so the threshold and the tax rate carry no rounding.
 */
module Pricing {
  import opened Types
  import opened CartSlice

  /** `item.product.price * item.quantity` */
  function LineTotal(item: CartItem): real {
    item.product.price * item.quantity as real
  }

  /** `items.reduce((total, item) => total + lineTotal, 0)`, folding from the left. */
  function Subtotal(items: seq<CartItem>): real {
    if items == [] then 0.0 else Subtotal(items[..|items| - 1]) + LineTotal(items[|items| - 1])
  }

  /** The subtotal of a concatenation is the sum of the subtotals. */
  lemma {:induction false} SubtotalAppend(a: seq<CartItem>, b: seq<CartItem>)
    ensures Subtotal(a + b) == Subtotal(a) + Subtotal(b)
    decreases |b|
  {
    if b != [] {
      var b' := b[..|b| - 1];
      assert (a + b)[..|a + b| - 1] == a + b';
      SubtotalAppend(a, b');
    } else {
      assert a + b == a;
    }
  }

  lemma SubtotalSingle(item: CartItem)
    ensures Subtotal([item]) == LineTotal(item)
  {
    assert [item][..0] == [];
  }

  /** The subtotal does not depend on where a line sits: it is the line's total plus the others'. */
  lemma SubtotalSplit(items: seq<CartItem>, k: nat)
    requires k < |items|
    ensures Subtotal(items) == Subtotal(items[..k]) + LineTotal(items[k]) + Subtotal(items[k + 1..])
  {
    assert items == items[..k] + [items[k]] + items[k + 1..];
    SubtotalAppend(items[..k] + [items[k]], items[k + 1..]);
    SubtotalAppend(items[..k], [items[k]]);
    SubtotalSingle(items[k]);
  }

  /** Adding `q` of a product the cart does not hold raises the subtotal by `q` times its price. */
  lemma SubtotalAfterAppend(items: seq<CartItem>, product: Product, q: int)
    requires !HasLine(items, product.id)
    ensures Subtotal(AddToCart(items, product, q)) == Subtotal(items) + product.price * q as real
  {
    SubtotalAppend(items, [CartItem(product, q)]);
    SubtotalSingle(CartItem(product, q));
  }

  /**
   Adding `q` of a product already in the cart (first at line `k`) raises
   the subtotal by `q` times the price in that line's own product record,
   which is not necessarily the price of the product passed in.
   */
  lemma SubtotalAfterMerge(items: seq<CartItem>, product: Product, q: int, k: nat)
    requires FindLine(items, product.id) == Some(k)
    ensures Subtotal(AddToCart(items, product, q)) == Subtotal(items) + items[k].product.price * q as real
  {
    AddToCartAt(items, product, q, k);
    SubtotalAfterGrow(items, q, k);
  }

  /** Raising line `k` by `q` raises the subtotal by `q` times that line's price. */
  lemma SubtotalAfterGrow(items: seq<CartItem>, q: int, k: nat)
    requires k < |items|
    ensures Subtotal(items[k := items[k].(quantity := items[k].quantity + q)])
      == Subtotal(items) + items[k].product.price * q as real
  {
    SubtotalReplace(items, k, items[k].(quantity := items[k].quantity + q));
    LineTotalGrows(items[k], q);
  }

  /** Replacing one line changes the subtotal by the difference of the two line totals. */
  lemma SubtotalReplace(items: seq<CartItem>, k: nat, line: CartItem)
    requires k < |items|
    ensures Subtotal(items[k := line]) == Subtotal(items) - LineTotal(items[k]) + LineTotal(line)
  {
    var r := items[k := line];
    SubtotalSplit(items, k);
    SubtotalSplit(r, k);
    assert r[..k] == items[..k];
    assert r[k + 1..] == items[k + 1..];
  }

  /** Raising a line's quantity by `q` raises its total by `q` times its price. */
  lemma LineTotalGrows(line: CartItem, q: int)
    ensures LineTotal(line.(quantity := line.quantity + q)) == LineTotal(line) + line.product.price * q as real
  {
    var pr, n := line.product.price, line.quantity as real;
    assert pr * (n + q as real) == pr * n + pr * q as real;
  }

  /** Removing a line takes exactly its total off the subtotal. */
  lemma SubtotalAfterRemove(items: seq<CartItem>, id: int)
    requires HasLine(items, id)
    ensures Subtotal(RemoveFromCart(items, id)) == Subtotal(items) - LineTotal(items[FindLine(items, id).value])
  {
    var k := FindLine(items, id).value;
    var r := RemoveFromCart(items, id);
    assert r == items[..k] + items[k + 1..];
    SubtotalAppend(items[..k], items[k + 1..]);
    SubtotalSplit(items, k);
  }

  /** `subtotal > 50 ? 0 : 10` */
  function Shipping(subtotal: real): (r: real)
    ensures r == 0.0 || r == 10.0
    ensures r == 0.0 <==> subtotal > 50.0
  {
    if subtotal > 50.0 then 0.0 else 10.0
  }

  const TaxRate: real := 0.08

  function Tax(subtotal: real): real {
    subtotal * TaxRate
  }

  datatype Summary = Summary(subtotal: real, shipping: real, tax: real, total: real)

  /** The summary panel: subtotal, shipping, 8% tax and their sum. */
  function OrderSummary(items: seq<CartItem>): (r: Summary)
    ensures r.subtotal == Subtotal(items)
    ensures r.shipping == (if r.subtotal > 50.0 then 0.0 else 10.0)
    ensures r.tax == r.subtotal * 8.0 / 100.0
    ensures r.total == r.subtotal + r.shipping + r.tax
  {
    var s := Subtotal(items);
    Summary(s, Shipping(s), Tax(s), s + Shipping(s) + Tax(s))
  }

  /** A subtotal of exactly 50 still pays shipping; one cent more does not. */
  lemma ShippingThreshold()
    ensures Shipping(50.0) == 10.0
    ensures Shipping(50.01) == 0.0
  {
  }

  /** With no shipping the total is 108% of the subtotal; with shipping it is that plus 10. */
  lemma TotalClosedForm(items: seq<CartItem>)
    ensures OrderSummary(items).total
      == OrderSummary(items).subtotal * 1.08 + (if Subtotal(items) > 50.0 then 0.0 else 10.0)
  {
  }

  /**
   Because shipping drops at the threshold, a larger cart can cost less:
   a subtotal of 50 totals 64, one of 55 totals 59.40.
   */
  lemma TotalNotMonotone(a: seq<CartItem>, b: seq<CartItem>)
    requires Subtotal(a) == 50.0 && Subtotal(b) == 55.0
    ensures OrderSummary(a).total == 64.0 && OrderSummary(b).total == 59.4
    ensures OrderSummary(b).total < OrderSummary(a).total
  {
  }

  /** An empty cart has a zero subtotal, so it would be charged 10 for shipping. */
  lemma EmptyCartSummary()
    ensures OrderSummary([]) == Summary(0.0, 10.0, 0.0, 10.0)
    ensures OrderSummary(ClearCart([])) == OrderSummary([])
  {
  }

  /** Two of a 10.00 product: subtotal 20, shipping 10, tax 1.60, total 31.60. */
  lemma WorkedExample(p: Product)
    requires p.price == 10.0
    ensures OrderSummary([CartItem(p, 2)]) == Summary(20.0, 10.0, 1.6, 31.6)
  {
    SubtotalSingle(CartItem(p, 2));
  }
}

=== FILE: product_detail_page.dfy ===
/**
 The product page of `src/pages/ProductDetailPage.tsx`: loading the product
 named by the route, the image carousel, the quantity stepper, and adding
 the chosen quantity to the cart. The route parameter is taken as an
 already parsed integer.
 */
module ProductDetailPage {
  import opened Types
  import opened Catalog
  import opened CartSlice
  import CheckoutPage

  // ---------------------------------------------------------------- loading

  const LoadFailed := "Failed to load product information"

  /** The page's own state: the product shown, the error line, and the spinner. */
  datatype DetailState = DetailState(product: Option<Product>, error: Option<string>, isLoading: bool)

  const InitialDetail := DetailState(None, None, true)

  /**
   The effect that runs for a route id: on success the product replaces the
   one shown and the error clears; on failure the error is set and the
   product shown before stays. Either way the spinner stops.
   */
  function Load(st: DetailState, catalog: seq<Product>, id: int): (r: DetailState)
    ensures !r.isLoading
    ensures r.error.None? <==> exists i :: 0 <= i < |catalog| && catalog[i].id == id
    ensures r.error.None? ==> r.product.Some? && r.product.value in catalog && r.product.value.id == id
    ensures r.error.Some? ==> r.error.value == LoadFailed && r.product == st.product
  {
    match FetchProductById(catalog, id)
    case Success(p) => DetailState(Some(p), None, false)
    case Failure(_) => st.(error := Some(LoadFailed), isLoading := false)
  }

  /** With unique ids, a route naming a catalog product shows exactly that product. */
  lemma LoadShowsCatalogProduct(st: DetailState, catalog: seq<Product>, i: int)
    requires UniqueIds(catalog) && 0 <= i < |catalog|
    ensures Load(st, catalog, catalog[i].id) == DetailState(Some(catalog[i]), None, false)
  {
    FetchProductByIdFindsUnique(catalog, i);
  }

  /** A fresh page with an unknown id shows no product, only the error. */
  lemma LoadUnknownId(catalog: seq<Product>, id: int)
    requires forall i :: 0 <= i < |catalog| ==> catalog[i].id != id
    ensures Load(InitialDetail, catalog, id) == DetailState(None, Some(LoadFailed), false)
  {
  }

  // ---------------------------------------------------------------- images

  /** Four copies of the product's image, or nothing while no product is shown. */
  function Images(product: Option<Product>): (r: seq<string>)
    ensures product.None? <==> r == []
    ensures product.Some? ==> |r| == 4
    ensures forall i :: 0 <= i < |r| ==> product.Some? && r[i] == product.value.image
  {
    if product.Some? then
      var img := product.value.image;
      [img, img, img, img]
    else []
  }

  /** The arrows show only when there is more than one image to move between. */
  predicate ArrowsShown(product: Option<Product>) {
    |Images(product)| > 1
  }

  lemma ArrowsShownIffProduct(product: Option<Product>)
    ensures ArrowsShown(product) <==> product.Some?
  {
  }

  /** The right arrow: forward, wrapping from the last image to the first. */
  function Next(i: int, n: int): (r: int)
    requires 0 <= i < n
    ensures 0 <= r < n
    ensures r == (i + 1) % n
  {
    if i == n - 1 then 0 else i + 1
  }

  /** The left arrow: backward, wrapping from the first image to the last. */
  function Prev(i: int, n: int): (r: int)
    requires 0 <= i < n
    ensures 0 <= r < n
    ensures r == (i + n - 1) % n
  {
    if i == 0 then n - 1 else i - 1
  }

  /** Each arrow undoes the other. */
  lemma ArrowsInverse(i: int, n: int)
    requires 0 <= i < n
    ensures Next(Prev(i, n), n) == i
    ensures Prev(Next(i, n), n) == i
  {
  }

  /** The index after `k` presses of the right arrow. */
  function Advance(i: int, n: int, k: nat): (r: int)
    requires 0 <= i < n
    ensures 0 <= r < n
  {
    if k == 0 then i else Next(Advance(i, n, k - 1), n)
  }

  /** Below the wrap, `k` presses move `k` places forward. */
  lemma {:induction false} AdvanceWithinRange(i: int, n: int, k: nat)
    requires 0 <= i && i + k < n
    ensures Advance(i, n, k) == i + k
  {
    if k > 0 {
      AdvanceWithinRange(i, n, k - 1);
    }
  }

  /** Pressing `a` times and then `b` times is pressing `a + b` times. */
  lemma {:induction false} AdvanceCompose(i: int, n: int, a: nat, b: nat)
    requires 0 <= i < n
    ensures Advance(i, n, a + b) == Advance(Advance(i, n, a), n, b)
  {
    if b > 0 {
      AdvanceCompose(i, n, a, b - 1);
    }
  }

  /** A full turn of the carousel comes back to the image it started on. */
  lemma FullTurn(i: int, n: int)
    requires 0 <= i < n
    ensures Advance(i, n, n as nat) == i
  {
    var toLast := (n - 1 - i) as nat;
    AdvanceWithinRange(i, n, toLast);
    assert Advance(i, n, toLast + 1) == 0;
    AdvanceCompose(i, n, toLast + 1, i as nat);
    AdvanceWithinRange(0, n, i as nat);
  }

  // ---------------------------------------------------------------- quantity

  const InitialQuantity := 1

  /** The minus button, disabled at 1; even pressed there it keeps the quantity at 1. */
  function Decrement(q: int): (r: int)
    ensures r >= 1
    ensures q > 1 ==> r == q - 1
    ensures q <= 1 ==> r == 1
  {
    if q - 1 > 1 then q - 1 else 1
  }

  predicate DecrementEnabled(q: int) {
    q > 1
  }

  /** The plus button, always enabled; from any quantity of at least 1 it enables minus, which takes it back. */
  function Increment(q: int): (r: int)
    ensures r == q + 1
    ensures q >= 1 ==> DecrementEnabled(r) && Decrement(r) == q
  {
    q + 1
  }

  lemma StepperInverse(q: int)
    requires q >= 1
    ensures Decrement(Increment(q)) == q
    ensures DecrementEnabled(q) ==> Increment(Decrement(q)) == q
  {
  }

  datatype Press = Minus | Plus

  /** The quantity after a run of presses starting from `q`. */
  function Presses(q: int, ps: seq<Press>): (r: int)
    decreases |ps|
  {
    if ps == [] then q
    else Presses(if ps[0] == Plus then Increment(q) else Decrement(q), ps[1..])
  }

  /** No run of presses takes the quantity below 1, and it moves by at most one per press. */
  lemma {:induction false} PressesStayPositive(q: int, ps: seq<Press>)
    requires q >= 1
    ensures Presses(q, ps) >= 1
    ensures q - |ps| <= Presses(q, ps) <= q + |ps|
    decreases |ps|
  {
    if ps != [] {
      PressesStayPositive(if ps[0] == Plus then Increment(q) else Decrement(q), ps[1..]);
    }
  }

  // ---------------------------------------------------------------- add to cart

  /** `handleAddToCart`: adds the chosen quantity when a product is shown; otherwise nothing happens. */
  function HandleAddToCart(items: seq<CartItem>, product: Option<Product>, quantity: int): (r: seq<CartItem>)
    ensures product.None? ==> r == items
    ensures product.Some? ==> r == AddToCart(items, product.value, quantity)
  {
    if product.Some? then AddToCart(items, product.value, quantity) else items
  }

  /** Adding from the page raises the cart's unit count by exactly the chosen quantity. */
  lemma AddFromPageCounts(items: seq<CartItem>, product: Option<Product>, quantity: int)
    requires product.Some?
    ensures CheckoutPage.ItemCount(HandleAddToCart(items, product, quantity))
      == CheckoutPage.ItemCount(items) + quantity
  {
    CheckoutPage.ItemCountAfterAdd(items, product.value, quantity);
  }
}

=== FILE: products_page.dfy ===
/**
 The catalog page of `src/pages/ProductsPage.tsx`: what it dispatches when
 it mounts, its heading, the price presets with their checked state, the
 applied-filter chips, and the effect of a search given in the address.
 */
module ProductsPage {
  import opened Types
  import opened Text
  import opened Seqs
  import opened Catalog
  import opened ProductsSlice

  // ---------------------------------------------------------------- mount

  /** The actions the page dispatches to the catalog store. */
  datatype Dispatch = FetchAll | FetchCategory(category: string) | SetSearch(query: string)

  /** `searchParams.get('search') || ''` */
  function SearchParam(raw: Option<string>): (r: string)
    ensures raw.None? ==> r == ""
    ensures raw.Some? ==> r == raw.value
  {
    if raw.Some? then raw.value else ""
  }

  /** A route parameter counts only when it is a non-empty string. */
  predicate HasCategory(categoryId: Option<string>) {
    categoryId.Some? && categoryId.value != ""
  }

  /**
   On mount: a category route loads that category; otherwise everything is
   loaded, followed by the search when the address carries one.
   */
  function MountDispatches(categoryId: Option<string>, searchQuery: string): (r: seq<Dispatch>)
    ensures HasCategory(categoryId) ==> r == [FetchCategory(categoryId.value)]
    ensures !HasCategory(categoryId) ==> |r| >= 1 && r[0] == FetchAll
    ensures !HasCategory(categoryId) ==> (|r| == 2 <==> searchQuery != "")
    ensures !HasCategory(categoryId) && searchQuery != "" ==> r[1] == SetSearch(searchQuery)
    ensures forall i :: 0 <= i < |r| && r[i].SetSearch? ==> r[i].query != ""
  {
    if HasCategory(categoryId) then [FetchCategory(categoryId.value)]
    else [FetchAll] + (if searchQuery != "" then [SetSearch(searchQuery)] else [])
  }

  /** `setFilters({ searchQuery })` */
  function SearchPatch(q: string): FiltersPatch {
    FiltersPatch(None, None, None, Some(q), None)
  }

  /**
   The store after mounting with a search, as the code runs it: the fetch
   goes pending, the search is applied to the products loaded so far, and
   then the fetch's result replaces both the items and the view.
   */
  function MountWithSearch(st: ProductsState, q: string, payload: seq<Product>): ProductsState {
    GetProductsFulfilled(SetFilters(LoadPending(st), SearchPatch(q)), payload)
  }

  /**
   The search survives in the filters (so the heading and the chip show it)
   but the view lists the whole payload, including products the search
   rejects.
   */
  lemma MountSearchIsLost(st: ProductsState, q: string, payload: seq<Product>)
    ensures MountWithSearch(st, q, payload).filters.searchQuery == q
    ensures MountWithSearch(st, q, payload).filteredItems == payload
    ensures forall i :: 0 <= i < |payload| && q != "" && !MatchesQuery(payload[i], q) ==>
      payload[i] in MountWithSearch(st, q, payload).filteredItems
      && !Admits(MountWithSearch(st, q, payload).filters, payload[i])
  {
  }

  /** A concrete case: a catalog holding a mug, searched for "camera", still lists the mug. */
  lemma MountSearchCounterexample()
    ensures MountWithSearch(InitialState, "camera", [Mug]).filteredItems == [Mug]
    ensures !Admits(MountWithSearch(InitialState, "camera", [Mug]).filters, Mug)
  {
    NotIncludedWhenLonger(ToLower(Mug.title), ToLower("camera"));
    NotIncludedWhenLonger(ToLower(Mug.description), ToLower("camera"));
  }

  const Mug := Product(21, "Mug", 9.99, "A mug", "home", "", Rating(4.0, 10))

  lemma {:induction false} NotIncludedWhenLonger(s: string, q: string)
    requires |q| > |s|
    ensures !Includes(s, q)
    decreases |s|
  {
    if |s| > 0 {
      NotIncludedWhenLonger(s[1..], q);
    }
  }

  /** The same mount with the corrected fulfilled reducer, which keeps the filters in force. */
  function MountWithSearchCorrected(st: ProductsState, q: string, payload: seq<Product>): ProductsState {
    GetProductsFulfilledFiltered(SetFilters(LoadPending(st), SearchPatch(q)), payload)
  }

  /** From a fresh store, the corrected mount lists exactly what `searchProducts` returns for the query. */
  lemma MountSearchCorrectedIsSearch(q: string, payload: seq<Product>)
    requires q != ""
    ensures MountWithSearchCorrected(InitialState, q, payload).filteredItems == SearchProducts(payload, q)
  {
    var f := SetFilters(LoadPending(InitialState), SearchPatch(q)).filters;
    assert f == InitialFilters.(searchQuery := q);
    FilteredIsOneFilter(payload, f);
    FilterExt(payload, AdmitsPass(f), p => MatchesQuery(p, q));
  }

  // ---------------------------------------------------------------- heading

  /**
   A category route reads "<Category> Products" with the first character
   upper-cased; otherwise a search reads `Search Results for "<q>"`, and
   the plain page reads "All Products".
   */
  function Heading(categoryId: Option<string>, searchQuery: string): (r: string)
    ensures HasCategory(categoryId) ==>
      var c := categoryId.value;
      |r| == |c| + 9 && r[0] == UpperChar(c[0]) && r[1..|c|] == c[1..] && r[|c|..] == " Products"
    ensures !HasCategory(categoryId) && searchQuery != "" ==>
      |r| == |searchQuery| + 21 && r[..20] == "Search Results for \"" && r[20..|r| - 1] == searchQuery && r[|r| - 1] == '"'
    ensures !HasCategory(categoryId) && searchQuery == "" ==> r == "All Products"
  {
    if HasCategory(categoryId) then
      var c := categoryId.value;
      [UpperChar(c[0])] + c[1..] + " Products"
    else if searchQuery != "" then "Search Results for \"" + searchQuery + "\""
    else "All Products"
  }

  /** Capitalising loses only case: the heading's category part lower-cases to the route's. */
  lemma HeadingKeepsCategory(c: string, q: string)
    requires c != ""
    ensures ToLower(Heading(Some(c), q)[..|c|]) == ToLower(c)
  {
    var h := Heading(Some(c), q);
    assert LowerChar(UpperChar(c[0])) == LowerChar(c[0]);
    assert forall i :: 1 <= i < |c| ==> h[..|c|][i] == c[i];
  }

  lemma HeadingExamples()
    ensures Heading(Some("electronics"), "") == "Electronics Products"
    ensures Heading(None, "lamp") == "Search Results for \"lamp\""
    ensures Heading(Some(""), "") == "All Products"
  {
  }

  // ---------------------------------------------------------------- price presets

  datatype PricePreset = AllPrices | Under50 | From50To100 | From100To200 | Over200

  datatype Bounds = Bounds(min: Option<real>, max: Option<real>)

  /** The `(minPrice, maxPrice)` pair each radio button sends. */
  function PresetBounds(p: PricePreset): (r: Bounds)
    ensures p == AllPrices <==> r.min.None? && r.max.None?
    ensures p == Over200 <==> r.min.Some? && r.max.None?
  {
    match p
    case AllPrices => Bounds(None, None)
    case Under50 => Bounds(Some(0.0), Some(50.0))
    case From50To100 => Bounds(Some(50.0), Some(100.0))
    case From100To200 => Bounds(Some(100.0), Some(200.0))
    case Over200 => Bounds(Some(200.0), None)
  }

  /** The `checked` expression of each radio button. */
  predicate Checked(p: PricePreset, f: ProductFilters) {
    match p
    case AllPrices => f.minPrice.None? && f.maxPrice.None?
    case Under50 => f.maxPrice == Some(50.0)
    case From50To100 => f.minPrice == Some(50.0) && f.maxPrice == Some(100.0)
    case From100To200 => f.minPrice == Some(100.0) && f.maxPrice == Some(200.0)
    case Over200 => f.minPrice == Some(200.0) && f.maxPrice.None?
  }

  /** `handlePriceRangeChange(min, max)` */
  function SelectPrice(st: ProductsState, b: Bounds): (r: ProductsState)
    ensures r.filters.minPrice == b.min && r.filters.maxPrice == b.max
    ensures r.filters.category == st.filters.category && r.filters.searchQuery == st.filters.searchQuery
    ensures r.filters.sortBy == st.filters.sortBy && r.items == st.items
  {
    SetFilters(st, FiltersPatch(None, Some(b.min), Some(b.max), None, None))
  }

  /** After choosing a preset, that preset's button and no other is checked. */
  lemma PresetCheckedExactly(st: ProductsState, p: PricePreset, q: PricePreset)
    ensures Checked(q, SelectPrice(st, PresetBounds(p)).filters) <==> p == q
  {
  }

  /** The price window each preset opens: both ends inclusive, and "Over $200" unbounded above. */
  predicate InWindow(p: PricePreset, price: real) {
    match p
    case AllPrices => true
    case Under50 => 0.0 <= price <= 50.0
    case From50To100 => 50.0 <= price <= 100.0
    case From100To200 => 100.0 <= price <= 200.0
    case Over200 => 200.0 <= price
  }

  /** After choosing a preset, a product passes the price bounds exactly when its price lies in the preset's window. */
  lemma PresetPriceWindow(st: ProductsState, p: PricePreset, x: Product)
    ensures var f := SelectPrice(st, PresetBounds(p)).filters;
      PassesMin(f, x) && PassesMax(f, x) <==> InWindow(p, x.price)
  {
    PresetBoundsWindow(SelectPrice(st, PresetBounds(p)).filters, p, x);
  }

  lemma PresetBoundsWindow(f: ProductFilters, p: PricePreset, x: Product)
    requires f.minPrice == PresetBounds(p).min && f.maxPrice == PresetBounds(p).max
    ensures PassesMin(f, x) && PassesMax(f, x) <==> InWindow(p, x.price)
  {
  }

  // ---------------------------------------------------------------- chips

  datatype PriceChip = RangeChip(lo: real, hi: real) | OverChip(lo: real) | UnderChip(hi: real)

  /** The price chip of the applied-filters panel, chosen by which bounds are set. */
  function PriceChipOf(f: ProductFilters): (r: Option<PriceChip>)
    ensures r.None? <==> f.minPrice.None? && f.maxPrice.None?
    ensures r.Some? && r.value.RangeChip? <==> f.minPrice.Some? && f.maxPrice.Some?
    ensures r.Some? && r.value.OverChip? <==> f.minPrice.Some? && f.maxPrice.None?
    ensures r.Some? && r.value.UnderChip? <==> f.minPrice.None? && f.maxPrice.Some?
  {
    if f.minPrice.Some? && f.maxPrice.Some? then Some(RangeChip(f.minPrice.value, f.maxPrice.value))
    else if f.minPrice.Some? then Some(OverChip(f.minPrice.value))
    else if f.maxPrice.Some? then Some(UnderChip(f.maxPrice.value))
    else None
  }

  /** The applied-filters panel shows when a price bound or a search is set. */
  predicate PanelShown(f: ProductFilters) {
    f.minPrice.Some? || f.maxPrice.Some? || f.searchQuery != ""
  }

  /** The panel shows exactly when it has a chip to show. */
  lemma PanelShownIffChip(f: ProductFilters)
    ensures PanelShown(f) <==> PriceChipOf(f).Some? || f.searchQuery != ""
  {
  }

  /**
   Each preset's chip; "Under $50" sends a lower bound of 0, so it shows as
   the range "0 - 50" and no preset ever produces the "Under" chip.
   */
  lemma PresetChips(st: ProductsState, p: PricePreset)
    ensures PriceChipOf(SelectPrice(st, PresetBounds(p)).filters) ==
      match p
      case AllPrices => None
      case Under50 => Some(RangeChip(0.0, 50.0))
      case From50To100 => Some(RangeChip(50.0, 100.0))
      case From100To200 => Some(RangeChip(100.0, 200.0))
      case Over200 => Some(OverChip(200.0))
    ensures p != AllPrices ==> !PriceChipOf(SelectPrice(st, PresetBounds(p)).filters).value.UnderChip?
  {
  }

  /** Closing the price chip returns to "All Prices"; closing the search chip keeps the price chip. */
  lemma ChipRemoval(st: ProductsState)
    ensures Checked(AllPrices, SelectPrice(st, Bounds(None, None)).filters)
    ensures PriceChipOf(SelectPrice(st, Bounds(None, None)).filters).None?
    ensures PriceChipOf(SetFilters(st, SearchPatch("")).filters) == PriceChipOf(st.filters)
    ensures PanelShown(SetFilters(st, SearchPatch("")).filters) <==> PriceChipOf(st.filters).Some?
  {
  }
}

=== FILE: products_slice.dfy ===
/**
 The catalog view of `src/store/slices/productsSlice.ts`: the loaded
 products, the filter record, and the filtered and sorted view that
 `setFilters` recomputes from them.
 */
module ProductsSlice {
  import opened Types
  import opened Text
  import opened Seqs
  import opened Catalog

  datatype ProductsState = ProductsState(
    items: seq<Product>,
    filteredItems: seq<Product>,
    filters: ProductFilters,
    isLoading: bool,
    error: Option<string>)

  /** No category, no price bounds, empty search, catalog order. */
  const InitialFilters := ProductFilters(None, None, None, "", Default)

  const InitialState := ProductsState([], [], InitialFilters, false, None)

  /**
   A `Partial<ProductFilters>`: `None` for a field the patch does not
   mention; the nullable fields may be mentioned with the value `null`.
   */
  datatype FiltersPatch = FiltersPatch(
    category: Option<Option<string>>,
    minPrice: Option<Option<real>>,
    maxPrice: Option<Option<real>>,
    searchQuery: Option<string>,
    sortBy: Option<SortKey>)

  /** `{ ...filters, ...patch }`: the patch's fields win, the others keep their value. */
  function Merge(f: ProductFilters, patch: FiltersPatch): (r: ProductFilters)
    ensures patch.category.Some? ==> r.category == patch.category.value
    ensures patch.category.None? ==> r.category == f.category
    ensures patch.minPrice.Some? ==> r.minPrice == patch.minPrice.value
    ensures patch.minPrice.None? ==> r.minPrice == f.minPrice
    ensures patch.maxPrice.Some? ==> r.maxPrice == patch.maxPrice.value
    ensures patch.maxPrice.None? ==> r.maxPrice == f.maxPrice
    ensures patch.searchQuery.Some? ==> r.searchQuery == patch.searchQuery.value
    ensures patch.searchQuery.None? ==> r.searchQuery == f.searchQuery
    ensures patch.sortBy.Some? ==> r.sortBy == patch.sortBy.value
    ensures patch.sortBy.None? ==> r.sortBy == f.sortBy
  {
    ProductFilters(
      if patch.category.Some? then patch.category.value else f.category,
      if patch.minPrice.Some? then patch.minPrice.value else f.minPrice,
      if patch.maxPrice.Some? then patch.maxPrice.value else f.maxPrice,
      if patch.searchQuery.Some? then patch.searchQuery.value else f.searchQuery,
      if patch.sortBy.Some? then patch.sortBy.value else f.sortBy)
  }

  /** Merging the same patch again changes nothing. */
  lemma MergeIdempotent(f: ProductFilters, patch: FiltersPatch)
    ensures Merge(Merge(f, patch), patch) == Merge(f, patch)
  {
  }

  /** `if (filters.category)`: a category filter applies only when it is a non-empty string. */
  predicate CategoryActive(f: ProductFilters) {
    f.category.Some? && f.category.value != ""
  }

  /** `minPrice || 0`: the lower bound a present `minPrice` imposes. */
  function LowerBound(m: real): real {
    if m == 0.0 then 0.0 else m
  }

  /** `maxPrice || Infinity`: `None` stands for the unbounded `Infinity`. */
  function UpperBound(m: real): Option<real> {
    if m == 0.0 then None else Some(m)
  }

  /** Exact, case-sensitive category equality. */
  predicate PassesCategory(f: ProductFilters, p: Product) {
    !CategoryActive(f) || p.category == f.category.value
  }

  predicate PassesMin(f: ProductFilters, p: Product) {
    f.minPrice.None? || p.price >= LowerBound(f.minPrice.value)
  }

  predicate PassesMax(f: ProductFilters, p: Product) {
    f.maxPrice.None? || UpperBound(f.maxPrice.value).None? || p.price <= UpperBound(f.maxPrice.value).value
  }

  /** `if (searchQuery)`: an empty query does not filter. */
  predicate PassesSearch(f: ProductFilters, p: Product) {
    f.searchQuery == "" || MatchesQuery(p, f.searchQuery)
  }

  /** The product passes every active filter. */
  predicate Admits(f: ProductFilters, p: Product) {
    PassesCategory(f, p) && PassesMin(f, p) && PassesMax(f, p) && PassesSearch(f, p)
  }

  function CategoryPass(f: ProductFilters): Product -> bool {
    p => PassesCategory(f, p)
  }

  function MinPass(f: ProductFilters): Product -> bool {
    p => PassesMin(f, p)
  }

  function MaxPass(f: ProductFilters): Product -> bool {
    p => PassesMax(f, p)
  }

  function SearchPass(f: ProductFilters): Product -> bool {
    p => PassesSearch(f, p)
  }

  function AdmitsPass(f: ProductFilters): Product -> bool {
    p => Admits(f, p)
  }

  /** `if (on) s = s.filter(g)` */
  function FilterWhen(on: bool, s: seq<Product>, g: Product -> bool): seq<Product> {
    if on then Filter(s, g) else s
  }

  /** The four filter passes of `setFilters`, in the order the reducer applies them. */
  function Filtered(items: seq<Product>, f: ProductFilters): seq<Product> {
    var byCategory := FilterWhen(CategoryActive(f), items, CategoryPass(f));
    var byMin := FilterWhen(f.minPrice.Some?, byCategory, MinPass(f));
    var byMax := FilterWhen(f.maxPrice.Some?, byMin, MaxPass(f));
    FilterWhen(f.searchQuery != "", byMax, SearchPass(f))
  }

  /** A pass over a list with a known head decides that head once and passes the tail. */
  lemma FilterWhenCons(on: bool, b: bool, x: Product, s: seq<Product>, g: Product -> bool)
    ensures FilterWhen(on, ConsIf(b, x, s), g) == ConsIf(b && (!on || g(x)), x, FilterWhen(on, s, g))
  {
    if on && b {
      FilterCons(x, s, g);
    }
  }

  /** The head of the item list survives the four passes exactly when it is admitted. */
  lemma FilteredCons(items: seq<Product>, f: ProductFilters)
    requires items != []
    ensures Filtered(items, f) == ConsIf(Admits(f, items[0]), items[0], Filtered(items[1..], f))
  {
    var x, rest := items[0], items[1..];
    assert items == ConsIf(true, x, rest);
    var b1 := !CategoryActive(f) || PassesCategory(f, x);
    var s1 := FilterWhen(CategoryActive(f), rest, CategoryPass(f));
    var c1 := FilterWhen(CategoryActive(f), items, CategoryPass(f));
    FilterWhenCons(CategoryActive(f), true, x, rest, CategoryPass(f));
    assert c1 == ConsIf(b1, x, s1);
    var b2 := b1 && (f.minPrice.None? || PassesMin(f, x));
    var s2 := FilterWhen(f.minPrice.Some?, s1, MinPass(f));
    var c2 := FilterWhen(f.minPrice.Some?, c1, MinPass(f));
    FilterWhenCons(f.minPrice.Some?, b1, x, s1, MinPass(f));
    assert c2 == ConsIf(b2, x, s2);
    var b3 := b2 && (f.maxPrice.None? || PassesMax(f, x));
    var s3 := FilterWhen(f.maxPrice.Some?, s2, MaxPass(f));
    var c3 := FilterWhen(f.maxPrice.Some?, c2, MaxPass(f));
    FilterWhenCons(f.maxPrice.Some?, b2, x, s2, MaxPass(f));
    assert c3 == ConsIf(b3, x, s3);
    var b4 := b3 && (f.searchQuery == "" || PassesSearch(f, x));
    FilterWhenCons(f.searchQuery != "", b3, x, s3, SearchPass(f));
    assert b4 == Admits(f, x);
  }

  /** The four passes together are one filter by `Admits`. */
  lemma {:induction false} FilteredIsOneFilter(items: seq<Product>, f: ProductFilters)
    ensures Filtered(items, f) == Filter(items, AdmitsPass(f))
    decreases |items|
  {
    if items != [] {
      FilteredCons(items, f);
      FilteredIsOneFilter(items[1..], f);
      FilterConsIf(items, AdmitsPass(f));
    }
  }

  /**
   The passes keep exactly the admitted products, in catalog order.
   */
  lemma FilteredSpec(items: seq<Product>, f: ProductFilters)
    ensures forall i :: 0 <= i < |Filtered(items, f)| ==>
      Filtered(items, f)[i] in items && Admits(f, Filtered(items, f)[i])
    ensures forall i :: 0 <= i < |items| && Admits(f, items[i]) ==> items[i] in Filtered(items, f)
    ensures forall x :: multiset(Filtered(items, f))[x] == if Admits(f, x) then multiset(items)[x] else 0
    ensures SubsequenceOf(Filtered(items, f), items)
  {
    FilteredIsOneFilter(items, f);
    FilterIsSubsequence(items, AdmitsPass(f));
  }

  /** The sort key of each ordering: ascending price, descending price, descending rate. */
  function SortKeyOf(k: SortKey): Product -> real {
    match k
    case PriceLowHigh => (p: Product) => p.price
    case PriceHighLow => (p: Product) => -p.price
    case ByRating => RatingDesc
    case Default => (p: Product) => 0.0
  }

  /** The filtered products, sorted by the chosen key (stably), or left in order for "default". */
  function View(items: seq<Product>, f: ProductFilters): (r: seq<Product>)
    ensures |r| == |Filtered(items, f)|
  {
    if f.sortBy == Default then Filtered(items, f) else SortBy(Filtered(items, f), SortKeyOf(f.sortBy))
  }

  /**
   The view holds exactly the admitted products (as a permutation of the
   filtered list), ordered as its sort key demands; "default" keeps the
   catalog's relative order, and a real sort keeps ties in that order.
   */
  lemma ViewSpec(items: seq<Product>, f: ProductFilters)
    ensures multiset(View(items, f)) == multiset(Filtered(items, f))
    ensures forall i :: 0 <= i < |View(items, f)| ==> View(items, f)[i] in items && Admits(f, View(items, f)[i])
    ensures forall i :: 0 <= i < |items| && Admits(f, items[i]) ==> items[i] in View(items, f)
    ensures forall x :: multiset(View(items, f))[x] == if Admits(f, x) then multiset(items)[x] else 0
    ensures f.sortBy == Default ==> SubsequenceOf(View(items, f), items)
    ensures f.sortBy != Default ==> StablePermutation(View(items, f), Filtered(items, f), SortKeyOf(f.sortBy))
    ensures f.sortBy == PriceLowHigh ==>
      forall i, j :: 0 <= i < j < |View(items, f)| ==> View(items, f)[i].price <= View(items, f)[j].price
    ensures f.sortBy == PriceHighLow ==>
      forall i, j :: 0 <= i < j < |View(items, f)| ==> View(items, f)[i].price >= View(items, f)[j].price
    ensures f.sortBy == ByRating ==>
      forall i, j :: 0 <= i < j < |View(items, f)| ==> View(items, f)[i].rating.rate >= View(items, f)[j].rating.rate
  {
    var fl := Filtered(items, f);
    var v := View(items, f);
    FilteredSpec(items, f);
    if f.sortBy != Default {
      var key := SortKeyOf(f.sortBy);
      SortByIsStableSort(fl, key);
      forall i | 0 <= i < |v| ensures v[i] in items && Admits(f, v[i]) {
        assert v[i] in multiset(fl);
      }
      forall i | 0 <= i < |items| && Admits(f, items[i]) ensures items[i] in v {
        assert items[i] in multiset(v);
      }
      forall i, j | 0 <= i < j < |v| ensures key(v[i]) <= key(v[j]) {
      }
    }
  }

  /** `setFilters(patch)`: merge the patch, then recompute the view from `items`. */
  function SetFilters(st: ProductsState, patch: FiltersPatch): (r: ProductsState)
    ensures r.filters == Merge(st.filters, patch)
    ensures r.items == st.items && r.isLoading == st.isLoading && r.error == st.error
    ensures forall i :: 0 <= i < |r.filteredItems| ==> r.filteredItems[i] in st.items && Admits(r.filters, r.filteredItems[i])
    ensures forall i :: 0 <= i < |st.items| && Admits(r.filters, st.items[i]) ==> st.items[i] in r.filteredItems
    ensures forall x :: multiset(r.filteredItems)[x] == if Admits(r.filters, x) then multiset(st.items)[x] else 0
    ensures r.filters.sortBy == Default ==> SubsequenceOf(r.filteredItems, st.items)
    ensures r.filters.sortBy != Default ==> StablePermutation(r.filteredItems, Filtered(st.items, r.filters), SortKeyOf(r.filters.sortBy))
    ensures r.filters.sortBy == PriceLowHigh ==> forall i, j :: 0 <= i < j < |r.filteredItems| ==> r.filteredItems[i].price <= r.filteredItems[j].price
    ensures r.filters.sortBy == PriceHighLow ==> forall i, j :: 0 <= i < j < |r.filteredItems| ==> r.filteredItems[i].price >= r.filteredItems[j].price
    ensures r.filters.sortBy == ByRating ==> forall i, j :: 0 <= i < j < |r.filteredItems| ==> r.filteredItems[i].rating.rate >= r.filteredItems[j].rating.rate
  {
    var f := Merge(st.filters, patch);
    ViewSpec(st.items, f);
    st.(filters := f, filteredItems := View(st.items, f))
  }

  /** Applying the same patch twice leaves the same filters and the same view. */
  lemma SetFiltersIdempotent(st: ProductsState, patch: FiltersPatch)
    ensures SetFilters(SetFilters(st, patch), patch) == SetFilters(st, patch)
  {
    MergeIdempotent(st.filters, patch);
  }

  /** A `maxPrice` of 0 is falsy, so `|| Infinity` makes it no bound at all. */
  lemma MaxPriceZeroIsUnbounded(items: seq<Product>, f: ProductFilters)
    requires f.maxPrice == Some(0.0)
    ensures Filtered(items, f) == Filtered(items, f.(maxPrice := None))
  {
    var g := f.(maxPrice := None);
    FilteredIsOneFilter(items, f);
    FilteredIsOneFilter(items, g);
    FilterExt(items, AdmitsPass(f), AdmitsPass(g));
  }

  /** A `minPrice` of 0 is falsy too, but `|| 0` turns it back into the bound 0. */
  lemma MinPriceZeroIsZero(f: ProductFilters, p: Product)
    requires f.minPrice == Some(0.0)
    ensures PassesMin(f, p) <==> p.price >= 0.0
  {
  }

  /** `clearFilters`: the initial filter record and the unfiltered items. */
  function ClearFilters(st: ProductsState): (r: ProductsState)
    ensures r.filters == InitialFilters
    ensures r.filteredItems == r.items == st.items
    ensures r.isLoading == st.isLoading && r.error == st.error
  {
    st.(filters := InitialFilters, filteredItems := st.items)
  }

  /** The view of the initial filters is the item list itself, so clearing agrees with recomputing. */
  lemma InitialFiltersViewAll(items: seq<Product>)
    ensures View(items, InitialFilters) == items
  {
    assert Filtered(items, InitialFilters) == items;
  }

  /** After `clearFilters`, the stored view is the one `setFilters` would compute. */
  lemma ClearFiltersConsistent(st: ProductsState)
    ensures ClearFilters(st).filteredItems == View(st.items, ClearFilters(st).filters)
    ensures SetFilters(ClearFilters(st), FiltersPatch(None, None, None, None, None)) == ClearFilters(st)
  {
    InitialFiltersViewAll(st.items);
  }

  /** `getProducts.fulfilled`: the payload becomes both the items and the view. */
  function GetProductsFulfilled(st: ProductsState, payload: seq<Product>): (r: ProductsState)
    ensures r.items == r.filteredItems == payload
    ensures !r.isLoading && r.filters == st.filters && r.error == st.error
  {
    st.(isLoading := false, items := payload, filteredItems := payload)
  }

  /** `getProducts.pending` and `getProductsByCategory.pending`: only the loading flag goes up. */
  function LoadPending(st: ProductsState): (r: ProductsState)
    ensures r.isLoading
    ensures r.items == st.items && r.filteredItems == st.filteredItems
    ensures r.filters == st.filters && r.error == st.error
  {
    st.(isLoading := true)
  }

  /**
   `getProducts.fulfilled` as it is evidently meant to behave: the payload
   becomes the items and the view is recomputed under the current filters,
   so a search set while loading is not lost.
   */
  function GetProductsFulfilledFiltered(st: ProductsState, payload: seq<Product>): (r: ProductsState)
    ensures r.items == payload
    ensures !r.isLoading && r.filters == st.filters && r.error == st.error
    ensures forall i :: 0 <= i < |r.filteredItems| ==> r.filteredItems[i] in payload && Admits(st.filters, r.filteredItems[i])
    ensures forall i :: 0 <= i < |payload| && Admits(st.filters, payload[i]) ==> payload[i] in r.filteredItems
    ensures forall x :: multiset(r.filteredItems)[x] == if Admits(st.filters, x) then multiset(payload)[x] else 0
    ensures st.filters.sortBy == Default ==> SubsequenceOf(r.filteredItems, payload)
    ensures st.filters.sortBy != Default ==> StablePermutation(r.filteredItems, Filtered(payload, st.filters), SortKeyOf(st.filters.sortBy))
    ensures st.filters.sortBy == PriceLowHigh ==> forall i, j :: 0 <= i < j < |r.filteredItems| ==> r.filteredItems[i].price <= r.filteredItems[j].price
    ensures st.filters.sortBy == PriceHighLow ==> forall i, j :: 0 <= i < j < |r.filteredItems| ==> r.filteredItems[i].price >= r.filteredItems[j].price
    ensures st.filters.sortBy == ByRating ==> forall i, j :: 0 <= i < j < |r.filteredItems| ==> r.filteredItems[i].rating.rate >= r.filteredItems[j].rating.rate
  {
    ViewSpec(payload, st.filters);
    st.(isLoading := false, items := payload, filteredItems := View(payload, st.filters))
  }

  /** `getProductsByCategory.fulfilled`: as above, and the requested category becomes the filter. */
  function GetProductsByCategoryFulfilled(st: ProductsState, arg: string, payload: seq<Product>): (r: ProductsState)
    ensures r.items == r.filteredItems == payload
    ensures r.filters == st.filters.(category := Some(arg))
    ensures !r.isLoading && r.error == st.error
  {
    st.(isLoading := false, items := payload, filteredItems := payload,
        filters := st.filters.(category := Some(arg)))
  }

  /**
   If no loaded product carries the requested category verbatim, the next
   `setFilters` that leaves the category alone empties the view.
   */
  lemma CategoryMismatchEmptiesView(st: ProductsState, arg: string, payload: seq<Product>, patch: FiltersPatch)
    requires arg != "" && patch.category.None?
    requires forall i :: 0 <= i < |payload| ==> payload[i].category != arg
    ensures SetFilters(GetProductsByCategoryFulfilled(st, arg, payload), patch).filteredItems == []
  {
    var r := SetFilters(GetProductsByCategoryFulfilled(st, arg, payload), patch);
    if |r.filteredItems| > 0 {
      assert false;
    }
  }

  /** Each seeded product's category is one of the five lower-case names. */
  predicate IsMockCategory(c: string) {
    c == "electronics" || c == "clothing" || c == "furniture" || c == "home" || c == "sports"
  }

  lemma MockCategoriesNamed()
    ensures forall j :: 0 <= j < |MockProducts| ==> IsMockCategory(MockProducts[j].category)
  {
    MockCategoryList();
    CategoryNamesListed(CategoryList(MockProducts));
  }

  lemma CategoryNamesListed(cs: seq<string>)
    requires cs == ["electronics", "clothing", "clothing", "electronics", "furniture", "home", "electronics", "clothing", "furniture", "electronics", "home", "clothing", "electronics", "furniture", "sports", "clothing", "electronics", "furniture", "home", "electronics"]
    ensures forall j :: 0 <= j < |cs| ==> IsMockCategory(cs[j])
  {
  }

  /** The five names are lower case, and none of them is "all". */
  lemma MockCategoryLowerCase(c: string)
    requires IsMockCategory(c)
    ensures HasNoUpper(c) && c != "all"
  {
  }

  /**
   Over a catalog whose categories are all among the five lower-case names,
   a category route of "all" in any case, or of a name in the wrong case,
   loads products but any later `setFilters` that keeps the category shows
   none of them.
   */
  lemma AllOrMiscasedCategoryEmptiesView(catalog: seq<Product>, st: ProductsState, arg: string, patch: FiltersPatch)
    requires forall j :: 0 <= j < |catalog| ==> IsMockCategory(catalog[j].category)
    requires ToLower(arg) == "all" || ToLower(arg) != arg
    requires patch.category.None?
    ensures SetFilters(GetProductsByCategoryFulfilled(st, arg, FetchProductsByCategory(catalog, arg)), patch).filteredItems == []
  {
    var payload := FetchProductsByCategory(catalog, arg);
    forall i | 0 <= i < |payload| ensures payload[i].category != arg {
      assert payload[i] in catalog;
      var j :| 0 <= j < |catalog| && catalog[j] == payload[i];
      MockCategoryLowerCase(payload[i].category);
      if payload[i].category == arg {
        ToLowerFixedPoint(arg);
        assert false;
      }
    }
    CategoryMismatchEmptiesView(st, arg, payload, patch);
  }

  /** The seeded catalog meets that premise. */
  lemma MockAllOrMiscasedCategoryEmptiesView(st: ProductsState, arg: string, patch: FiltersPatch)
    requires ToLower(arg) == "all" || ToLower(arg) != arg
    requires patch.category.None?
    ensures SetFilters(GetProductsByCategoryFulfilled(st, arg, FetchProductsByCategory(MockProducts, arg)), patch).filteredItems == []
  {
    MockCategoriesNamed();
    AllOrMiscasedCategoryEmptiesView(MockProducts, st, arg, patch);
  }
}

=== FILE: seqs.dfy ===
/**
 The array operations the storefront relies on, as functions over
 sequences: `Array.prototype.filter`, the stable `Array.prototype.sort`
 with a numeric comparator, and `Array.from(new Set(xs))`.
 */
module Seqs {

  /** `a` can be obtained from `b` by deleting elements (order kept). */
  predicate SubsequenceOf<T(==)>(a: seq<T>, b: seq<T>)
    decreases |b|
  {
    if a == [] then true
    else if b == [] then false
    else (a[0] == b[0] && SubsequenceOf(a[1..], b[1..])) || SubsequenceOf(a, b[1..])
  }

  /** `s.filter(f)` */
  function Filter<T(==,!new)>(s: seq<T>, f: T -> bool): (r: seq<T>)
    ensures |r| <= |s|
    ensures forall i :: 0 <= i < |r| ==> r[i] in s && f(r[i])
    ensures forall i :: 0 <= i < |s| && f(s[i]) ==> s[i] in r
    ensures multiset(r) <= multiset(s)
    ensures forall x :: multiset(r)[x] == if f(x) then multiset(s)[x] else 0
  {
    if s == [] then []
    else
      assert s == [s[0]] + s[1..];
      assert multiset(s) == multiset{s[0]} + multiset(s[1..]);
      if f(s[0]) then [s[0]] + Filter(s[1..], f)
      else Filter(s[1..], f)
  }

  /** A filter's result keeps the order of its input. */
  lemma {:induction false} FilterIsSubsequence<T(!new)>(s: seq<T>, f: T -> bool)
    ensures SubsequenceOf(Filter(s, f), s)
  {
    if s != [] {
      FilterIsSubsequence(s[1..], f);
      var r := Filter(s, f);
      if f(s[0]) {
        assert r[0] == s[0] && r[1..] == Filter(s[1..], f);
      }
    }
  }

  lemma FilterCons<T(!new)>(x: T, s: seq<T>, f: T -> bool)
    ensures Filter([x] + s, f) == if f(x) then [x] + Filter(s, f) else Filter(s, f)
  {
    assert ([x] + s)[1..] == s;
  }

  /** Filtering keeps every element when every element passes. */
  lemma {:induction false} FilterAll<T(!new)>(s: seq<T>, f: T -> bool)
    requires forall i :: 0 <= i < |s| ==> f(s[i])
    ensures Filter(s, f) == s
  {
    if s != [] {
      FilterAll(s[1..], f);
    }
  }

  /** Filtering keeps nothing when nothing passes. */
  lemma {:induction false} FilterNone<T(!new)>(s: seq<T>, f: T -> bool)
    requires forall i :: 0 <= i < |s| ==> !f(s[i])
    ensures Filter(s, f) == []
  {
    if s != [] {
      FilterNone(s[1..], f);
    }
  }

  /** Two filters with the same verdict on every element agree. */
  lemma {:induction false} FilterExt<T(!new)>(s: seq<T>, f: T -> bool, g: T -> bool)
    requires forall i :: 0 <= i < |s| ==> f(s[i]) == g(s[i])
    ensures Filter(s, f) == Filter(s, g)
  {
    if s != [] {
      FilterExt(s[1..], f, g);
    }
  }

  /** Filtering twice is filtering once by the conjunction. */
  lemma {:induction false} FilterFilter<T(!new)>(s: seq<T>, f: T -> bool, g: T -> bool)
    ensures Filter(Filter(s, f), g) == Filter(s, x => f(x) && g(x))
  {
    if s != [] {
      FilterFilter(s[1..], f, g);
      if f(s[0]) {
        FilterCons(s[0], Filter(s[1..], f), g);
      }
    }
  }

  lemma ConcatAssoc<T>(a: seq<T>, b: seq<T>, c: seq<T>)
    ensures a + (b + c) == (a + b) + c
  {
  }

  /** Filtering distributes over concatenation. */
  lemma {:induction false} FilterAppend<T(!new)>(a: seq<T>, b: seq<T>, f: T -> bool)
    ensures Filter(a + b, f) == Filter(a, f) + Filter(b, f)
  {
    if a == [] {
      assert a + b == b;
    } else {
      var x, t := a[0], a[1..];
      assert a + b == [x] + (t + b);
      assert a == [x] + t;
      FilterCons(x, t + b, f);
      FilterCons(x, t, f);
      FilterAppend(t, b, f);
      if f(x) {
        ConcatAssoc([x], Filter(t, f), Filter(b, f));
      }
    }
  }

  /** Elements in non-decreasing key order. */
  predicate SortedBy<T>(s: seq<T>, key: T -> real) {
    forall i, j :: 0 <= i < j < |s| ==> key(s[i]) <= key(s[j])
  }

  /** The elements of `s` whose key is `k`, in their order in `s`. */
  function KeyClass<T(==,!new)>(s: seq<T>, key: T -> real, k: real): seq<T> {
    Filter(s, HasKey(key, k))
  }

  function HasKey<T>(key: T -> real, k: real): T -> bool {
    x => key(x) == k
  }

  /**
   `r` is a stable reordering of `s` by `key`: the same elements, and the
   elements that share a key keep their relative order.
   */
  ghost predicate StablePermutation<T(!new)>(r: seq<T>, s: seq<T>, key: T -> real) {
    && multiset(r) == multiset(s)
    && forall k :: KeyClass(r, key, k) == KeyClass(s, key, k)
  }

  /** A prefix holds each element at most as often as the whole sequence. */
  lemma PrefixMultiset<T>(s: seq<T>, n: nat)
    requires n <= |s|
    ensures multiset(s[..n]) <= multiset(s)
  {
    assert s == s[..n] + s[n..];
  }

  /** `[x] + s` when `b` holds, else `s`. */
  function ConsIf<T>(b: bool, x: T, s: seq<T>): seq<T> {
    if b then [x] + s else s
  }

  /** A copy missing from a prefix occurs after it. */
  lemma OmittedCopyIsLater<T>(s: seq<T>, n: nat, x: T)
    requires n <= |s| && multiset(s[..n])[x] < multiset(s)[x]
    ensures exists j :: n <= j < |s| && s[j] == x
  {
    assert s == s[..n] + s[n..];
    assert x in multiset(s[n..]);
    var k :| 0 <= k < |s[n..]| && s[n..][k] == x;
    assert s[n + k] == x;
  }

  /** A copy missing from a prefix of a sorted sequence has a key no smaller than the prefix's last. */
  lemma SortedPrefixBound<T>(s: seq<T>, key: T -> real, n: nat, x: T)
    requires SortedBy(s, key) && n <= |s| && multiset(s[..n])[x] < multiset(s)[x]
    ensures n < |s|
    ensures n > 0 ==> key(s[n - 1]) <= key(x)
  {
    OmittedCopyIsLater(s, n, x);
    var j :| n <= j < |s| && s[j] == x;
  }

  /**
   A prefix of a sorted permutation of `s`: sorted, drawn from `s` without
   extra copies, and every copy it leaves out has a key no smaller than its last.
   */
  lemma SortedPrefixSpec<T>(s: seq<T>, sorted: seq<T>, key: T -> real, n: nat)
    requires SortedBy(sorted, key) && multiset(sorted) == multiset(s) && n <= |sorted|
    ensures SortedBy(sorted[..n], key)
    ensures forall i :: 0 <= i < n ==> sorted[..n][i] in s
    ensures multiset(sorted[..n]) <= multiset(s)
    ensures forall x :: multiset(sorted[..n])[x] < multiset(s)[x] ==>
      n < |sorted| && (n > 0 ==> key(sorted[..n][n - 1]) <= key(x))
  {
    PrefixMultiset(sorted, n);
    forall i | 0 <= i < n ensures sorted[..n][i] in s {
      assert sorted[i] in multiset(sorted);
    }
    forall x | multiset(sorted[..n])[x] < multiset(s)[x]
      ensures n < |sorted| && (n > 0 ==> key(sorted[..n][n - 1]) <= key(x)) {
      SortedPrefixBound(sorted, key, n, x);
    }
  }

  /** A filter decides the head once and filters the tail. */
  lemma FilterConsIf<T(!new)>(s: seq<T>, f: T -> bool)
    requires s != []
    ensures Filter(s, f) == ConsIf(f(s[0]), s[0], Filter(s[1..], f))
  {
  }

  /** Inserts `x` before the first element whose key is not smaller than its own. */
  function InsertBy<T>(x: T, s: seq<T>, key: T -> real): (r: seq<T>)
    ensures |r| == |s| + 1
  {
    if s == [] || key(x) <= key(s[0]) then [x] + s
    else [s[0]] + InsertBy(x, s[1..], key)
  }

  /** Insertion adds exactly `x`. */
  lemma {:induction false} InsertByMultiset<T>(x: T, s: seq<T>, key: T -> real)
    ensures multiset(InsertBy(x, s, key)) == multiset(s) + multiset{x}
  {
    if !(s == [] || key(x) <= key(s[0])) {
      InsertByMultiset(x, s[1..], key);
      assert s == [s[0]] + s[1..];
    }
  }

  /** Insertion into a sorted sequence keeps it sorted. */
  lemma {:induction false} InsertBySorted<T>(x: T, s: seq<T>, key: T -> real)
    requires SortedBy(s, key)
    ensures SortedBy(InsertBy(x, s, key), key)
  {
    var r := InsertBy(x, s, key);
    if s == [] || key(x) <= key(s[0]) {
      assert r == [x] + s;
      forall i, j | 0 <= i < j < |r| ensures key(r[i]) <= key(r[j]) {
        if i == 0 {
          assert key(s[0]) <= key(s[j - 1]);
        } else {
          assert r[i] == s[i - 1] && r[j] == s[j - 1];
        }
      }
    } else {
      var rest := InsertBy(x, s[1..], key);
      InsertBySorted(x, s[1..], key);
      InsertByMultiset(x, s[1..], key);
      assert r == [s[0]] + rest;
      forall i, j | 0 <= i < j < |r| ensures key(r[i]) <= key(r[j]) {
        assert r[j] == rest[j - 1];
        if i == 0 {
          assert rest[j - 1] in multiset(rest);
          if rest[j - 1] != x {
            assert rest[j - 1] in multiset(s[1..]);
            var t :| 0 <= t < |s[1..]| && s[1..][t] == rest[j - 1];
            assert s[t + 1] == rest[j - 1];
          }
        } else {
          assert r[i] == rest[i - 1];
        }
      }
    }
  }

  /**
   Insertion puts `x` in front of every element with the same key (it stops
   at the first key not below its own), so each key class only gains `x`
   at its head.
   */
  lemma {:induction false} InsertByKeyClass<T(!new)>(x: T, s: seq<T>, key: T -> real, k: real)
    ensures KeyClass(InsertBy(x, s, key), key, k) == ConsIf(key(x) == k, x, KeyClass(s, key, k))
    decreases |s|
  {
    var f := HasKey(key, k);
    if s == [] || key(x) <= key(s[0]) {
      assert InsertBy(x, s, key) == [x] + s;
      FilterCons(x, s, f);
    } else {
      var rest := InsertBy(x, s[1..], key);
      assert InsertBy(x, s, key) == [s[0]] + rest;
      assert s == [s[0]] + s[1..];
      InsertByKeyClass(x, s[1..], key, k);
      FilterCons(s[0], rest, f);
      FilterCons(s[0], s[1..], f);
      assert !(f(x) && f(s[0]));
    }
  }

  /**
   `s.sort((a, b) => key(a) - key(b))`. JavaScript's sort is stable;
   `SortByIsStableSort` proves this model of it sorted and stable.
   */
  function SortBy<T>(s: seq<T>, key: T -> real): (r: seq<T>)
    ensures |r| == |s|
  {
    if s == [] then [] else InsertBy(s[0], SortBy(s[1..], key), key)
  }

  /** The sort yields the stable, key-ascending reordering of its input. */
  lemma {:induction false} SortByIsStableSort<T(!new)>(s: seq<T>, key: T -> real)
    ensures SortedBy(SortBy(s, key), key)
    ensures StablePermutation(SortBy(s, key), s, key)
  {
    SortByOrders(s, key);
    SortByMultiset(s, key);
    forall k ensures KeyClass(SortBy(s, key), key, k) == KeyClass(s, key, k) {
      SortByKeyClass(s, key, k);
    }
  }

  lemma {:induction false} SortByOrders<T>(s: seq<T>, key: T -> real)
    ensures SortedBy(SortBy(s, key), key)
  {
    if s != [] {
      SortByOrders(s[1..], key);
      InsertBySorted(s[0], SortBy(s[1..], key), key);
    }
  }

  lemma {:induction false} SortByMultiset<T>(s: seq<T>, key: T -> real)
    ensures multiset(SortBy(s, key)) == multiset(s)
  {
    if s != [] {
      SortByMultiset(s[1..], key);
      InsertByMultiset(s[0], SortBy(s[1..], key), key);
      assert s == [s[0]] + s[1..];
    }
  }

  lemma {:induction false} SortByKeyClass<T(!new)>(s: seq<T>, key: T -> real, k: real)
    ensures KeyClass(SortBy(s, key), key, k) == KeyClass(s, key, k)
  {
    if s != [] {
      SortByKeyClass(s[1..], key, k);
      InsertByKeyClass(s[0], SortBy(s[1..], key), key, k);
      assert s == [s[0]] + s[1..];
      FilterCons(s[0], s[1..], HasKey(key, k));
    }
  }


  /** Insertion places `x` right after the elements whose key is smaller than its own. */
  lemma {:induction false} InsertByAt<T>(x: T, s: seq<T>, key: T -> real, j: nat)
    requires j <= |s|
    requires forall i :: 0 <= i < j ==> key(s[i]) < key(x)
    requires j < |s| ==> key(x) <= key(s[j])
    ensures InsertBy(x, s, key) == s[..j] + [x] + s[j..]
  {
    if j > 0 {
      InsertByAt(x, s[1..], key, j - 1);
      assert s[..j] == [s[0]] + s[1..][..j - 1];
      assert s[j..] == s[1..][j - 1..];
    }
  }

  /** The first `n` elements after an insertion depend only on the first `n` before it. */
  lemma {:induction false} InsertByPrefix<T>(x: T, s: seq<T>, key: T -> real, n: nat)
    requires n <= |s|
    ensures InsertBy(x, s, key)[..n] == InsertBy(x, s[..n], key)[..n]
  {
    if n > 0 && !(key(x) <= key(s[0])) {
      assert s[..n][0] == s[0] && s[..n][1..] == s[1..][..n - 1];
      InsertByPrefix(x, s[1..], key, n - 1);
    }
  }

  /** One step of the sort: the head of `s` goes into the sorted rest at position `j`. */
  lemma SortByStep<T>(s: seq<T>, key: T -> real, sortedRest: seq<T>, j: nat)
    requires |s| >= 1 && SortBy(s[1..], key) == sortedRest && j <= |sortedRest|
    requires forall i :: 0 <= i < j ==> key(sortedRest[i]) < key(s[0])
    requires j < |sortedRest| ==> key(s[0]) <= key(sortedRest[j])
    ensures SortBy(s, key) == sortedRest[..j] + [s[0]] + sortedRest[j..]
  {
    InsertByAt(s[0], sortedRest, key, j);
  }

  /** The same step when only the first `n` elements of the sorted rest are known. */
  lemma SortByTopStep<T>(s: seq<T>, key: T -> real, top: seq<T>, j: nat, n: nat)
    requires |s| > n && |top| == n && SortBy(s[1..], key)[..n] == top && j <= n
    requires forall i :: 0 <= i < j ==> key(top[i]) < key(s[0])
    requires j < n ==> key(s[0]) <= key(top[j])
    ensures SortBy(s, key)[..n] == (top[..j] + [s[0]] + top[j..])[..n]
  {
    InsertByPrefix(s[0], SortBy(s[1..], key), key, n);
    InsertByAt(s[0], top, key, j);
  }

  /** Sorting an already sorted sequence leaves it as it is. */
  lemma {:induction false} SortBySorted<T>(s: seq<T>, key: T -> real)
    requires SortedBy(s, key)
    ensures SortBy(s, key) == s
  {
    if s != [] {
      SortBySorted(s[1..], key);
      assert s == [s[0]] + s[1..];
    }
  }

  predicate NoDuplicates<T(==)>(s: seq<T>) {
    forall i, j :: 0 <= i < j < |s| ==> s[i] != s[j]
  }

  /** Index of the first occurrence of `x` in `s`. */
  function FirstIndex<T(==)>(s: seq<T>, x: T): (i: nat)
    requires x in s
    ensures i < |s| && s[i] == x
    ensures forall j :: 0 <= j < i ==> s[j] != x
  {
    if s[0] == x then 0 else 1 + FirstIndex(s[1..], x)
  }

  lemma FirstIndexPrefix<T>(s: seq<T>, n: nat, x: T)
    requires n <= |s| && x in s[..n]
    ensures FirstIndex(s, x) == FirstIndex(s[..n], x)
  {
    var i := FirstIndex(s[..n], x);
    var j := FirstIndex(s, x);
    assert s[..n][j] == x by {
      assert j <= i;
    }
    assert i <= j;
  }

  /**
   Adding the elements of `s` one by one to a JavaScript `Set` that already
   holds `seen` (in insertion order): an element already present is skipped.
   */
  function InsertAll<T(==)>(seen: seq<T>, s: seq<T>): seq<T>
    decreases |s|
  {
    if s == [] then seen
    else InsertAll(if s[0] in seen then seen else seen + [s[0]], s[1..])
  }

  /** Insertion never removes or reorders what the set already holds. */
  lemma {:induction false} InsertAllExtends<T>(seen: seq<T>, s: seq<T>)
    ensures |seen| <= |InsertAll(seen, s)| && InsertAll(seen, s)[..|seen|] == seen
    decreases |s|
  {
    if s != [] {
      var seen' := if s[0] in seen then seen else seen + [s[0]];
      InsertAllExtends(seen', s[1..]);
      assert seen'[..|seen|] == seen;
    }
  }

  /** One insertion step, with the resulting set named by the caller. */
  lemma InsertAllStep<T>(seen: seq<T>, s: seq<T>, next: seq<T>)
    requires s != [] && next == if s[0] in seen then seen else seen + [s[0]]
    ensures InsertAll(seen, s) == InsertAll(next, s[1..])
  {
  }

  /** `Array.from(new Set(s))` */
  function Distinct<T(==)>(s: seq<T>): seq<T> {
    InsertAll([], s)
  }

  /** Inserting into a duplicate-free set keeps it duplicate-free; what it adds comes from `s` and was not there. */
  lemma {:induction false} InsertAllFresh<T>(seen: seq<T>, s: seq<T>)
    requires NoDuplicates(seen)
    ensures NoDuplicates(InsertAll(seen, s))
    ensures forall i :: |seen| <= i < |InsertAll(seen, s)| ==>
      InsertAll(seen, s)[i] in s && InsertAll(seen, s)[i] !in seen
    decreases |s|
  {
    if s != [] {
      var x := s[0];
      var seen' := if x in seen then seen else seen + [x];
      var r := InsertAll(seen', s[1..]);
      InsertAllFresh(seen', s[1..]);
      InsertAllExtends(seen', s[1..]);
      assert r[..|seen'|] == seen';
      forall i | |seen| <= i < |r| ensures r[i] in s && r[i] !in seen {
        if i < |seen'| {
          assert r[i] == x;
        } else {
          assert r[i] !in seen';
        }
      }
    }
  }

  /** Every element of `s` ends up in the set. */
  lemma {:induction false} InsertAllCovers<T>(seen: seq<T>, s: seq<T>)
    ensures forall i :: 0 <= i < |s| ==> s[i] in InsertAll(seen, s)
    decreases |s|
  {
    if s != [] {
      var x := s[0];
      var seen' := if x in seen then seen else seen + [x];
      var r := InsertAll(seen', s[1..]);
      InsertAllCovers(seen', s[1..]);
      InsertAllExtends(seen', s[1..]);
      assert r[..|seen'|] == seen';
      forall i | 0 <= i < |s| ensures s[i] in r {
        if i == 0 {
          var k :| 0 <= k < |seen'| && seen'[k] == x;
          assert r[k] == x;
        } else {
          assert s[i] == s[1..][i - 1];
        }
      }
    }
  }

  /** The added elements appear in the order of their first occurrence in `s`. */
  lemma {:induction false} InsertAllOrder<T>(seen: seq<T>, s: seq<T>)
    requires NoDuplicates(seen)
    ensures forall i, j :: |seen| <= i < j < |InsertAll(seen, s)| ==>
      && InsertAll(seen, s)[i] in s && InsertAll(seen, s)[j] in s
      && FirstIndex(s, InsertAll(seen, s)[i]) < FirstIndex(s, InsertAll(seen, s)[j])
    decreases |s|
  {
    if s != [] {
      var x := s[0];
      var seen' := if x in seen then seen else seen + [x];
      var r := InsertAll(seen', s[1..]);
      InsertAllFresh(seen, s);
      InsertAllFresh(seen', s[1..]);
      InsertAllOrder(seen', s[1..]);
      assert InsertAll(seen, s) == r;
      InsertAllExtends(seen', s[1..]);
      assert r[..|seen'|] == seen';
      forall i, j | |seen| <= i < j < |r|
        ensures r[i] in s && r[j] in s && FirstIndex(s, r[i]) < FirstIndex(s, r[j]) {
        assert r[j] !in seen';
        assert r[j] != x && r[j] in s[1..];
        assert FirstIndex(s, r[j]) == 1 + FirstIndex(s[1..], r[j]);
        if i < |seen'| {
          assert r[i] == x && FirstIndex(s, x) == 0;
        } else {
          assert r[i] !in seen';
          assert r[i] != x && r[i] in s[1..];
          assert FirstIndex(s, r[i]) == 1 + FirstIndex(s[1..], r[i]);
        }
      }
    } else {
      assert InsertAll(seen, s) == seen;
    }
  }

  /** `Distinct(s)` holds every element of `s` exactly once, in first-occurrence order. */
  lemma DistinctSpec<T>(s: seq<T>)
    ensures NoDuplicates(Distinct(s))
    ensures forall i :: 0 <= i < |Distinct(s)| ==> Distinct(s)[i] in s
    ensures forall i :: 0 <= i < |s| ==> s[i] in Distinct(s)
    ensures forall i, j :: 0 <= i < j < |Distinct(s)| ==>
      FirstIndex(s, Distinct(s)[i]) < FirstIndex(s, Distinct(s)[j])
  {
    InsertAllFresh([], s);
    InsertAllCovers([], s);
    InsertAllOrder([], s);
  }
}

=== FILE: text.dfy ===
/**
 String helpers the storefront takes from JavaScript: `toLowerCase`,
 `includes`, `trim`, the `\s` and `\d` character classes and the decimal
 rendering of a number. Letters are case-mapped on ASCII only.
 */
module Text {

  /** The characters JavaScript's `\s` class and `String.prototype.trim` treat as white space. */
  predicate IsSpace(c: char) {
    || c == ' ' || c == '\t' || c == '\n' || c == '\r'
    || c == '\U{000B}' || c == '\U{000C}'
    || c == '\U{00A0}' || c == '\U{1680}'
    || ('\U{2000}' <= c <= '\U{200A}')
    || c == '\U{2028}' || c == '\U{2029}' || c == '\U{202F}'
    || c == '\U{205F}' || c == '\U{3000}' || c == '\U{FEFF}'
  }

  /** JavaScript's `\d`: an ASCII decimal digit. */
  predicate IsDigit(c: char) {
    '0' <= c <= '9'
  }

  predicate IsUpper(c: char) {
    'A' <= c <= 'Z'
  }

  predicate IsLower(c: char) {
    'a' <= c <= 'z'
  }

  function LowerChar(c: char): (r: char)
    ensures !IsUpper(r)
    ensures IsUpper(c) ==> IsLower(r) && r as int - c as int == 32
    ensures !IsUpper(c) ==> r == c
  {
    if IsUpper(c) then (c as int + 32) as char else c
  }

  function UpperChar(c: char): (r: char)
    ensures !IsLower(r)
    ensures IsLower(c) ==> IsUpper(r) && c as int - r as int == 32
    ensures !IsLower(c) ==> r == c
  {
    if IsLower(c) then (c as int - 32) as char else c
  }

  /** `s.toLowerCase()` */
  function ToLower(s: string): (r: string)
    ensures |r| == |s|
    ensures forall i :: 0 <= i < |s| ==> r[i] == LowerChar(s[i])
  {
    seq(|s|, i requires 0 <= i < |s| => LowerChar(s[i]))
  }

  predicate HasNoUpper(s: string) {
    forall i :: 0 <= i < |s| ==> !IsUpper(s[i])
  }

  /** Lower-casing leaves no upper-case letter, so doing it twice changes nothing. */
  lemma ToLowerIdempotent(s: string)
    ensures HasNoUpper(ToLower(s))
    ensures ToLower(ToLower(s)) == ToLower(s)
  {
  }

  /** A string is its own lower-case form exactly when it has no upper-case letter. */
  lemma ToLowerFixedPoint(s: string)
    ensures ToLower(s) == s <==> HasNoUpper(s)
  {
    if ToLower(s) == s {
      forall i | 0 <= i < |s| ensures !IsUpper(s[i]) {
        assert ToLower(s)[i] == s[i];
      }
    }
  }

  /** `s.includes(q)`, scanning start positions left to right. */
  predicate Includes(s: string, q: string)
    decreases |s|
  {
    q <= s || (|s| > 0 && Includes(s[1..], q))
  }

  /** `q` occurs in `s` starting at index `i`. */
  predicate OccursAt(s: string, q: string, i: int) {
    0 <= i && i + |q| <= |s| && s[i..i + |q|] == q
  }

  /** The scan finds `q` exactly when `q` occurs somewhere in `s`. */
  lemma {:induction false} IncludesIffOccurs(s: string, q: string)
    ensures Includes(s, q) <==> exists i :: OccursAt(s, q, i)
    decreases |s|
  {
    if q <= s {
      assert OccursAt(s, q, 0);
    } else if |s| == 0 {
    } else {
      IncludesIffOccurs(s[1..], q);
      if Includes(s[1..], q) {
        var i :| OccursAt(s[1..], q, i);
        assert s[1..][i..i + |q|] == s[i + 1..i + 1 + |q|];
        assert OccursAt(s, q, i + 1);
      }
      if exists i :: OccursAt(s, q, i) {
        var i :| OccursAt(s, q, i);
        if i == 0 {
          assert false;
        }
        assert s[1..][i - 1..i - 1 + |q|] == s[i..i + |q|];
        assert OccursAt(s[1..], q, i - 1);
      }
    }
  }

  /** The empty query is found in every string. */
  lemma IncludesEmpty(s: string)
    ensures Includes(s, "")
  {
    assert "" <= s;
  }

  predicate AllSpace(s: string) {
    forall i :: 0 <= i < |s| ==> IsSpace(s[i])
  }

  /** `s.trimStart()` */
  function TrimStart(s: string): (r: string)
    ensures |r| <= |s| && r == s[|s| - |r|..]
    ensures |r| > 0 ==> !IsSpace(r[0])
    ensures AllSpace(s[..|s| - |r|])
    ensures AllSpace(s) ==> r == []
  {
    if |s| > 0 && IsSpace(s[0]) then TrimStart(s[1..]) else s
  }

  /** `s.trimEnd()` */
  function TrimEnd(s: string): (r: string)
    ensures |r| <= |s| && r == s[..|r|]
    ensures |r| > 0 ==> !IsSpace(r[|r| - 1])
    ensures AllSpace(s[|r|..])
  {
    if |s| > 0 && IsSpace(s[|s| - 1]) then TrimEnd(s[..|s| - 1]) else s
  }

  /** `s.trim()` */
  function Trim(s: string): string {
    TrimEnd(TrimStart(s))
  }

  /** Trimming leaves nothing exactly when the string is all white space. */
  lemma TrimEmptyIffBlank(s: string)
    ensures Trim(s) == [] <==> AllSpace(s)
  {
    var t := TrimStart(s);
    if Trim(s) == [] {
      assert AllSpace(t[0..]);
      assert s == s[..|s| - |t|] + t;
    }
  }

  /** `s.replace(/\s/g, '')` */
  function RemoveSpaces(s: string): (r: string)
    ensures |r| <= |s|
    ensures forall i :: 0 <= i < |r| ==> !IsSpace(r[i])
    ensures AllSpace(s) ==> r == []
  {
    if s == [] then []
    else if IsSpace(s[0]) then RemoveSpaces(s[1..])
    else [s[0]] + RemoveSpaces(s[1..])
  }

  predicate AllDigits(s: string) {
    forall i :: 0 <= i < |s| ==> IsDigit(s[i])
  }

  /** `s.replace(/[^0-9]/g, '')` */
  function KeepDigits(s: string): (r: string)
    ensures |r| <= |s|
    ensures AllDigits(r)
    ensures AllDigits(s) ==> r == s
  {
    if s == [] then []
    else if IsDigit(s[0]) then [s[0]] + KeepDigits(s[1..])
    else KeepDigits(s[1..])
  }

  function DigitChar(d: nat): (c: char)
    requires d < 10
    ensures IsDigit(c)
  {
    ('0' as int + d) as char
  }

  /** The decimal rendering of a natural number, as a template literal prints it. */
  function NatToString(n: nat): (r: string)
    ensures |r| >= 1 && AllDigits(r)
    ensures n < 10 <==> |r| == 1
    ensures r[|r| - 1] == DigitChar(n % 10)
    decreases n
  {
    if n < 10 then [DigitChar(n)] else NatToString(n / 10) + [DigitChar(n % 10)]
  }

  /** Different numbers render differently, so rendered numbers can serve as keys. */
  lemma {:induction false} NatToStringInjective(a: nat, b: nat)
    requires NatToString(a) == NatToString(b)
    ensures a == b
    decreases a
  {
    var ra, rb := NatToString(a), NatToString(b);
    assert a % 10 == b % 10 by {
      assert DigitChar(a % 10) == DigitChar(b % 10);
    }
    if a >= 10 {
      assert b >= 10;
      assert ra[..|ra| - 1] == NatToString(a / 10);
      assert rb[..|rb| - 1] == NatToString(b / 10);
      NatToStringInjective(a / 10, b / 10);
    }
  }
}

=== FILE: types.dfy ===
/**
 The storefront's entities: the records of `src/types/index.ts` as immutable
 datatypes, plus the Option/Result wrappers used for nullable fields and
 rejected promises.
 */
module Types {

  /** A nullable value (`T | null` in the storefront's types). */
  datatype Option<+T> = None | Some(value: T)

  /** A settled promise: resolved with a value or rejected with a message. */
  datatype Result<+T> = Success(value: T) | Failure(error: string)

  /** Star rating of a product: average rate (0.0 - 5.0) and number of votes. */
  datatype Rating = Rating(rate: real, count: int)

  /** An immutable catalog entry. */
  datatype Product = Product(
    id: int,
    title: string,
    price: real,
    description: string,
    category: string,
    image: string,
    rating: Rating)

  /** The four orderings offered by the catalog view. */
  datatype SortKey = Default | PriceLowHigh | PriceHighLow | ByRating

  /** The live query configuration of the catalog view. */
  datatype ProductFilters = ProductFilters(
    category: Option<string>,
    minPrice: Option<real>,
    maxPrice: Option<real>,
    searchQuery: string,
    sortBy: SortKey)

  /** One cart line: a product and how many of it. */
  datatype CartItem = CartItem(product: Product, quantity: int)

  /** A signed-in user as the session sees it (no password). */
  datatype User = User(id: int, name: Option<string>, email: string)

  /** Snapshot of a cart line inside an order. */
  datatype OrderItem = OrderItem(
    productId: int,
    quantity: int,
    price: real,
    productTitle: string,
    productImage: string)

  datatype OrderStatus = Pending | Processing | Shipped | Delivered | Canceled

  datatype ShippingAddress = ShippingAddress(
    name: string,
    street: string,
    city: string,
    state: string,
    zipCode: string,
    country: string)

  datatype Order = Order(
    id: string,
    userId: int,
    date: string,
    status: OrderStatus,
    total: real,
    items: seq<OrderItem>,
    shippingAddress: ShippingAddress)
}

=== FILE: ui_slice.dfy ===
/**
 The interface flags of `src/store/slices/uiSlice.ts`. Writing the dark
 mode flag to local storage is left out.
 */
module UISlice {

  datatype UIState = UIState(isMobileMenuOpen: bool, isDarkMode: bool)

  /** Both flags start off. */
  const InitialState := UIState(false, false)

  function ToggleMobileMenu(st: UIState): (r: UIState)
    ensures r.isMobileMenuOpen != st.isMobileMenuOpen && r.isDarkMode == st.isDarkMode
  {
    st.(isMobileMenuOpen := !st.isMobileMenuOpen)
  }

  function CloseMobileMenu(st: UIState): (r: UIState)
    ensures !r.isMobileMenuOpen && r.isDarkMode == st.isDarkMode
  {
    st.(isMobileMenuOpen := false)
  }

  function ToggleDarkMode(st: UIState): (r: UIState)
    ensures r.isDarkMode != st.isDarkMode && r.isMobileMenuOpen == st.isMobileMenuOpen
  {
    st.(isDarkMode := !st.isDarkMode)
  }

  function SetDarkMode(st: UIState, on: bool): (r: UIState)
    ensures r.isDarkMode == on && r.isMobileMenuOpen == st.isMobileMenuOpen
  {
    st.(isDarkMode := on)
  }

  /** Each toggle undoes itself, and closing twice is closing once. */
  lemma TogglesAreInvolutions(st: UIState)
    ensures ToggleMobileMenu(ToggleMobileMenu(st)) == st
    ensures ToggleDarkMode(ToggleDarkMode(st)) == st
    ensures CloseMobileMenu(CloseMobileMenu(st)) == CloseMobileMenu(st)
  {
  }

  /** Setting the mode to the opposite of the current one is a toggle; setting it to the same is a no-op. */
  lemma SetDarkModeVersusToggle(st: UIState)
    ensures SetDarkMode(st, !st.isDarkMode) == ToggleDarkMode(st)
    ensures SetDarkMode(st, st.isDarkMode) == st
  {
  }

  /** The two flags are independent: toggling one commutes with any change of the other. */
  lemma FlagsIndependent(st: UIState, on: bool)
    ensures ToggleMobileMenu(SetDarkMode(st, on)) == SetDarkMode(ToggleMobileMenu(st), on)
    ensures CloseMobileMenu(ToggleDarkMode(st)) == ToggleDarkMode(CloseMobileMenu(st))
  {
  }
}

=== FILE: wishlist_slice.dfy ===
/**
 The wishlist of `src/store/slices/wishlistSlice.ts`: saved products with
 set semantics on the product id. Local storage and toasts are left out.
 */
module WishlistSlice {
  import opened Types
  import opened Seqs
  import opened Catalog

  predicate Listed(items: seq<Product>, id: int) {
    exists i :: 0 <= i < |items| && items[i].id == id
  }

  /** `addToWishlist(product)`: appended unless a product with its id is already listed. */
  function AddToWishlist(items: seq<Product>, product: Product): (r: seq<Product>)
    ensures Listed(items, product.id) ==> r == items
    ensures !Listed(items, product.id) ==> r == items + [product]
    ensures Listed(r, product.id)
  {
    if Listed(items, product.id) then items
    else
      assert (items + [product])[|items|] == product;
      items + [product]
  }

  function NotId(id: int): Product -> bool {
    (p: Product) => p.id != id
  }

  /** `removeFromWishlist(id)`: every product with the id goes, the rest keep their order. */
  function RemoveFromWishlist(items: seq<Product>, id: int): (r: seq<Product>)
    ensures !Listed(r, id)
    ensures forall i :: 0 <= i < |items| && items[i].id != id ==> items[i] in r
    ensures forall i :: 0 <= i < |r| ==> r[i] in items
    ensures forall x :: multiset(r)[x] == if x.id != id then multiset(items)[x] else 0
    ensures SubsequenceOf(r, items)
  {
    FilterIsSubsequence(items, NotId(id));
    Filter(items, NotId(id))
  }

  /** `clearWishlist` */
  function ClearWishlist(items: seq<Product>): (r: seq<Product>)
    ensures |r| == 0
  {
    []
  }

  /** Starting without duplicate ids, adding never creates one. */
  lemma AddKeepsUniqueIds(items: seq<Product>, product: Product)
    requires UniqueIds(items)
    ensures UniqueIds(AddToWishlist(items, product))
  {
  }

  /** Filtering a duplicate-free list leaves it duplicate-free. */
  lemma {:induction false} RemoveKeepsUniqueIds(items: seq<Product>, id: int)
    requires UniqueIds(items)
    ensures UniqueIds(RemoveFromWishlist(items, id))
    decreases |items|
  {
    if items != [] {
      var x, rest := items[0], items[1..];
      UniqueIdsTail(items);
      RemoveKeepsUniqueIds(rest, id);
      assert items == [x] + rest;
      FilterCons(x, rest, NotId(id));
      if x.id != id {
        forall k | 0 <= k < |rest| ensures rest[k].id != x.id {
          assert rest[k] == items[k + 1];
        }
        RemoveAvoidsId(rest, id, x.id);
        UniqueIdsCons(x, RemoveFromWishlist(rest, id));
      }
    }
  }

  /** An id absent from the list stays absent after a removal. */
  lemma RemoveAvoidsId(items: seq<Product>, id: int, other: int)
    requires forall k :: 0 <= k < |items| ==> items[k].id != other
    ensures forall j :: 0 <= j < |RemoveFromWishlist(items, id)| ==> RemoveFromWishlist(items, id)[j].id != other
  {
    var r := RemoveFromWishlist(items, id);
    forall j | 0 <= j < |r| ensures r[j].id != other {
      assert r[j] in items;
    }
  }

  lemma UniqueIdsTail(items: seq<Product>)
    requires UniqueIds(items) && items != []
    ensures UniqueIds(items[1..])
  {
    var rest := items[1..];
    forall i, j | 0 <= i < j < |rest| ensures rest[i].id != rest[j].id {
      assert rest[i] == items[i + 1] && rest[j] == items[j + 1];
    }
  }

  lemma UniqueIdsCons(x: Product, r: seq<Product>)
    requires UniqueIds(r) && forall j :: 0 <= j < |r| ==> r[j].id != x.id
    ensures UniqueIds([x] + r)
  {
    var s := [x] + r;
    forall i, j | 0 <= i < j < |s| ensures s[i].id != s[j].id {
      assert s[j] == r[j - 1];
      if i > 0 {
        assert s[i] == r[i - 1];
      }
    }
  }


  /** Adding twice is adding once. */
  lemma AddIdempotent(items: seq<Product>, product: Product)
    ensures AddToWishlist(AddToWishlist(items, product), product) == AddToWishlist(items, product)
  {
  }

  /** Adding a product whose id is not listed and then removing that id restores the list. */
  lemma AddThenRemove(items: seq<Product>, product: Product)
    requires !Listed(items, product.id)
    ensures RemoveFromWishlist(AddToWishlist(items, product), product.id) == items
  {
    FilterAppend(items, [product], NotId(product.id));
    FilterAll(items, NotId(product.id));
    assert Filter([product], NotId(product.id)) == [] by {
      FilterCons(product, [], NotId(product.id));
    }
  }
}
